=== FILE: README.md ===
# A Dafny model of the todo-app web client

The todo-app client is a Next.js/React front end for a task server. Users
list, filter, sort, create, edit, complete and delete tasks. Tasks are
grouped into categories and carry tags. The repository holds two
generations of the client:

- the newer one under `src/`, with an English task record (`title`,
  `dueDate`, `completedAt`, `categoryId`) and a shared query bus that makes
  every task list reload after a change;
- the earlier one under `components/` and `hooks/`, with a German record
  (`titel`, `faelligkeit`, `abgeschlossen`, `kategorie`), where each list
  edits its own copy of the tasks.

This project models the rules behind the components of both clients as
pure Dafny functions over immutable datatypes, and proves what those rules
promise. The modules follow the source's components:

- **Task views**:
  - `QueryBus`: the invalidation subscriber set;
  - `TaskView`: the task list hook, with its load URL, done filter, error
    state, update and delete;
  - `TaskOrder`: the display comparator and a sort by it, with undated
    tasks after the dated ones (newer client) or before them (earlier one);
  - `TasksContainer` (newer) and `LegacyTasks` (earlier): the list
    containers;
  - `Overview`: the nine-window overview page;
  - `Dashboard`: the sections by days until due.
- **Task editing**:
  - `TaskCard`: the due label, the status badge and the completion
    toggle;
  - `TaskDialog`: the newer dialog;
  - `LegacyTaskForm`, `LegacyTaskDialog`, `CreateTaskDialog` and
    `EditTaskDialog`: the earlier dialogs.
- **Query strings and routes**:
  - `SearchParams`: `URLSearchParams` as a list of pairs;
  - `SearchMenu` and `FilterBar`;
  - `Middleware`: the route guard.
- **Categories**:
  - `Categories`: the shared editor state and the category list edits;
  - `CategoryManagement`: the newer sidebar;
  - `CategoryList`: the earlier sidebars;
  - `CategorySelect`: the picker.
- **Validators and normalisers**: `ResetPassword`, `AccountCard` and
  `Tags`.
- **Shared vocabulary**:
  - `Base`: `Option` and order-preserving filter and count;
  - `Keyed`: the `map` and `filter` by id that both clients apply to a local list of tasks or categories;
  - `Text`: JavaScript `trim` with the ECMAScript white-space set, split,
    join, and decimal number text.

Modelling conventions:

- Instants are integer milliseconds. An ISO date string is modelled as the
  decimal text of its instant (`Text.IntToString`), so reading back a
  written date is exact.
- `null` and `undefined` are both `None`.
- Every server reply, the current time and the browser's search
  parameters are parameters of the operation that uses them. Effects such
  as requests, invalidations and closing a dialog are returned as values,
  in the order the source performs them.
- The `useTasks` hook is modelled as it is declared, with two parameters.
  `src/components/task/TasksContainer.tsx` calls it with three arguments;
  that call is the first finding below.

## Model

| member | source | states |
|---|---|---|
| QueryBus.Subscribe | src/state/TaskQueryContext.tsx:19-20 | the new subscriber set holds the callback, keeps every earlier subscriber, and gains nothing else |
| QueryBus.Unsubscribe | src/state/TaskQueryContext.tsx:21-25 | the returned unsubscribe removes exactly that callback and keeps every other subscriber |
| QueryBus.SubscribeIdempotent | src/state/TaskQueryContext.tsx:20 | a callback subscribed twice is held once (set semantics) |
| QueryBus.UnsubscribeUndoesSubscribe | src/state/TaskQueryContext.tsx:20-25 | unsubscribing a freshly subscribed callback gives back the earlier set |
| QueryBus.UnsubscribeOther | src/state/TaskQueryContext.tsx:20-25 | removing one callback does not disturb the subscription of a different one |
| QueryBus.InvalidateAll | src/state/TaskQueryContext.tsx:15-17 | the calls made are a permutation of the subscriber set |
| QueryBus.CalledOnce | src/state/TaskQueryContext.tsx:15-17 | every subscriber is called exactly once and no other callback is called |
| TaskView.LoadUrlRoundTrip | src/state/useTasks.ts:29-30 | split at its first "?", the load URL gives back the endpoint and the parameters' query string; it has a "?" exactly when there are parameters |
| TaskView.BeginLoad | src/state/useTasks.ts:25-27 | a load starts with loading on and the error cleared, still showing the previous tasks |
| TaskView.FinishLoad | src/state/useTasks.ts:28-39 | loading ends in every case; data with completed tasks shown is kept as is, otherwise exactly the open tasks stay, in order; a failure empties the list and sets a non-empty error (the thrown message, or the fallback text) |
| TaskView.LoadHidesOnlyCompleted | src/state/useTasks.ts:32 | without completed tasks shown, every open task of the reply is still listed |
| TaskView.LoadForgetsState | src/state/useTasks.ts:25-39 | a load's outcome depends on the reply only; loading the same reply again changes nothing |
| TaskView.Invalidate | src/state/useTasks.ts:43-46 | an invalidation reloads every subscribed list exactly once with its own reply and leaves unsubscribed lists untouched |
| TaskView.UpdateTask | src/state/useTasks.ts:52-59 | the PATCH goes first; the lists are invalidated, and the promise resolves, only when the request succeeded |
| TaskView.DeleteTaskOp | src/state/useTasks.ts:61-64 | the DELETE goes first; invalidation and resolution happen only on success |
| TaskOrder.CompareIsRankOrder | src/components/task/TasksContainer.tsx:110-120 | the comparator orders by the key (completed, placed-after, due instant) lexicographically, and returns 0 exactly on equal keys; undated tasks are the ones placed after in the newer order, dated ones in the corrected earlier order |
| TaskOrder.CompareAntisymmetric | src/components/task/TasksContainer.tsx:110-120 | swapping the two tasks flips the comparator's sign and keeps 0 |
| TaskOrder.LeTotal | src/components/task/TasksContainer.tsx:110-120 | any two tasks are ordered one way or the other |
| TaskOrder.LeTransitive | src/components/task/TasksContainer.tsx:110-120 | the order induced by the comparator is transitive |
| TaskOrder.Insert | src/components/task/TasksContainer.tsx:109-120 | inserting a task adds exactly that task to the list's multiset |
| TaskOrder.InsertSorted | src/components/task/TasksContainer.tsx:109-120 | inserting into a sorted list leaves it sorted |
| TaskOrder.Sort | src/components/task/TasksContainer.tsx:109-120 | the sorted list is a permutation of the input and is ordered by the comparator |
| TaskOrder.SortedGroups | src/components/task/TasksContainer.tsx:111-119 | in a sorted list no completed task precedes an open one; inside a group the undated tasks stay on their side of the dated ones (after them in the newer order, before them in the earlier one), and dated tasks are in non-decreasing due order |
| TaskOrder.SortIsPermutation | src/components/task/TasksContainer.tsx:109-121 | sorting keeps the length and exactly the same tasks |
| TaskOrder.InsertKeepsTies | src/components/task/TasksContainer.tsx:109-120 | insertion only passes over tasks that go strictly first, so among the tasks tied with any `t` the inserted task lands in front |
| TaskOrder.SortStable | src/components/task/TasksContainer.tsx:109-120 | stability of `Array.prototype.sort`: for every `t`, the tasks the comparator ties with `t` come out in their input order |
| TasksContainer.RangeParamsLaws | src/components/task/TasksContainer.tsx:38-50 | with a day range, "from" and "to" occur once each and read back as now plus the range's days; without one the page's parameters pass unchanged; other keys are never touched |
| TasksContainer.ContainerQueryAsWrittenIgnoresArgs | src/components/task/TasksContainer.tsx:59 | the three-argument call against the two-parameter hook requests the same URL whatever the parameters, and shows a completed task even with completed tasks switched off |
| TasksContainer.ContainerQueryIntended | src/state/useTasks.ts:16-19 | with the hook called as declared, the URL carries exactly the container's parameters and a list without completed tasks shows exactly the open ones |
| TasksContainer.HasDataAfterLoad | src/components/task/TasksContainer.tsx:69-71 | after a load the parent hears "has data" exactly when the list shows at least one task; never after a failure |
| TasksContainer.Lift | src/components/task/TasksContainer.tsx:75 | the hook's effects are passed on one for one, in order |
| TasksContainer.HandleUpdate | src/components/task/TasksContainer.tsx:73-83 | the PATCH comes first; a success toasts, invalidates and (with a parent) forwards the task; a failure toasts the error and neither invalidates nor forwards |
| TasksContainer.HandleDelete | src/components/task/TasksContainer.tsx:85-95 | the DELETE comes first; the same success and failure split as an update |
| TasksContainer.Render | src/components/task/TasksContainer.tsx:97-130 | loading wins over the error, the error over the empty text; cards show the tasks as a sorted permutation, and tasks the comparator ties keep their stored order (a stable `Array.prototype.sort`) |
| LegacyTasks.ReplaceOnce | components/task/TasksContainer.tsx:94-124 | when the id occurs once, the update is a point update at its position |
| LegacyTasks.RemoveOnce | components/task/TasksContainer.tsx:118-124 | when the id occurs once, the delete cuts out that one element and keeps the rest in order |
| LegacyTasks.UpdateAsWritten | components/task/TasksContainer.tsx:89-134 | no effect unless the id occurs exactly once; otherwise the list is mapped, has-data is first reported true, and false follows exactly when the open count plus the completion delta is 0 |
| LegacyTasks.DeleteAsWritten | components/task/TasksContainer.tsx:114-134 | no effect unless the id occurs exactly once; otherwise the id is filtered out and has-data false is reported exactly when the open count minus one is 0 |
| LegacyTasks.HasDataDeltaAsWrittenWrong | components/task/TasksContainer.tsx:92-133 | deleting or re-saving a completed task next to one open task reports "no data" while an open task is still listed |
| LegacyTasks.Update | components/task/TasksContainer.tsx:89-134 | the corrected update: same guard and mapping; has-data false is reported exactly when no open task remains afterwards |
| LegacyTasks.Delete | components/task/TasksContainer.tsx:114-134 | the corrected delete: same guard and filter; has-data false is reported exactly when no open task remains afterwards |
| LegacyTasks.FindId | components/task/TasksContainer.tsx:124 | the position found holds the id, which occurs there only |
| LegacyTasks.EditsTouchOnlyTheId | components/task/TasksContainer.tsx:94-126 | with the id present once, an update changes only that position and a delete removes only that element |
| LegacyTasks.AsWrittenRightWhenStateChanges | components/task/TasksContainer.tsx:89-134 | the edits as written leave the same list as the corrected ones, and their "no data" signal agrees with the corrected one whenever a deleted task was open or an update completes or reopens the task |
| LegacyTasks.TagNames | components/task/TasksContainer.tsx:81-83 | the PATCH tag names are all non-empty and trimmed |
| LegacyTasks.TagNamesKeepsCleanNames | components/task/TasksContainer.tsx:79-84 | names already trimmed and non-empty are sent unchanged, in order |
| LegacyTasks.SendOrUpdate | components/task/TasksContainer.tsx:73-86 | the edit goes to the parent exactly when there is one, else the container's own update as written is applied; the PATCH with the payload always follows |
| LegacyTasks.SendOrDelete | components/task/TasksContainer.tsx:101-111 | the delete goes to the parent exactly when there is one, else the container's own delete as written is applied; the DELETE follows, and the tag callback runs exactly when given |
| LegacyTasks.Displayed | components/task/TasksContainer.tsx:136 | the shown list is an order-preserving subsequence of the tasks; without completed tasks shown every listed task is open, every open task is listed and the length is the number of open tasks; otherwise the list is unchanged |
| LegacyTasks.CompareAsWrittenWrong | components/task/TasksContainer.tsx:143-149 | the comparator as written puts a task due 1 February 2025 before one due 31 January 2025, and two undated tasks each claim to go first |
| LegacyTasks.CompareAgreesWhereConsistent | components/task/TasksContainer.tsx:140-148 | across completion groups, and between an undated and a dated task of one group, the comparator as written and the corrected one give the same sign |
| LegacyTasks.SortedForDisplay | components/task/TasksContainer.tsx:136-150 | the corrected display order is a permutation of the filtered list, with open tasks before completed ones, undated tasks first in each group and dated ones by due instant; tied tasks (two undated open ones, say) keep their relative order |
| LegacyTasks.LoadQueryString | TasksAPI.ts:17-19 | the query string is that of a parameter object in the fifth declared slot, and "" when that slot is empty |
| LegacyTasks.LoadAsWrittenDropsParams | components/task/TasksContainer.tsx:56-61 | as written the data callback fills the route slot, the failure callback the `callback` slot, the settling callback the `catchRun` slot and the parameters the `finallyRun` slot; no called slot holds the data callback, the `searchParams` slot stays empty, and the query string is "" whatever the parameters hold |
| LegacyTasks.LoadIntendedSendsParams | TasksAPI.ts:17-22 | called as declared, the route and the three callbacks fill their own slots and the query string is exactly the parameters' |
| Overview.Range | components/task/OverviewTasks.tsx:46-62 | the corrected range of a list: a span passes through as written, a single day becomes that day to that day |
| Overview.DayWindowsAsWrittenUnbounded | components/task/TasksDisplay.tsx:37 | as written, the parameters built for the "Heute" and "Morgen" lists hold no "from" or "to" at all |
| Overview.WindowsBounded | components/task/OverviewTasks.tsx:46-62 | with the corrected ranges, the parameters built for each of the nine lists hold one "from" and one "to" at exactly its window's days (whether they are sent is the next two rows) |
| Overview.WindowsAsWrittenSendNoQuery | components/task/TasksContainer.tsx:42-61 | with the call as written no list sends a query string, whether or not its day window is corrected |
| Overview.WindowsQueriedIntended | components/task/OverviewTasks.tsx:46-62 | with both the ranges and the call corrected, each list sends the query string of parameters holding exactly its window's days |
| Overview.WindowsCoverAndOverlap | components/task/OverviewTasks.tsx:46-62 | the windows cover every day from today to day 34, and today lies in four of them at once |
| Overview.BroadcastUpdate | components/task/OverviewTasks.tsx:24-28 | every mounted list runs its own container's update as written; an unmounted list is left as it was and reports nothing |
| Overview.BroadcastDelete | components/task/OverviewTasks.tsx:30-34 | every mounted list runs its own container's delete as written; an unmounted list is left as it was and reports nothing |
| Overview.BroadcastTouchesOnlyHolders | components/task/OverviewTasks.tsx:24-34 | a broadcast leaves a list alone unless it is mounted and holds the id exactly once; there it replaces or removes only that task |
| Overview.InitialEntries | components/task/OverviewTasks.tsx:12-22 | one entry per window, all flags unset, refs pairwise distinct (the precondition the flag updates need) |
| Overview.OnHasDataChanged | components/task/OverviewTasks.tsx:36-38 | the entry list keeps its length |
| Overview.OnHasDataChangedOnlyMatching | components/task/OverviewTasks.tsx:36-38 | with distinct refs only the entry with the given ref changes; an unknown ref changes nothing |
| Overview.ApplySignalsLast | components/task/OverviewTasks.tsx:36-38 | after a run of has-data reports from one list, its entry holds the last value and the others are unchanged |
| Overview.EmptyMessageIff | components/task/OverviewTasks.tsx:43-44 | "Keine Daten verfügbar." shows exactly when no entry has reported data |
| Overview.InitialShowsEmpty | components/task/OverviewTasks.tsx:12-44 | before any list reports, the message shows |
| Overview.DeleteFlag | components/task/TasksContainer.tsx:114-134 | after a local delete as written the list's flag turns false exactly when the open count before the delete, minus one, is 0, whichever task was deleted; otherwise the entries stay |
| Overview.DeleteFlagIntended | components/task/TasksContainer.tsx:114-134 | with the corrected delete the list's flag turns false exactly when no open task remains there; otherwise the entries stay |
| Dashboard.DayDiff | src/components/dashboard/Dashboard.tsx:29-31 | the day difference is the floor of the elapsed time in days: d whole days fit, d + 1 do not |
| Dashboard.SectionOf | src/components/dashboard/Dashboard.tsx:13-20 | an independent reference: a difference of at most 29 days has exactly one section, a larger one none |
| Dashboard.WindowsPartition | src/components/dashboard/Dashboard.tsx:13-33 | a difference lies in section i's window exactly when the reference assigns it section i |
| Dashboard.SectionsDisjoint | src/components/dashboard/Dashboard.tsx:13-20 | no task falls in two sections |
| Dashboard.ListedSomewhere | src/components/dashboard/Dashboard.tsx:13-55 | a task falls in some section exactly when it has a due date at most 29 days ahead |
| Dashboard.SectionTasks | src/components/dashboard/Dashboard.tsx:55 | each section's list holds only tasks of that section, as an order-preserving subsequence of the loaded tasks |
| Dashboard.Placements | src/components/dashboard/Dashboard.tsx:13-55 | a task occupies one section entry when it is listed and none otherwise |
| Dashboard.SectionsCoverListed | src/components/dashboard/Dashboard.tsx:54-55 | together the six sections list each task due within 29 days exactly once and nothing else |
| Dashboard.SectionNonEmptyIff | src/components/dashboard/Dashboard.tsx:39-55 | a section's filtered list is non-empty exactly when some task falls in it, which links `tasks.some` in the effect to `filter` in the rendering |
| Dashboard.Shown | src/components/dashboard/Dashboard.tsx:51-58 | nothing is rendered while loading or with an error; after a settled load section i is rendered exactly when some dated task falls in its window, and then with its filtered list |
| Dashboard.RecomputeActive | src/components/dashboard/Dashboard.tsx:39-45 | while loading or with an error the flags stay as they were; after a settled load section i is active exactly when its filtered list is non-empty |
| Dashboard.NavMatchesShown | src/components/dashboard/Dashboard.tsx:39-96 | after a settled load (no error message, an empty one included) a navigation button is offered exactly for each section that is shown |
| Dashboard.ShownOpenOnly | src/components/dashboard/Dashboard.tsx:23-55 | the dashboard loads without completed tasks, so every section shows open tasks only |
| Dashboard.OverdueBadgeIffOverdueSection | src/components/dashboard/Dashboard.tsx:14-33 | for an open dated task, the card's "Überfällig" badge and the "Überfällig" section agree |
| Dashboard.DashboardCardsDropChanges | src/components/dashboard/Dashboard.tsx:67-68 | as written, ticking or deleting a card on the dashboard sends neither the toggled task nor a delete |
| Dashboard.DashboardCardsSaveChanges | src/components/dashboard/Dashboard.tsx:67-68 | routed through the list hook, the toggled task or the delete is sent first and the lists reload only after success |
| TaskCard.CalendarDayDiff | src/components/task/TaskCard.tsx:26-28 | the due instant lies on the calendar day `d` days after now's (so 0 is today, 1 tomorrow); a due instant in the past gives at most 0, one in the future at least 0, one within the next day 0 or 1 |
| TaskCard.ParseDueLabelRoundTrip | src/components/task/TaskCard.tsx:29-33 | every due label reads back as the day difference it was made from: 0, 1 and -1 have their own words, larger distances carry the number of days |
| TaskCard.DueLabelInjective | src/components/task/TaskCard.tsx:29-33 | different day differences never share a label |
| TaskCard.StatusBadge | src/components/task/TaskCard.tsx:56-68 | "Erledigt" exactly for a completed task; "Überfällig" exactly for an open task due before now; "Offen" otherwise |
| TaskCard.OverdueLabel | src/components/task/TaskCard.tsx:25-60 | an overdue badge always comes with a label for today or past days, never future ones |
| TaskCard.Toggle | src/components/task/TaskCard.tsx:36-43 | the toggled task flips completion, is stamped with now when it becomes completed, and keeps every other field |
| TaskCard.ToggleTwiceOpen | src/components/task/TaskCard.tsx:40-43 | ticking and unticking an open task gives it back unchanged |
| TaskCard.ToggleTwiceCompleted | src/components/task/TaskCard.tsx:40-43 | unticking and ticking a completed task changes only its completion instant |
| TaskCard.ToggleBadge | src/components/task/TaskCard.tsx:36-68 | after a toggle an open task shows "Erledigt" and a completed one does not |
| TaskCard.HandleToggle | src/components/task/TaskCard.tsx:38-49 | the toggled task goes to the update callback; the error toast appears exactly when that rejects |
| TaskDialog.Issues | src/components/task/TaskDialog.tsx:29-36 | the schema reports the title exactly when it trims to empty, the due date exactly when it is missing, the category exactly when it is empty; no issue exactly when all three pass; issues come in field order, each with its field's message |
| TaskDialog.MessageForFixed | src/components/task/TaskDialog.tsx:95-99 | when every issue carries its field's message, a field's error text is that message exactly when an issue about the field is present |
| TaskDialog.ErrorsOfIssues | src/components/task/TaskDialog.tsx:94-100 | each field shows an error exactly when it fails validation, and then its own message |
| TaskDialog.FirstMessage | src/components/task/TaskDialog.tsx:101 | the toast shows the first issue's message, or "Fehlerhafte Eingabe" when there is none |
| TaskDialog.ParseTagList | src/components/task/TaskDialog.tsx:108-110 | an empty tag field gives no list; otherwise every tag is non-empty, trimmed and comma-free |
| TaskDialog.ParseTagListRoundTrip | src/components/task/TaskDialog.tsx:76-110 | parsing the ", "-joined names of clean tags gives back the same names; no tags give no list |
| TaskDialog.CreatePayload | src/components/task/TaskDialog.tsx:113-120 | the create body has the trimmed title, the picked due instant, the parsed tag list, and a completion instant exactly when the box is ticked |
| TaskDialog.EditPayload | src/components/task/TaskDialog.tsx:123-131 | the edit body keeps the task's id and trimmed title; an unticked box clears completion, a ticked one keeps the task's own instant or stamps now |
| TaskDialog.Request | src/components/task/TaskDialog.tsx:112-133 | a request is built exactly in create mode or when a task is being edited, and it is a create or update call |
| TaskDialog.AfterRequest | src/components/task/TaskDialog.tsx:135-140 | invalidation and close follow exactly a successful request; no further call is made |
| TaskDialog.Submit | src/components/task/TaskDialog.tsx:107-140 | the call comes first and only there; close happens exactly after a successful call, and invalidation exactly with it |
| TaskDialog.HandleSave | src/components/task/TaskDialog.tsx:84-141 | invalid input sets the field errors and toasts the first message without a request; valid input clears the errors and submits |
| TaskDialog.SaveOnlyWhenValid | src/components/task/TaskDialog.tsx:94-140 | a request is made exactly for valid input (with a task in edit mode); invalidation and close happen exactly after a successful request of valid input |
| TaskDialog.Init | src/components/task/TaskDialog.tsx:70-82 | outside edit mode with a task every field and error resets; in edit mode the errors stay and the box shows whether the task is completed |
| TaskDialog.EditUnchangedRoundTrip | src/components/task/TaskDialog.tsx:70-131 | opening a clean task for editing and saving it unchanged sends the task's own title, due date, description, category, tag names and completion instant |
| TaskDialog.HandleDelete | src/components/task/TaskDialog.tsx:143-149 | the delete acts exactly in edit mode with a task and a delete handler: the handler hears the task's id, then every subscribed list is invalidated, then the dialog closes |
| LegacyTaskForm.Check | components/task/TaskDialog.tsx:79-83 | the title flag is set exactly for an all-whitespace title, the date flag exactly without a date, the category flag exactly for an all-whitespace category |
| LegacyTaskForm.Stamp | components/task/TaskDialog.tsx:93 | a stored save instant always reads as "done" |
| LegacyTaskForm.TempIdInjective | components/task/CreateTaskDialog.tsx:87 | different positions never get the same placeholder tag id |
| LegacyTaskForm.BuildTags | components/task/TaskDialog.tsx:96-104 | an empty tag field gives no tags; otherwise one tag per comma-separated piece (empty pieces kept), each trimmed, comma-free and with a non-empty id |
| LegacyTaskForm.NewTagIdsDistinct | components/task/CreateTaskDialog.tsx:84-89 | without existing tags every new tag gets its own id |
| LegacyTaskForm.BuildTagsRoundTrip | components/task/EditTaskDialog.tsx:37-74 | building tags from the ", "-joined names of clean tags, reusing their ids by position, gives back the same tags |
| LegacyTaskForm.FieldsOf | components/task/TaskDialog.tsx:123-131 | the form filled from a task carries its date and its ", "-joined tag names, with the box as the caller decides |
| LegacyTaskForm.SetOpen | components/task/TaskDialog.tsx:57-59 | the parent is told of an open or close exactly when it controls the open state |
| LegacyTaskForm.SetOpenEffect | components/task/CreateTaskDialog.tsx:42-45 | uncontrolled, an open or close takes effect at once; controlled, the parent hears it and the shown state waits for the parent |
| LegacyTaskDialog.TaskData | components/task/TaskDialog.tsx:89-105 | in edit mode the task's id and other fields are kept under the form's values; in create mode there are none; the completion is stored exactly when ticked and then reads as done; one tag per piece of a non-empty tag field |
| LegacyTaskDialog.HandleSave | components/task/TaskDialog.tsx:78-119 | the flags are set from the check; data goes to the save handler exactly when no flag is set; after a resolved save create mode resets the form, and both modes close; a rejected save keeps the dialog open with its input |
| LegacyTaskDialog.Init | components/task/TaskDialog.tsx:122-133 | edit initialisation ticks the box exactly when the stored completion is truthy and not "null"; otherwise the form stays |
| LegacyTaskDialog.EditUnchangedRoundTrip | components/task/TaskDialog.tsx:89-133 | opening a task and saving it unchanged keeps its id, other fields, title, date, category, clean tags with their ids, and whether it is done |
| LegacyTaskDialog.InitReadsFalseAsChecked | components/task/TaskDialog.tsx:131 | a stored "false" is read as ticked although it means open |
| LegacyTaskDialog.HandleDelete | components/task/TaskDialog.tsx:151-156 | the delete acts exactly in edit mode with a task and a delete handler: the handler hears the task's id, then the dialog closes |
| CreateTaskDialog.DoneText | components/task/CreateTaskDialog.tsx:81 | the stored text reads as done exactly when the box was ticked |
| CreateTaskDialog.NewTask | components/task/CreateTaskDialog.tsx:78-90 | the new task carries the form's title, date and category, is done exactly when ticked, and has no tags for an empty tag field |
| CreateTaskDialog.HandleCreate | components/task/CreateTaskDialog.tsx:68-101 | with a flag set nothing is created and only the flags change; otherwise the task is handed over, all fields and flags reset, and the dialog closes (the parent is told exactly when it controls the open state) |
| CreateTaskDialog.CreatedTagIdsDistinct | components/task/CreateTaskDialog.tsx:84-89 | every tag of a created task has its own id |
| EditTaskDialog.InitAsWritten | components/task/EditTaskDialog.tsx:31-40 | as written, the box starts ticked exactly when the stored completion text is non-empty |
| EditTaskDialog.Init | components/task/EditTaskDialog.tsx:31-40 | corrected, the box starts ticked exactly when the stored value means done |
| EditTaskDialog.Saved | components/task/EditTaskDialog.tsx:62-75 | the saved task keeps its id and every other field, takes the form's title, date and category, and reads as done exactly when ticked |
| EditTaskDialog.HandleSave | components/task/EditTaskDialog.tsx:51-77 | the flags come from the check; the task is saved, and the dialog closes, exactly when no flag is set |
| EditTaskDialog.ReopenedTaskSavedDone | components/task/EditTaskDialog.tsx:40-66 | as written, a task saved as open is stored as "false", reopens ticked, and saving it unchanged marks it done |
| EditTaskDialog.UnchangedSaveKeepsTask | components/task/EditTaskDialog.tsx:31-75 | with the box reflecting the stored value, opening and saving unchanged keeps whether the task is done, its id, other fields, title, date, category and clean tags with their ids |
| SearchMenu.Flag | src/components/searchMenu.tsx:17-18 | an absent or empty parameter gives the default; otherwise the switch is on exactly when the value is a non-zero number |
| SearchMenu.InitFrom | src/components/searchMenu.tsx:16-18 | without parameters the title is empty, case is ignored, and completed tasks are not excluded |
| SearchMenu.BuildParams | src/components/searchMenu.tsx:37-40 | a search produces exactly three parameters, in order: the trimmed title, ignorecase as "1"/"0", notDone as "1"/"0" |
| SearchMenu.SearchAndNavigate | src/components/searchMenu.tsx:27-43 | a search is rejected exactly when the title trims to empty; otherwise it replaces the URL with `pathname?` followed by the query string of the built parameters |
| SearchMenu.SearchWithCallback | components/searchMenu.tsx:30-46 | a search is rejected exactly when the title trims to empty; otherwise the callback receives exactly the three parameters |
| SearchMenu.DisabledIffRejected | src/components/searchMenu.tsx:27-55 | the search button is disabled exactly when a click would be rejected |
| SearchMenu.InitBuildRoundTrip | components/searchMenu.tsx:19-43 | reading back the parameters a search produced gives the trimmed title and the same two switches |
| SearchMenu.SearchIdempotent | src/components/searchMenu.tsx:16-40 | searching again from the read-back state sends the same parameters |
| SearchParams.Get | src/components/task/FilterBar.tsx:41-42 | a lookup finds nothing exactly when the key is absent |
| SearchParams.GetAll | src/components/task/FilterBar.tsx:34-39 | all values of a key are empty exactly when the key is absent |
| SearchParams.Delete | src/components/task/FilterBar.tsx:75 | after deleting a key it is absent and the list did not grow |
| SearchParams.GetAllAppend | src/components/task/FilterBar.tsx:76 | the values of a key in two lists joined are the values in the first followed by those in the second |
| SearchParams.GetAllDeleteOther | src/components/task/FilterBar.tsx:75-87 | deleting one key leaves every other key's values as they were |
| SearchParams.DeleteCommutes | src/components/task/FilterBar.tsx:86-87 | deleting "from" then "to" is the same as the other order |
| SearchParams.SetLaws | src/components/task/FilterBar.tsx:83-84 | after a set the key has exactly the one new value, the other entries keep their order, and every other key keeps its values |
| SearchParams.SetFresh | src/components/searchMenu.tsx:37-40 | setting a key no pair carries yet appends one pair at the end and changes nothing else |
| SearchParams.SetThreeDistinct | src/components/searchMenu.tsx:37-40 | three sets with distinct keys on fresh parameters give exactly those three pairs in the order they were set |
| FilterBar.PairsLaws | src/components/task/FilterBar.tsx:76 | the appended pairs hold exactly the given values under the key and nothing under any other key |
| FilterBar.UpdateParamList | src/components/task/FilterBar.tsx:70-78 | afterwards the key's values are exactly the given ones in order; every other key keeps its values, and the other entries keep their relative order |
| FilterBar.UpdateParamListIdempotent | src/components/task/FilterBar.tsx:70-78 | choosing the same values again changes nothing |
| FilterBar.UpdateDateParams | src/components/task/FilterBar.tsx:80-90 | "from" and "to" are both present or both absent, present exactly for a range with both ends; other keys are untouched |
| FilterBar.ReadDateRange | src/components/task/FilterBar.tsx:40-51 | a range is read only when "from" and "to" are both present |
| FilterBar.DateRangeRoundTrip | src/components/task/FilterBar.tsx:40-90 | a complete range written into the parameters reads back as the same instants; anything else reads back as no range |
| FilterBar.CategoriesChange | src/components/task/FilterBar.tsx:54-95 | changing the categories shows exactly the new ones and keeps the selected tags and the range |
| FilterBar.TagsChange | src/components/task/FilterBar.tsx:54-78 | changing the tags shows exactly the new ones and keeps the selected categories and the range |
| Middleware.Decide | middleware.ts:13-57 | every redirect goes to the login page; a protected, non-public path with a token that `/me` refuses or cannot check redirects and drops the cookie, one without a token redirects and keeps it, and the cookie is dropped in no other case |
| Middleware.SlashPathsProtected | middleware.ts:11-22 | every path starting with "/" that is not public counts as protected, because "/" is one of the protected prefixes |
| Middleware.PublicSubpaths | middleware.ts:5-17 | extending a public path keeps it public, since public routes are matched by prefix |
| Middleware.PassIff | middleware.ts:17-56 | a request passes exactly when its path is public, does not start with "/", or carries a token that `/me` accepts |
| Middleware.LoginPasses | middleware.ts:6-26 | the login page passes whatever the cookie and the server say, so the redirect target never redirects |
| Categories.BlankNameIff | src/components/sidebar/CategoryManagement.tsx:101 | a name is refused as empty exactly when it consists of white space only |
| Categories.AppendCategory | components/sidebar/CategoryManagement.tsx:99 | the created category is added at the end and the earlier entries are kept in order |
| Categories.ReplaceCategoryAt | components/sidebar/CategoryManagement.tsx:126-130 | with distinct ids, a rename changes exactly the one position holding that id and keeps the ids distinct |
| Categories.RemoveCategoryAt | components/sidebar/CategoryManagement.tsx:158 | with distinct ids, deleting the category at one position removes just that position and keeps the ids distinct |
| CategoryManagement.HandleCreate | src/components/sidebar/CategoryManagement.tsx:100-113 | the create request is made exactly for a name that is not blank, with that name; only a request that went through closes the input and clears the name |
| CategoryManagement.HandleUpdate | src/components/sidebar/CategoryManagement.tsx:120-133 | the rename request is made exactly when a category is being renamed and the name is not blank, with that category's id as text and the name; only success ends renaming |
| CategoryManagement.HandleDelete | src/components/sidebar/CategoryManagement.tsx:139-153 | the delete request is made exactly when a delete is pending and more than one category is listed; the last category is never deleted and its pending delete is dropped |
| CategoryManagement.DeleteCallIffEnabled | src/components/sidebar/CategoryManagement.tsx:135-153 | after choosing "delete" on a category, a delete request for that category's id is made exactly when the menu item was enabled |
| CategoryManagement.CallIdNamesCategory | src/components/sidebar/CategoryManagement.tsx:115-153 | the id sent with a rename or delete is the id of the category the action was started on |
| CategoryManagement.RenameUnchangedSends | src/components/sidebar/CategoryManagement.tsx:115-133 | starting a rename and saving straight away sends the category's own name |
| CategoryManagement.CancelStopsPending | src/components/sidebar/CategoryManagement.tsx:155-160 | after cancel no create, rename or delete request can be made and the editing state is idle |
| CategoryManagement.FreshCreateRefused | src/components/sidebar/CategoryManagement.tsx:95-104 | the "+" action opens an empty input, so creating straight away is refused without a request |
| CategoryList.HandleCreate | components/sidebar/CategoryManagement.tsx:91-107 | a blank name or a failed request changes nothing; a created category is appended and creating mode ends with the name cleared |
| CategoryList.HandleUpdate | components/sidebar/CategoryManagement.tsx:116-138 | without a category being renamed, with a blank name or a failed request nothing changes; otherwise the answer replaces the entries with its id and renaming ends |
| CategoryList.HandleDelete | components/sidebar/CategoryManagement.tsx:146-165 | nothing pending or a failed request changes nothing; the last category is kept and its pending delete dropped; otherwise the deleted id is filtered out |
| CategoryList.HandleCancel | components/sidebar/CategoryManagement.tsx:168-173 | the list stays and every editing state is reset |
| CategoryList.DeleteKeepsOne | components/sidebar/AppSidebar.tsx:193-212 | with distinct ids a delete never empties a non-empty list and keeps the ids distinct |
| CategoryList.DuplicateIdsDeletedTogether | components/sidebar/AppSidebar.tsx:205 | two entries sharing the deleted id both vanish |
| CategoryList.RenameChangesOneEntry | components/sidebar/AppSidebar.tsx:163-185 | with distinct ids, a rename answered with a listed id changes that entry only |
| CategoryList.CreateKeepsDistinct | components/sidebar/AppSidebar.tsx:138-154 | a created category with a fresh id keeps the ids distinct |
| CategorySelect.Init | src/components/categorySelect.tsx:29-30 | the picker starts closed, holding the given value or "" without one |
| CategorySelect.Sync | src/components/categorySelect.tsx:33-35 | a given value replaces the picker's own one; without one the picker is unchanged |
| CategorySelect.HandleSelect | src/components/categorySelect.tsx:37-42 | choosing the selected entry clears it and choosing another selects it; the popover closes and the listener hears the new value |
| CategorySelect.SelectTwiceClears | src/components/categorySelect.tsx:37-42 | choosing the same other entry twice ends with nothing selected |
| CategorySelect.Find | src/components/categorySelect.tsx:54 | a found category is listed and its id's text is the value; nothing is found exactly when no listed id reads as the value |
| CategorySelect.LabelOf | src/components/categorySelect.tsx:53-55 | the placeholder shows exactly when nothing is selected; a shown name belongs to a listed category whose id reads as the value |
| CategorySelect.FindPicked | src/components/categorySelect.tsx:54-69 | with distinct ids, looking up a listed category's id text finds that category |
| CategorySelect.PickThenLabel | src/components/categorySelect.tsx:37-69 | after picking a listed category the button shows its name, or the placeholder when the pick cleared it |
| ResetPassword.TokenValid | src/components/auth/resetPassword.tsx:28-36 | the link is valid exactly when a non-empty token came with it and the verify request answered 200 |
| ResetPassword.CheckPasswords | src/components/auth/resetPassword.tsx:46-53 | too short exactly when the password is missing or under six characters; a mismatch exactly when it is long enough and the repetition differs; a pass only for a long enough password typed twice |
| ResetPassword.HandleReset | src/components/auth/resetPassword.tsx:38-74 | a request is made exactly when the check passes; a failed check only clears the error; success is set only by an ok reply; a refusal shows the server's message or the default one, any other failure the network message |
| ResetPassword.Render | src/components/auth/resetPassword.tsx:76-131 | each view is shown exactly under its condition: verifying, invalid link, success, error, form |
| ResetPassword.LengthCheckedFirst | src/components/auth/resetPassword.tsx:46-53 | a short pair is reported as too short even when the two also differ |
| ResetPassword.SentPasswordsAgree | src/components/auth/resetPassword.tsx:46-60 | a request is only sent with a password of six or more characters typed the same twice |
| ResetPassword.SubmitFromForm | src/components/auth/resetPassword.tsx:38-131 | from the form, a submit leads to success, to the error card, or back to the form exactly when the check failed |
| ResetPassword.InvalidLinkIff | src/components/auth/resetPassword.tsx:28-82 | the invalid-link view shows exactly when no token came or the server did not answer 200 |
| AccountCard.Issues | src/components/accountCard.tsx:13-22 | each rule's message is reported exactly when that rule is broken, nothing else is reported, and no issue means all three rules hold |
| AccountCard.HandleSave | src/components/accountCard.tsx:31-59 | a body with the e-mail and password is sent exactly when the form is valid, otherwise the first issue's message is shown; only a save that went through closes the form and clears both password fields |
| AccountCard.FirstMessageOrder | src/components/accountCard.tsx:13-54 | the message shown names the first broken rule in the order e-mail, password length, repetition |
| AccountCard.SentBodyValid | src/components/accountCard.tsx:35-45 | a sent body always holds an e-mail address and a password of six or more characters that matches its repetition |
| AccountCard.SavedFormCleared | src/components/accountCard.tsx:48-51 | after a successful save the form is closed, the e-mail kept and no password left in it |
| Tags.Normalize | src/state/useTags.ts:19-22 | same length; each tag keeps its id and gets its name trimmed |
| Tags.Fetched | src/state/useTags.ts:17-28 | loading ends in every case; an array replaces the tags with its normalised items, any other JSON value empties them, a failure leaves them |
| Tags.StartFetch | src/state/useTags.ts:13-14 | a refetch shows loading and keeps the tags |
| Tags.NormalizeFixesNormalized | src/state/useTags.ts:19-22 | already trimmed tags come back unchanged |
| Tags.NormalizeIdempotent | src/state/useTags.ts:19-22 | normalising twice is normalising once |
| Tags.FetchedKeepsNormalized | hooks/useTags.ts:13-29 | starting from trimmed names, every finished fetch leaves only trimmed names and loading over |
| Text.Trim | src/components/task/TaskDialog.tsx:86 | the result has no white space at either end and is no longer than the input |
| Text.TrimIdempotent | src/components/task/TaskDialog.tsx:86-109 | trimming a trimmed string changes nothing |
| Text.TrimEmptyIff | components/task/CreateTaskDialog.tsx:70-72 | a string trims to nothing exactly when it consists of white space only |
| Text.Split | src/components/task/TaskDialog.tsx:109 | splitting gives at least one piece and no piece holds the separator |
| Text.SplitJoinComma | src/components/task/TaskDialog.tsx:76-109 | splitting names joined with ", " at the commas gives the names back, each after the first with the one blank of the separator in front |
| Text.CommaPieces | src/components/task/TaskDialog.tsx:109 | one trimmed piece per comma-separated part, none holding a comma |
| Text.ParseNatToString | src/components/task/TaskDialog.tsx:75-117 | reading back the decimal text of a natural number gives the number |
| Text.ParseIntToString | src/components/task/TaskDialog.tsx:75-117 | `Number(String(id))` gives the id back for every integer id |
| Base.Filter | components/task/TasksContainer.tsx:118-124 | the kept elements all pass the test and come from the input, and every element of the input that passes is kept |
| Base.FilterAppend | components/task/TasksContainer.tsx:123 | filtering two lists joined is filtering each and joining the results |
| Base.FilterIsSubsequence | components/task/TasksContainer.tsx:118-136 | the filtered list keeps the input's order |
| Base.CountAround | components/task/TasksContainer.tsx:123-124 | a count splits into the part before a position, the element there and the part after it |
| Base.CountOneUnique | components/task/TasksContainer.tsx:124 | when exactly one element passes, any two passing positions are the same |
| Base.FilterNone | components/sidebar/AppSidebar.tsx:205 | filtering with a test no element passes leaves nothing |
| Keyed.FilterDropsOne | components/task/TasksContainer.tsx:118 | when exactly one element fails the test, filtering cuts out that element and keeps the others in order |
| Keyed.ReplaceKeyAt | components/task/TasksContainer.tsx:94-96 | when only one position holds the answered id, the `map` is a point update at that position |
| Keyed.ReplaceKeyAbsent | components/sidebar/AppSidebar.tsx:173-177 | an answered id that is not listed leaves the list as it was |
| Keyed.RemoveKey | components/sidebar/CategoryManagement.tsx:158 | the list does not grow; an element survives exactly when it was listed and has another id |
| Keyed.RemoveKeyAbsent | components/task/TasksContainer.tsx:118 | deleting an id that is not listed leaves the list as it was |
| Keyed.RemoveKeyAll | components/sidebar/AppSidebar.tsx:205 | deleting the id every element carries empties the list |
| Keyed.RemoveKeyAt | components/sidebar/AppSidebar.tsx:205 | when only one position holds the id, deleting it removes just that position and keeps the rest in order |
| SearchParams.GetAllDeleteSame | src/components/task/FilterBar.tsx:75 | after deleting a key no value of it is left |
| SearchParams.DeleteTwice | src/components/task/FilterBar.tsx:75 | deleting a key twice is deleting it once |
| CategorySelect.LabelShowsPicked | src/components/categorySelect.tsx:53-55 | with distinct ids, the value of a listed category shows exactly that category's name |
| CategorySelect.SelectToggles | src/components/categorySelect.tsx:37-42 | from nothing selected, choosing the same entry twice ends with nothing selected |

## Left out

- React rendering, effects, refs and `forwardRef`/`useImperativeHandle` are left out. Only the state transitions and pure rules behind them are modelled. A stale closure seeing an older state is not modelled: each handler gets the current state.
- Network I/O is left out: `fetch`, the fetcher, the task, category and auth APIs, and the category store. Each reply is a parameter, as is the `/me` outcome of the route guard. `TasksAPI` (`loadTodosApi`, `updateTodoApi`, `deleteTodoApi`) is not part of this model, except for how `loadTodosApi` binds its arguments to its declared parameters and builds its query string (`LegacyTasks.LoadQueryString`). The earlier container's first load is therefore left out. The model keeps the parameters that load builds, which are the same as `TasksContainer.RangeParams`, and the fact that the call as written never sends them.
- Toasts, `console` output, timers, navigation and scrolling are left out. Navigation is modelled only as the URL or the parameters produced.
- Dates are not modelled as dates.
  - An ISO string is the decimal text of its instant.
  - A date's validity is whether that text reads back as an integer.
  - `new Date()` is a `now` parameter.
  - An `Invalid Date` throwing in `toISOString` cannot happen in the model.
- TaskCard.CalendarDayDiff: counts calendar days in UTC. The source uses date-fns in the browser's time zone.
- LegacyTasks.CompareAsWritten: reads `getDate()` in UTC for the same reason.
- Adding days to "now" (`setDate(getDate() + n)`) is modelled as adding n times 86 400 000 ms, which ignores daylight-saving shifts.
- The dashboard's whole-days difference is floor((due − now) / 86 400 000). This is not the card's calendar-day label: a task due tomorrow morning can be in the "today" section and read "morgen fällig". Both are modelled as the source computes them.
- SearchParams.ToQueryString: has no percent-encoding. Keys and values are joined as they are, so only its emptiness is stated.
- `Number(...)` on text is modelled for decimal integers with an optional minus sign, and "" as 0 (`Text.JsNumber`). Fractions, exponents, a plus sign, hexadecimal and surrounding white space are not covered.
- AccountCard.Issues: zod's e-mail syntax is a predicate parameter.
- AccountCard.Issues and ResetPassword.CheckPasswords: a password's length is counted in characters, not in UTF-16 code units.
- AccountCard.Issues: zod's refinement is assumed to run even when a field check failed, which is how the schema reports all three issues at once. zod's own abort rules are not modelled.
- `null` and `undefined` are merged into `None`.
  - The earlier comparator's `completedAt === null` test is read as "has no completion".
  - A `completedAt` of `undefined` therefore sorts as open here.
- The earlier dialogs import their task record from `@/types/task`, which is not part of this model. The record's fields are taken from how the dialogs use them: `eintragID`, `titel`, `beschreibung`, `faelligkeit`, `abgeschlossen`, `kategorie` and `tags` of `tagID`/`name`.
- TaskCard.StatusBadge: a due date of `null` is merged into `None` and shows "Offen". The task record declares `dueDate` as a string (src/types/task.ts:6), but if a `null` did arrive, `new Date(null)` is the epoch and the source would show "Überfällig". Only "" and an absent due date give "Offen" in the source.
- The earlier edit dialog stores the text "null" for a missing due date. This text is kept as it is and not read back as a date.
- Exceptions thrown by the earlier edit dialog's `onSave` are not modelled.
- CreateTaskDialog.HandleCreate: always resets the form and closes after handing the task to `onCreate`. In the source a synchronous throw from `onCreate` would skip the reset and the close; exceptions from the handler are not modelled.
- A tag whose name is not a string would make `trim` throw inside the fetch. It is modelled as a failed reply (`Tags.Failed`), which leaves the tags and ends loading.
- The categories fetched on mount by the sidebars come from the category store, which is not part of this model. The lists are inputs.
- The tag refetch callback handed to the task lists only triggers `Tags.StartFetch` and `Tags.Fetched`, so it is not modelled separately.
- A list on the overview page is shown only while its has-data flag is true (components/task/TasksDisplay.tsx:25-37). Once a list reports no data, its container is unmounted and no longer reached by broadcasts. The model keeps every list and tracks the flags only (`Overview.OnHasDataChanged`).
- The theme switcher, sidebar open toggles, error banner, page wrappers, the placeholder auth forms and the test setup are out of scope.

## Findings

The members that model what the client does follow the code as written. `LegacyTasks.SendOrUpdate`, `LegacyTasks.SendOrDelete` and the overview broadcasts use the as-written edits, and the lists load through the call as written. Each corrected member stands beside its as-written one, and a lemma relates the two (for example `LegacyTasks.AsWrittenRightWhenStateChanges`).

| source | as written | input that shows it | evidently intended | confidence | as-written member | corrected member |
|---|---|---|---|---|---|---|
| src/components/task/TasksContainer.tsx:59 | `useTasks(apiRoute, params, showTasksDone)` passes three arguments to a hook that takes `(params, showDone)`. The route string becomes the parameters and the parameter object becomes `showDone`, which is always truthy. | any container with completed tasks switched off, or with two different filters | the hook gets the container's parameters and its done switch | high (not executed) | TasksContainer.ContainerQueryAsWrittenIgnoresArgs | TasksContainer.ContainerQueryIntended |
| src/components/dashboard/Dashboard.tsx:67-68 | the cards' `onUpdate` and `onDelete` only call `invalidateAll` | ticking the checkbox of any dashboard card | the toggled task is sent (PATCH) or the task deleted, and the lists reload after success | high (not executed) | Dashboard.DashboardCardsDropChanges | Dashboard.DashboardCardsSaveChanges |
| components/task/TasksContainer.tsx:122-134 | "no data" is reported when the open count plus a delta is 0. The delta assumes the edited task changed its completion, and the count is taken from the list before the edit. | list [open task 1, completed task 2]: delete task 2, or re-save it still completed | "no data" exactly when no open task remains after the edit | high (not executed) | LegacyTasks.HasDataDeltaAsWrittenWrong | LegacyTasks.Update |
| components/task/TasksContainer.tsx:143-149 | dated tasks are compared by `getDate()`, the day of the month. Two undated tasks each compare as "first". | due 2025-01-31 vs due 2025-02-01; two tasks without a due date | compare the due instants; undated tasks keep their place before the dated ones of their group and tie among themselves | high (not executed) | LegacyTasks.CompareAsWrittenWrong | LegacyTasks.SortedForDisplay |
| components/task/TasksDisplay.tsx:37 | the "Heute" and "Morgen" windows are passed as a `day` prop that the container does not read, so these lists get no `range` | page parameters without "from"/"to": the parameters built for both lists hold no date bound | each day list's parameters bounded to its day, as the span windows' parameters are (none of them is sent, see the next row) | medium (not executed) | Overview.DayWindowsAsWrittenUnbounded | Overview.WindowsBounded |
| components/task/TasksContainer.tsx:56-61 | `loadTodosApi` is called without its first argument `apiRoute`, so each argument lands one declared parameter early: the data callback in `apiRoute`, the error callback in `callback`, the loading callback in `catchRun`, the parameter object in `finallyRun`, nothing in `searchParams`. The fetch asks for the data callback's text as a relative URL; whatever the reply, `updateTasks` is never called (TasksAPI.ts:28 calls the error callback instead), and `finallyRun()` calls the parameter object, which throws a TypeError (TasksAPI.ts:35-36). The earlier lists therefore never show fetched tasks on their first load | any list; for one with a range, for example "Nächste 7 Tage", the query string is also "" | the container's route first, so the built parameters are sent as the query string | high (not executed) | LegacyTasks.LoadAsWrittenDropsParams | LegacyTasks.LoadIntendedSendsParams |
| components/task/EditTaskDialog.tsx:40-66 | an open task is saved with `abgeschlossen` "false", and the box starts as `!!task.abgeschlossen`, which is ticked for "false" | save a task unticked, reopen it and save unchanged | the box reflects whether the stored value means done, so an unchanged save keeps the task open | high (not executed) | EditTaskDialog.ReopenedTaskSavedDone | EditTaskDialog.UnchangedSaveKeepsTask |

=== FILE: account_card.dfy ===
/**
 * The account card: its edit form checks e-mail, password and the repeated
 * password against the account schema, then sends e-mail and password to the
 * server. Whether a string is an e-mail address is left to a predicate given
 * as a parameter.
 */
module AccountCard {
  import opened Base

  const MinPasswordLength: nat := 6

  const EmailMessage: string := "Ungültige E-Mail-Adresse"
  const PasswordMessage: string := "Passwort muss mindestens 6 Zeichen lang sein"
  const MismatchMessage: string := "Passwörter stimmen nicht überein"

  datatype Field = Email | Password | ConfirmPassword

  datatype Issue = Issue(path: Field, message: string)

  datatype Form = Form(editMode: bool, email: string, password: string, confirmPassword: string)

  /**
   * The schema's issues in the order it reports them: the object's fields in
   * declaration order, then the refinement comparing the two passwords (which
   * is reported on the repeated password).
   */
  function Issues(f: Form, isEmail: string -> bool): (r: seq<Issue>)
    ensures (exists i :: 0 <= i < |r| && r[i] == Issue(Email, EmailMessage)) <==> !isEmail(f.email)
    ensures (exists i :: 0 <= i < |r| && r[i] == Issue(Password, PasswordMessage)) <==> |f.password| < MinPasswordLength
    ensures (exists i :: 0 <= i < |r| && r[i] == Issue(ConfirmPassword, MismatchMessage)) <==> f.password != f.confirmPassword
    ensures r == [] <==> isEmail(f.email) && |f.password| >= MinPasswordLength && f.password == f.confirmPassword
    ensures forall i :: 0 <= i < |r| ==> r[i] in [Issue(Email, EmailMessage), Issue(Password, PasswordMessage), Issue(ConfirmPassword, MismatchMessage)]
  {
    var a := if isEmail(f.email) then [] else [Issue(Email, EmailMessage)];
    var b := if |f.password| >= MinPasswordLength then [] else [Issue(Password, PasswordMessage)];
    var c := if f.password == f.confirmPassword then [] else [Issue(ConfirmPassword, MismatchMessage)];
    var r := a + b + c;
    assert |a| <= 1 && |b| <= 1 && |c| <= 1;
    assert forall i :: 0 <= i < |r| ==> r[i] in a || r[i] in b || r[i] in c;
    assert !isEmail(f.email) ==> r[0] == Issue(Email, EmailMessage);
    assert |f.password| < MinPasswordLength ==> r[|a|] == Issue(Password, PasswordMessage);
    assert f.password != f.confirmPassword ==> r[|a| + |b|] == Issue(ConfirmPassword, MismatchMessage);
    r
  }

  /** The body of the PUT request: the e-mail and the password, nothing else. */
  datatype Body = Body(email: string, password: string)

  /**
   * `handleSave` with whether the request went through. Result: the form
   * afterwards, the request body sent (if any), and the toast message of a
   * failed check (if any).
   */
  function HandleSave(f: Form, isEmail: string -> bool, ok: bool): (r: (Form, Option<Body>, Option<string>))
    ensures r.1.Some? <==> Issues(f, isEmail) == []
    ensures r.1.Some? ==> r.1.value == Body(f.email, f.password)
    ensures r.2.Some? <==> r.1.None?
    ensures r.2.Some? ==> r.2.value == Issues(f, isEmail)[0].message
    ensures r.1.Some? && ok ==> r.0 == f.(editMode := false, password := "", confirmPassword := "")
    ensures r.1.None? || !ok ==> r.0 == f
  {
    var issues := Issues(f, isEmail);
    if issues != [] then (f, None, Some(issues[0].message))
    else if ok then (f.(editMode := false, password := "", confirmPassword := ""), Some(Body(f.email, f.password)), None)
    else (f, Some(Body(f.email, f.password)), None)
  }

  /** The toast names the first broken rule in the order e-mail, password length, repetition. */
  lemma FirstMessageOrder(f: Form, isEmail: string -> bool, ok: bool)
    ensures var msg := HandleSave(f, isEmail, ok).2;
      && (!isEmail(f.email) ==> msg == Some(EmailMessage))
      && (isEmail(f.email) && |f.password| < MinPasswordLength ==> msg == Some(PasswordMessage))
      && (isEmail(f.email) && |f.password| >= MinPasswordLength && f.password != f.confirmPassword ==> msg == Some(MismatchMessage))
  {
  }

  /** A body is sent only with an e-mail address and a password of six or more characters that was typed the same twice. */
  lemma SentBodyValid(f: Form, isEmail: string -> bool, ok: bool)
    requires HandleSave(f, isEmail, ok).1.Some?
    ensures var b := HandleSave(f, isEmail, ok).1.value;
      isEmail(b.email) && |b.password| >= MinPasswordLength && b.password == f.confirmPassword
  {
  }

  /** After a successful save the form is no longer open and no password is left in it. */
  lemma SavedFormCleared(f: Form, isEmail: string -> bool)
    requires Issues(f, isEmail) == []
    ensures var g := HandleSave(f, isEmail, true).0;
      !g.editMode && g.password == "" && g.confirmPassword == "" && g.email == f.email
  {
  }
}

=== FILE: base.dfy ===
/**
 * Small shared vocabulary: an optional value (the source's `undefined`/`null`)
 * and order-preserving filtering of sequences (JavaScript's `Array.filter`).
 */
module Base {

  /** `None` stands for JavaScript's `undefined` or `null`. */
  datatype Option<+T> = None | Some(value: T)

  /** `Array.prototype.filter`: keeps the elements satisfying `p`, in order. */
  function Filter<T(==)>(s: seq<T>, p: T -> bool): (r: seq<T>)
    ensures |r| <= |s|
    ensures forall i :: 0 <= i < |r| ==> p(r[i]) && r[i] in s
    ensures forall i :: 0 <= i < |s| && p(s[i]) ==> s[i] in r
  {
    if s == [] then []
    else if p(s[0]) then [s[0]] + Filter(s[1..], p)
    else Filter(s[1..], p)
  }

  lemma FilterAppend<T>(a: seq<T>, b: seq<T>, p: T -> bool)
    ensures Filter(a + b, p) == Filter(a, p) + Filter(b, p)
  {
    if a == [] {
      assert a + b == b;
    } else {
      assert (a + b)[1..] == a[1..] + b;
      FilterAppend(a[1..], b, p);
    }
  }

  /** Filtering with a predicate every element satisfies changes nothing. */
  lemma FilterAll<T>(s: seq<T>, p: T -> bool)
    requires forall i :: 0 <= i < |s| ==> p(s[i])
    ensures Filter(s, p) == s
  {
    if s != [] {
      FilterAll(s[1..], p);
    }
  }

  /** Filtering with a predicate no element satisfies leaves nothing. */
  lemma {:induction false} FilterNone<T>(s: seq<T>, p: T -> bool)
    requires forall i :: 0 <= i < |s| ==> !p(s[i])
    ensures Filter(s, p) == []
  {
    if s != [] {
      assert forall i :: 0 <= i < |s[1..]| ==> s[1..][i] == s[i + 1];
      FilterNone(s[1..], p);
    }
  }

  /** Number of elements satisfying `p`. */
  function Count<T(==)>(s: seq<T>, p: T -> bool): (n: nat)
    ensures n <= |s|
    ensures n == |Filter(s, p)|
  {
    if s == [] then 0
    else (if p(s[0]) then 1 else 0) + Count(s[1..], p)
  }

  /** `a` can be obtained from `b` by deleting elements (relative order kept). */
  predicate IsSubsequence<T(==)>(a: seq<T>, b: seq<T>)
    decreases |b|
  {
    if a == [] then true
    else if b == [] then false
    else (a[0] == b[0] && IsSubsequence(a[1..], b[1..])) || IsSubsequence(a, b[1..])
  }

  /** Filtering yields an order-preserving subsequence of its input. */
  lemma {:induction false} FilterIsSubsequence<T>(s: seq<T>, p: T -> bool)
    ensures IsSubsequence(Filter(s, p), s)
  {
    if s == [] {
    } else if p(s[0]) {
      FilterIsSubsequence(s[1..], p);
      assert ([s[0]] + Filter(s[1..], p))[1..] == Filter(s[1..], p);
    } else {
      FilterIsSubsequence(s[1..], p);
    }
  }

  /** Every sequence is a subsequence of itself. */
  lemma {:induction false} SubsequenceRefl<T>(s: seq<T>)
    ensures IsSubsequence(s, s)
  {
    if s != [] {
      SubsequenceRefl(s[1..]);
    }
  }

  lemma CountAppend<T>(a: seq<T>, b: seq<T>, p: T -> bool)
    ensures Count(a + b, p) == Count(a, p) + Count(b, p)
  {
    FilterAppend(a, b, p);
  }

  /** Counting around position `k`: the part before it, the element itself, the part after it. */
  lemma CountAround<T>(s: seq<T>, k: int, p: T -> bool)
    requires 0 <= k < |s|
    ensures Count(s, p) == Count(s[..k], p) + (if p(s[k]) then 1 else 0) + Count(s[k + 1..], p)
  {
    var before, at, after := s[..k], [s[k]], s[k + 1..];
    SplitAround(s, k);
    CountAppend(before + at, after, p);
    CountAppend(before, at, p);
    CountSingle(s[k], p);
  }

  /** A sequence is its part before `k`, its element at `k` and its part after `k`. */
  lemma SplitAround<T>(s: seq<T>, k: int)
    requires 0 <= k < |s|
    ensures s == s[..k] + [s[k]] + s[k + 1..]
  {
    assert s[..k + 1] == s[..k] + [s[k]];
    assert s == s[..k + 1] + s[k + 1..];
  }

  lemma CountSingle<T>(x: T, p: T -> bool)
    ensures Count([x], p) == (if p(x) then 1 else 0)
  {
    assert [x][1..] == [];
  }

  /** When exactly one element satisfies `p`, any two positions satisfying it coincide. */
  lemma CountOneUnique<T>(s: seq<T>, p: T -> bool, i: int, j: int)
    requires Count(s, p) == 1
    requires 0 <= i < |s| && 0 <= j < |s| && p(s[i]) && p(s[j])
    ensures i == j
  {
    if i != j {
      var (lo, hi) := if i < j then (i, j) else (j, i);
      CountTwo(s, p, lo, hi);
    }
  }

  /** Two positions satisfying `p` make the count at least two. */
  lemma CountTwo<T>(s: seq<T>, p: T -> bool, lo: int, hi: int)
    requires 0 <= lo < hi < |s| && p(s[lo]) && p(s[hi])
    ensures Count(s, p) >= 2
  {
    CountAround(s, lo, p);
    var after := s[lo + 1..];
    assert after[hi - lo - 1] == s[hi];
    assert s[hi] in Filter(after, p);
  }
}

=== FILE: categories.dfy ===
/**
 * Categories as the sidebars handle them: the category record, the editing
 * state shared by every sidebar (creating, the category being renamed or
 * deleted, the name typed), and the list edits the earlier client applies
 * locally after the server answered.
 */
module Categories {
  import opened Base
  import opened Keyed
  import opened Text

  datatype Category = Category(id: int, name: string)

  /** The sidebar's editing state. */
  datatype Editor = Editor(creating: bool, editing: Option<Category>, deleting: Option<Category>, name: string)

  const Idle: Editor := Editor(false, None, None, "")

  /** The "+" action: open the create input with an empty name. */
  function StartCreate(e: Editor): Editor {
    e.(creating := true, name := "")
  }

  /** "Kategorie bearbeiten": rename this category, starting from its name. */
  function StartEdit(e: Editor, c: Category): Editor {
    e.(editing := Some(c), name := c.name)
  }

  /** "Kategorie löschen": ask to confirm deleting this category. */
  function ConfirmDelete(e: Editor, c: Category): Editor {
    e.(deleting := Some(c))
  }

  /** Cancel: leave creating, renaming and deleting, and clear the name. */
  function Cancel(e: Editor): Editor {
    Idle
  }

  /** `!name.trim()`. */
  predicate BlankName(name: string) {
    Trim(name) == ""
  }

  lemma BlankNameIff(name: string)
    ensures BlankName(name) <==> AllSpace(name)
  {
    TrimEmptyIff(name);
  }

  /** `categories.length <= 1`: the last category cannot be deleted. */
  predicate IsLast(cs: seq<Category>) {
    |cs| <= 1
  }

  predicate DistinctIds(cs: seq<Category>) {
    forall i, j :: 0 <= i < j < |cs| ==> cs[i].id != cs[j].id
  }

  // ---------------------------------------------------------------------
  // list edits of the earlier client

  /** `[...categories, created]`. */
  function AppendCategory(cs: seq<Category>, c: Category): (r: seq<Category>)
    ensures |r| == |cs| + 1 && r[..|cs|] == cs && r[|cs|] == c
  {
    cs + [c]
  }

  /** The key the list edits match on: `cat.id`. */
  function CategoryId(c: Category): int {
    c.id
  }

  /**
   * With distinct ids, the rename `categories.map(cat => cat.id === u.id ? u : cat)`
   * of the category at `k` changes that position only and keeps the ids distinct.
   */
  lemma ReplaceCategoryAt(cs: seq<Category>, u: Category, k: int)
    requires DistinctIds(cs) && 0 <= k < |cs| && cs[k].id == u.id
    ensures ReplaceKey(cs, CategoryId, u) == cs[k := u]
    ensures DistinctIds(ReplaceKey(cs, CategoryId, u))
  {
    ReplaceKeyAt(cs, CategoryId, u, k);
  }

  /**
   * With distinct ids, the delete `categories.filter(cat => cat.id !== id)` of
   * the category at `k` removes just that position and keeps the ids distinct.
   */
  lemma RemoveCategoryAt(cs: seq<Category>, k: int)
    requires DistinctIds(cs) && 0 <= k < |cs|
    ensures RemoveKey(cs, CategoryId, cs[k].id) == cs[..k] + cs[k + 1..]
    ensures DistinctIds(RemoveKey(cs, CategoryId, cs[k].id))
  {
    forall j | 0 <= j < |cs| && j != k ensures CategoryId(cs[j]) != CategoryId(cs[k]) {
      if j < k { assert cs[j].id != cs[k].id; } else { assert cs[k].id != cs[j].id; }
    }
    RemoveKeyAt(cs, CategoryId, k);
    DropKeepsDistinct(cs, k);
  }

  /** Dropping one position keeps the remaining ids distinct. */
  lemma DropKeepsDistinct(cs: seq<Category>, k: int)
    requires DistinctIds(cs) && 0 <= k < |cs|
    ensures DistinctIds(cs[..k] + cs[k + 1..])
  {
    var r := cs[..k] + cs[k + 1..];
    forall i, j | 0 <= i < j < |r| ensures r[i].id != r[j].id {
      var i' := if i < k then i else i + 1;
      var j' := if j < k then j else j + 1;
      assert r[i] == cs[i'] && r[j] == cs[j'];
    }
  }
}

=== FILE: category_list.dfy ===
/**
 * The earlier client's category sidebar, in both places it appears (the
 * stand-alone category panel and the app sidebar carry the same handlers):
 * each sidebar keeps its own copy of the list and edits it locally with
 * what the server answered.
 */
module CategoryList {
  import opened Base
  import opened Keyed
  import opened Text
  import opened Categories

  datatype State = State(cs: seq<Category>, editor: Editor)

  /**
   * `handleCreateCategory` with the server's answer (`None` when the request
   * threw): a blank name is refused before any request; a created category
   * is appended and creating mode ends with the name cleared.
   */
  function HandleCreate(st: State, created: Option<Category>): (r: State)
    ensures AllSpace(st.editor.name) || created.None? ==> r == st
    ensures !AllSpace(st.editor.name) && created.Some? ==>
      r.cs == AppendCategory(st.cs, created.value) && r.editor == st.editor.(creating := false, name := "")
  {
    TrimEmptyIff(st.editor.name);
    if BlankName(st.editor.name) then st
    else if created.None? then st
    else State(AppendCategory(st.cs, created.value), st.editor.(creating := false, name := ""))
  }

  /** Whether a rename request is made: a category is being renamed and the name is not blank. */
  predicate UpdateSends(st: State) {
    st.editor.editing.Some? && !BlankName(st.editor.name)
  }

  /**
   * `handleUpdateCategory` with the server's answer: silently nothing when no
   * category is being renamed, refused when the name is blank; the returned
   * category replaces every entry with its id, and renaming mode ends.
   */
  function HandleUpdate(st: State, updated: Option<Category>): (r: State)
    ensures !UpdateSends(st) || updated.None? ==> r == st
    ensures UpdateSends(st) && updated.Some? ==>
      r.cs == ReplaceKey(st.cs, CategoryId, updated.value) && r.editor == st.editor.(editing := None, name := "")
  {
    if st.editor.editing.None? then st
    else if BlankName(st.editor.name) then st
    else if updated.None? then st
    else State(ReplaceKey(st.cs, CategoryId, updated.value), st.editor.(editing := None, name := ""))
  }

  /** Whether a delete request is made: one is pending and it is not the last category. */
  predicate DeleteSends(st: State) {
    st.editor.deleting.Some? && !IsLast(st.cs)
  }

  /**
   * `handleDeleteCategory` with whether the request went through: nothing
   * pending does nothing; the last category is never deleted (the pending
   * delete is dropped); a deleted id is filtered out of the list.
   */
  function HandleDelete(st: State, ok: bool): (r: State)
    ensures st.editor.deleting.None? || (DeleteSends(st) && !ok) ==> r == st
    ensures st.editor.deleting.Some? && IsLast(st.cs) ==> r == st.(editor := st.editor.(deleting := None))
    ensures DeleteSends(st) && ok ==>
      r.cs == RemoveKey(st.cs, CategoryId, st.editor.deleting.value.id) && r.editor == st.editor.(deleting := None)
  {
    if st.editor.deleting.None? then st
    else if IsLast(st.cs) then st.(editor := st.editor.(deleting := None))
    else if ok then State(RemoveKey(st.cs, CategoryId, st.editor.deleting.value.id), st.editor.(deleting := None))
    else st
  }

  /** `handleCancelCategoryAction`: the list stays, every editing state is reset. */
  function HandleCancel(st: State): (r: State)
    ensures r.cs == st.cs && !r.editor.creating && r.editor.editing.None? && r.editor.deleting.None? && r.editor.name == ""
  {
    st.(editor := Cancel(st.editor))
  }

  /**
   * With distinct ids, deleting never empties a non-empty list: either the
   * guard keeps the last category, or exactly one entry is removed from at
   * least two.
   */
  lemma DeleteKeepsOne(st: State, ok: bool)
    requires DistinctIds(st.cs) && |st.cs| >= 1
    ensures |HandleDelete(st, ok).cs| >= 1
    ensures DistinctIds(HandleDelete(st, ok).cs)
  {
    if DeleteSends(st) && ok {
      var id := st.editor.deleting.value.id;
      if k :| 0 <= k < |st.cs| && st.cs[k].id == id {
        RemoveCategoryAt(st.cs, k);
      } else {
        RemoveKeyAbsent(st.cs, CategoryId, id);
      }
    }
  }

  /**
   * Ids may repeat only through the server; when they do, the filter takes
   * every entry with the deleted id, so two entries sharing it both vanish.
   */
  lemma DuplicateIdsDeletedTogether(c: Category, d: Category)
    requires c.id == d.id
    ensures HandleDelete(State([c, d], Editor(false, None, Some(c), "")), true).cs == []
  {
    RemoveKeyAll([c, d], CategoryId, c.id);
  }

  /** A rename answered with an id already in a distinct list changes that entry only. */
  lemma RenameChangesOneEntry(st: State, u: Category, k: int)
    requires DistinctIds(st.cs) && 0 <= k < |st.cs| && st.cs[k].id == u.id && UpdateSends(st)
    ensures HandleUpdate(st, Some(u)).cs == st.cs[k := u]
    ensures DistinctIds(HandleUpdate(st, Some(u)).cs)
  {
    ReplaceCategoryAt(st.cs, u, k);
  }

  /** A created category with a fresh id keeps the ids distinct. */
  lemma CreateKeepsDistinct(st: State, c: Category)
    requires DistinctIds(st.cs) && forall i :: 0 <= i < |st.cs| ==> st.cs[i].id != c.id
    ensures DistinctIds(HandleCreate(st, Some(c)).cs)
  {
  }
}

=== FILE: category_management.dfy ===
/**
 * The newer client's category sidebar. The list itself lives in the shared
 * category store, so the handlers here only guard, ask the store for a
 * create, rename or delete, and move the editing state on once the store's
 * request settled.
 */
module CategoryManagement {
  import opened Base
  import opened Text
  import opened Categories

  /** A request handed to the category store; ids travel as their decimal text. */
  datatype Call = AddCall(name: string) | EditCall(id: string, name: string) | RemoveCall(id: string)

  /** What a handler did: the editing state afterwards and the request it made, if any. */
  datatype Step = Step(editor: Editor, call: Option<Call>)

  /**
   * `handleCreateCategory`: a blank name is refused without a request; the
   * name goes to the store as typed, and only a settled request leaves
   * creating mode with the name cleared.
   */
  function HandleCreate(e: Editor, ok: bool): (r: Step)
    ensures r.call.Some? <==> !AllSpace(e.name)
    ensures r.call.Some? ==> r.call.value == AddCall(e.name)
    ensures r.call.Some? && ok ==> r.editor == e.(creating := false, name := "")
    ensures r.call.None? || !ok ==> r.editor == e
  {
    TrimEmptyIff(e.name);
    if BlankName(e.name) then Step(e, None)
    else if ok then Step(e.(creating := false, name := ""), Some(AddCall(e.name)))
    else Step(e, Some(AddCall(e.name)))
  }

  /**
   * `handleUpdateCategory`: refused without a request when nothing is being
   * renamed or the name is blank; a settled rename leaves renaming mode with
   * the name cleared.
   */
  function HandleUpdate(e: Editor, ok: bool): (r: Step)
    ensures r.call.Some? <==> e.editing.Some? && !AllSpace(e.name)
    ensures r.call.Some? ==> r.call.value == EditCall(IntToString(e.editing.value.id), e.name)
    ensures r.call.Some? && ok ==> r.editor == e.(editing := None, name := "")
    ensures r.call.None? || !ok ==> r.editor == e
  {
    TrimEmptyIff(e.name);
    if e.editing.None? || BlankName(e.name) then Step(e, None)
    else
      var call := EditCall(IntToString(e.editing.value.id), e.name);
      if ok then Step(e.(editing := None, name := ""), Some(call)) else Step(e, Some(call))
  }

  /**
   * `handleDeleteCategory` over the categories currently shown: nothing
   * pending does nothing; with at most one category the pending delete is
   * dropped without a request; otherwise a settled delete clears it.
   */
  function HandleDelete(e: Editor, cs: seq<Category>, ok: bool): (r: Step)
    ensures r.call.Some? <==> e.deleting.Some? && !IsLast(cs)
    ensures r.call.Some? ==> r.call.value == RemoveCall(IntToString(e.deleting.value.id))
    ensures e.deleting.Some? && IsLast(cs) ==> r.editor == e.(deleting := None)
    ensures r.call.Some? && ok ==> r.editor == e.(deleting := None)
    ensures e.deleting.None? || (r.call.Some? && !ok) ==> r.editor == e
  {
    if e.deleting.None? then Step(e, None)
    else if IsLast(cs) then Step(e.(deleting := None), None)
    else
      var call := RemoveCall(IntToString(e.deleting.value.id));
      if ok then Step(e.(deleting := None), Some(call)) else Step(e, Some(call))
  }

  /** The "Kategorie löschen" item is disabled while at most one category is shown. */
  predicate DeleteDisabled(cs: seq<Category>) {
    IsLast(cs)
  }

  /**
   * A delete confirmed from the menu reaches the store exactly when the menu
   * item was enabled.
   */
  lemma DeleteCallIffEnabled(e: Editor, c: Category, cs: seq<Category>, ok: bool)
    ensures HandleDelete(ConfirmDelete(e, c), cs, ok).call == (if DeleteDisabled(cs) then None else Some(RemoveCall(IntToString(c.id))))
  {
  }

  /** The id text sent with a rename or delete names the category it came from. */
  lemma CallIdNamesCategory(e: Editor, c: Category, cs: seq<Category>, ok: bool)
    ensures HandleDelete(ConfirmDelete(e, c), cs, ok).call.Some? ==>
      ParseInt(HandleDelete(ConfirmDelete(e, c), cs, ok).call.value.id) == Some(c.id)
    ensures HandleUpdate(StartEdit(e, c), ok).call.Some? ==>
      ParseInt(HandleUpdate(StartEdit(e, c), ok).call.value.id) == Some(c.id)
  {
    ParseIntToString(c.id);
  }

  /** Starting a rename of a category with a non-blank name always sends a request with that name. */
  lemma RenameUnchangedSends(e: Editor, c: Category, ok: bool)
    requires !AllSpace(c.name)
    ensures HandleUpdate(StartEdit(e, c), ok).call == Some(EditCall(IntToString(c.id), c.name))
  {
  }

  /** After Cancel no rename or delete request can be made until a new one is started. */
  lemma CancelStopsPending(e: Editor, cs: seq<Category>, ok: bool)
    ensures HandleUpdate(Cancel(e), ok) == Step(Idle, None)
    ensures HandleDelete(Cancel(e), cs, ok) == Step(Idle, None)
    ensures HandleCreate(Cancel(e), ok) == Step(Idle, None)
  {
    assert AllSpace(Idle.name);
  }

  /** The "+" action always opens an empty input, so creating straight away is refused. */
  lemma FreshCreateRefused(e: Editor, ok: bool)
    ensures StartCreate(e).creating
    ensures HandleCreate(StartCreate(e), ok) == Step(StartCreate(e), None)
  {
    assert AllSpace(StartCreate(e).name);
  }
}

=== FILE: category_select.dfy ===
/**
 * The category picker of the task dialog: a popover list of categories whose
 * value is a category id as text ("" for none). Choosing the selected entry
 * again clears it.
 */
module CategorySelect {
  import opened Base
  import opened Text
  import opened Categories

  datatype State = State(value: string, open: bool)

  const Placeholder: string := "Kategorie auswählen"

  /** The first mount: the given value, or "" when none is given; the popover is closed. */
  function Init(value: Option<string>): (st: State)
    ensures !st.open
    ensures st.value == (if value.Some? then value.value else "")
  {
    State(if value.Some? then value.value else "", false)
  }

  /** The sync effect: a given value replaces the picker's own one; an absent one leaves it. */
  function Sync(st: State, value: Option<string>): (r: State)
    ensures r.open == st.open
    ensures value.Some? ==> r.value == value.value
    ensures value.None? ==> r == st
  {
    if value.Some? then st.(value := value.value) else st
  }

  /**
   * `handleSelect(v)`: choosing the selected value clears it, any other
   * value becomes selected; the popover closes and `onChange` hears the new
   * value (returned second).
   */
  function HandleSelect(st: State, v: string): (r: (State, string))
    ensures !r.0.open
    ensures r.1 == r.0.value
    ensures v == st.value ==> r.0.value == ""
    ensures v != st.value ==> r.0.value == v
  {
    var nv := if v == st.value then "" else v;
    (State(nv, false), nv)
  }

  /** Choosing the same entry twice, starting elsewhere, ends with nothing selected. */
  lemma SelectTwiceClears(st: State, v: string)
    requires v != st.value
    ensures HandleSelect(HandleSelect(st, v).0, v).0.value == ""
  {
  }

  /** Choosing twice from nothing selected toggles back to nothing, whatever the entry. */
  lemma SelectToggles(st: State, v: string)
    requires st.value == ""
    ensures HandleSelect(HandleSelect(st, v).0, v).0.value == ""
  {
  }

  /** `data.find(cat => String(cat.id) === value)`. */
  function Find(cs: seq<Category>, value: string): (r: Option<Category>)
    ensures r.Some? ==> r.value in cs && IntToString(r.value.id) == value
    ensures r.None? <==> forall i :: 0 <= i < |cs| ==> IntToString(cs[i].id) != value
  {
    if cs == [] then None
    else if IntToString(cs[0].id) == value then Some(cs[0])
    else Find(cs[1..], value)
  }

  /** The button text: the placeholder, the chosen category's name, or nothing for an unknown id. */
  datatype Label = ShowPlaceholder | ShowName(name: string) | ShowNothing

  function LabelOf(cs: seq<Category>, value: string): (l: Label)
    ensures l.ShowPlaceholder? <==> value == ""
    ensures l.ShowName? ==> exists i :: 0 <= i < |cs| && cs[i].name == l.name && IntToString(cs[i].id) == value
  {
    if value == "" then ShowPlaceholder
    else match Find(cs, value)
      case Some(c) => ShowName(c.name)
      case None => ShowNothing
  }

  /** With distinct ids, picking a listed category shows exactly its name. */
  lemma {:induction false} LabelShowsPicked(cs: seq<Category>, k: int)
    requires DistinctIds(cs) && 0 <= k < |cs|
    ensures LabelOf(cs, IntToString(cs[k].id)) == ShowName(cs[k].name)
  {
    FindPicked(cs, k);
  }

  /** With distinct ids, looking up a listed category's id finds that category. */
  lemma {:induction false} FindPicked(cs: seq<Category>, k: int)
    requires DistinctIds(cs) && 0 <= k < |cs|
    ensures Find(cs, IntToString(cs[k].id)) == Some(cs[k])
  {
    if k > 0 {
      var tail := cs[1..];
      assert DistinctIds(tail) by {
        forall i, j | 0 <= i < j < |tail| ensures tail[i].id != tail[j].id {
          assert tail[i] == cs[i + 1] && tail[j] == cs[j + 1];
        }
      }
      assert tail[k - 1] == cs[k];
      FindPicked(tail, k - 1);
      FindPickedStep(cs, k);
    }
  }

  /** One step of the search: an earlier entry with another id is passed over. */
  lemma FindPickedStep(cs: seq<Category>, k: int)
    requires DistinctIds(cs) && 0 < k < |cs|
    requires Find(cs[1..], IntToString(cs[k].id)) == Some(cs[k])
    ensures Find(cs, IntToString(cs[k].id)) == Some(cs[k])
  {
    if IntToString(cs[0].id) == IntToString(cs[k].id) {
      ParseIntToString(cs[0].id);
      ParseIntToString(cs[k].id);
      assert false;
    }
  }

  /** After a pick from the list, the button shows that category's name, or the placeholder when the pick cleared it. */
  lemma PickThenLabel(cs: seq<Category>, st: State, k: int)
    requires DistinctIds(cs) && 0 <= k < |cs|
    ensures var (r, _) := HandleSelect(st, IntToString(cs[k].id));
      LabelOf(cs, r.value) == (if st.value == IntToString(cs[k].id) then ShowPlaceholder else ShowName(cs[k].name))
  {
    LabelShowsPicked(cs, k);
  }
}

=== FILE: create_task_dialog.dfy ===
/**
 * The earlier client's create dialog: the same three error flags, a new task
 * with the completion stored as the text "true"/"false" and fresh tag ids,
 * then a full reset and close.
 */
module CreateTaskDialog {
  import opened Base
  import opened Text
  import opened LegacyTaskForm

  /** The dialog's own state: the form, the error flags, and its own open flag. */
  datatype State = State(fields: Fields, flags: Flags, internalOpen: bool)

  /** `abgeschlossen ? "true" : "false"`. */
  function DoneText(b: bool): (s: string)
    ensures Completed(Some(s)) <==> b
  {
    if b then "true" else "false"
  }

  /** The object handed to `onCreate`. */
  function NewTask(f: Fields): (e: Entry)
    ensures e.eintragID.None? && e.rest == []
    ensures e.titel == f.titel && e.faelligkeit == f.date && e.kategorie == Some(f.kategorie)
    ensures Completed(e.abgeschlossen) <==> f.abgeschlossen
    ensures e.tags.Some? && (f.tags == "" ==> e.tags.value == [])
  {
    Entry(None, f.titel, Some(f.beschreibung), Some(DoneText(f.abgeschlossen)), f.date,
          Some(f.kategorie), Some(BuildTags(f.tags, None)), [])
  }

  /**
   * `handleCreate`: with any flag set nothing is created and the form stays;
   * otherwise the task goes to `onCreate`, every field and flag resets and
   * the dialog closes (the parent is told when it controls the open state).
   */
  function HandleCreate(st: State, open: Option<bool>, hasOnOpenChange: bool): (r: (State, Option<Entry>, Option<bool>))
    ensures Blocked(Check(st.fields)) ==> r == (st.(flags := Check(st.fields)), None, None)
    ensures !Blocked(Check(st.fields)) ==>
      && r.1 == Some(NewTask(st.fields))
      && r.0.fields == EmptyFields && r.0.flags == NoFlags
      && CurrentOpen(open, hasOnOpenChange, r.0.internalOpen) == (if IsControlled(open, hasOnOpenChange) then open.value else false)
      && (r.2.Some? <==> IsControlled(open, hasOnOpenChange))
      && (r.2.Some? ==> r.2.value == false)
  {
    var flags := Check(st.fields);
    if Blocked(flags) then (st.(flags := flags), None, None)
    else
      var (own, told) := SetOpen(open, hasOnOpenChange, st.internalOpen, false);
      SetOpenEffect(open, hasOnOpenChange, st.internalOpen, false);
      (State(EmptyFields, NoFlags, own), Some(NewTask(st.fields)), told)
  }

  /** Every tag of a created task has its own id. */
  lemma CreatedTagIdsDistinct(f: Fields, i: int, j: int)
    requires 0 <= i < j < |NewTask(f).tags.value|
    ensures NewTask(f).tags.value[i].tagID != NewTask(f).tags.value[j].tagID
  {
    NewTagIdsDistinct(f.tags, i, j);
  }
}

=== FILE: dashboard.dfy ===
/**
 * The dashboard: open tasks grouped into six sections by how many whole days
 * lie between now and the due instant, the sections shown, the navigation
 * buttons kept in step with them, and what the cards on it do.
 */
module Dashboard {
  import opened Base
  import opened Tasks
  import opened TaskView
  import TaskCard

  /** `Math.floor((due - now) / 86400000)`: whole days from now to the due instant, rounded down. */
  function DayDiff(due: int, now: int): (d: int)
    ensures d * DayMs <= due - now < (d + 1) * DayMs
  {
    (due - now) / DayMs
  }

  /** A section: header and day window `[from, to]`; no `from` means unbounded below. */
  datatype Section = Section(header: string, from: Option<int>, to: int)

  const Sections: seq<Section> := [
    Section("Überfällig", None, -1),
    Section("Heute", Some(0), 0),
    Section("Morgen", Some(1), 1),
    Section("Nächste 3 Tage", Some(2), 2),
    Section("Nächste 7 Tage", Some(3), 6),
    Section("Nächste 30 Tage", Some(7), 29)
  ]

  predicate InWindow(d: int, sec: Section) {
    (sec.from.None? || d >= sec.from.value) && d <= sec.to
  }

  /** `t.dueDate && inRange(t.dueDate, sec.range)`. */
  predicate InSection(t: Task, now: int, sec: Section) {
    t.dueDate.Some? && InWindow(DayDiff(t.dueDate.value, now), sec)
  }

  /** Independent reference: the one section a day difference belongs to, if any. */
  function SectionOf(d: int): (r: Option<nat>)
    ensures r.Some? ==> r.value < |Sections|
    ensures r.Some? <==> d <= 29
  {
    if d <= -1 then Some(0)
    else if d == 0 then Some(1)
    else if d == 1 then Some(2)
    else if d == 2 then Some(3)
    else if d <= 6 then Some(4)
    else if d <= 29 then Some(5)
    else None
  }

  /** The windows partition the days up to 29: a day falls in section `i` exactly when `SectionOf` says so. */
  lemma WindowsPartition(d: int, i: int)
    requires 0 <= i < |Sections|
    ensures InWindow(d, Sections[i]) <==> SectionOf(d) == Some(i)
  {
  }

  /** No task is listed under two sections; a task is listed somewhere iff it is due within 29 days. */
  lemma SectionsDisjoint(t: Task, now: int, i: int, j: int)
    requires 0 <= i < |Sections| && 0 <= j < |Sections|
    requires InSection(t, now, Sections[i]) && InSection(t, now, Sections[j])
    ensures i == j
  {
    WindowsPartition(DayDiff(t.dueDate.value, now), i);
    WindowsPartition(DayDiff(t.dueDate.value, now), j);
  }

  predicate Listed(t: Task, now: int) {
    t.dueDate.Some? && DayDiff(t.dueDate.value, now) <= 29
  }

  lemma ListedSomewhere(t: Task, now: int)
    ensures Listed(t, now) <==> exists i :: 0 <= i < |Sections| && InSection(t, now, Sections[i])
  {
    if Listed(t, now) {
      var i := SectionOf(DayDiff(t.dueDate.value, now)).value;
      WindowsPartition(DayDiff(t.dueDate.value, now), i);
    }
  }

  /** `tasks.filter(t => t.dueDate && inRange(t.dueDate, SECTIONS[i].range))`. */
  function SectionTasks(tasks: seq<Task>, now: int, i: nat): (r: seq<Task>)
    requires i < |Sections|
    ensures forall k :: 0 <= k < |r| ==> InSection(r[k], now, Sections[i])
    ensures IsSubsequence(r, tasks)
  {
    FilterIsSubsequence(tasks, (t: Task) => InSection(t, now, Sections[i]));
    Filter(tasks, (t: Task) => InSection(t, now, Sections[i]))
  }

  /** The number of section entries a task occupies: one when listed, none otherwise. */
  function Placements(t: Task, now: int): (n: nat)
    ensures n == (if Listed(t, now) then 1 else 0)
  {
    var d := if t.dueDate.Some? then DayDiff(t.dueDate.value, now) else 0;
    if t.dueDate.Some? then
      WindowsPartition(d, 0); WindowsPartition(d, 1); WindowsPartition(d, 2);
      WindowsPartition(d, 3); WindowsPartition(d, 4); WindowsPartition(d, 5);
      (if InSection(t, now, Sections[0]) then 1 else 0) + (if InSection(t, now, Sections[1]) then 1 else 0)
      + (if InSection(t, now, Sections[2]) then 1 else 0) + (if InSection(t, now, Sections[3]) then 1 else 0)
      + (if InSection(t, now, Sections[4]) then 1 else 0) + (if InSection(t, now, Sections[5]) then 1 else 0)
    else 0
  }

  function SectionSizes(tasks: seq<Task>, now: int): nat {
    |SectionTasks(tasks, now, 0)| + |SectionTasks(tasks, now, 1)| + |SectionTasks(tasks, now, 2)|
    + |SectionTasks(tasks, now, 3)| + |SectionTasks(tasks, now, 4)| + |SectionTasks(tasks, now, 5)|
  }

  /** Together the six sections list exactly the tasks due within 29 days, each once. */
  lemma {:induction false} SectionsCoverListed(tasks: seq<Task>, now: int)
    ensures SectionSizes(tasks, now) == Count(tasks, (t: Task) => Listed(t, now))
  {
    if tasks != [] {
      SectionsCoverListed(tasks[1..], now);
      var n := Placements(tasks[0], now);
      assert SectionSizes(tasks, now) == n + SectionSizes(tasks[1..], now);
    }
  }

  // ---------------------------------------------------------------------
  // what is shown

  /** `!loading && !error`: the list settled without an error message. */
  predicate Settled(st: ViewState) {
    !st.loading && !(st.error.Some? && st.error.value != "")
  }

  /** `tasks.some(t => t.dueDate && inRange(t.dueDate, SECTIONS[i].range))`. */
  predicate SomeInSection(tasks: seq<Task>, now: int, i: nat)
    requires i < |Sections|
  {
    exists k :: 0 <= k < |tasks| && InSection(tasks[k], now, Sections[i])
  }

  /** A section's filtered list is non-empty exactly when some task falls in it. */
  lemma SectionNonEmptyIff(tasks: seq<Task>, now: int, i: nat)
    requires i < |Sections|
    ensures |SectionTasks(tasks, now, i)| > 0 <==> SomeInSection(tasks, now, i)
  {
    var f := SectionTasks(tasks, now, i);
    if SomeInSection(tasks, now, i) {
      var k :| 0 <= k < |tasks| && InSection(tasks[k], now, Sections[i]);
      assert tasks[k] in f;
    }
    if |f| > 0 {
      assert f[0] in tasks;
    }
  }

  /**
   * What is rendered per section: nothing at all until the list settled
   * without error; then section `i` exactly when some task falls in it, with
   * its filtered list.
   */
  function Shown(st: ViewState, now: int): (r: seq<Option<seq<Task>>>)
    ensures |r| == |Sections|
    ensures !Settled(st) ==> forall i :: 0 <= i < |Sections| ==> r[i].None?
    ensures Settled(st) ==> forall i :: 0 <= i < |Sections| ==> (r[i].Some? <==> SomeInSection(st.tasks, now, i))
    ensures forall i :: 0 <= i < |Sections| && r[i].Some? ==> r[i].value == SectionTasks(st.tasks, now, i)
  {
    assert forall i :: 0 <= i < |Sections| ==> (|SectionTasks(st.tasks, now, i)| > 0 <==> SomeInSection(st.tasks, now, i)) by {
      forall i | 0 <= i < |Sections| ensures |SectionTasks(st.tasks, now, i)| > 0 <==> SomeInSection(st.tasks, now, i) {
        SectionNonEmptyIff(st.tasks, now, i);
      }
    }
    seq(|Sections|, i requires 0 <= i < |Sections| =>
      if !Settled(st) then None
      else
        var f := SectionTasks(st.tasks, now, i);
        if |f| > 0 then Some(f) else None)
  }

  const ActiveInit: seq<bool> := [true, true, true, true, true, true]

  /**
   * The effect behind the navigation buttons: once the list settled without
   * error, section `i` is active exactly when its filtered list is non-empty;
   * while loading or after an error the previous flags stay.
   */
  function RecomputeActive(active: seq<bool>, st: ViewState, now: int): (r: seq<bool>)
    requires |active| == |Sections|
    ensures |r| == |Sections|
    ensures !Settled(st) ==> r == active
    ensures Settled(st) ==> forall i :: 0 <= i < |Sections| ==> (r[i] <==> |SectionTasks(st.tasks, now, i)| > 0)
  {
    assert forall i :: 0 <= i < |Sections| ==> (|SectionTasks(st.tasks, now, i)| > 0 <==> SomeInSection(st.tasks, now, i)) by {
      forall i | 0 <= i < |Sections| ensures |SectionTasks(st.tasks, now, i)| > 0 <==> SomeInSection(st.tasks, now, i) {
        SectionNonEmptyIff(st.tasks, now, i);
      }
    }
    if Settled(st) then
      seq(|Sections|, i requires 0 <= i < |Sections| => SomeInSection(st.tasks, now, i))
    else active
  }

  /** After a settled load, a navigation button is offered exactly for each section shown. */
  lemma NavMatchesShown(active: seq<bool>, st: ViewState, now: int, i: int)
    requires |active| == |Sections| && 0 <= i < |Sections|
    requires Settled(st)
    ensures RecomputeActive(active, st, now)[i] <==> Shown(st, now)[i].Some?
  {
    SectionNonEmptyIff(st.tasks, now, i);
  }

  /** The dashboard's list holds open tasks only, so every section shows open tasks only. */
  lemma ShownOpenOnly(st: ViewState, reply: FetchReply, now: int, i: int, k: int)
    requires 0 <= i < |Sections|
    requires Shown(Load(st, false, reply), now)[i].Some?
    requires 0 <= k < |Shown(Load(st, false, reply), now)[i].value|
    ensures IsOpen(Shown(Load(st, false, reply), now)[i].value[k])
  {
    var f := Shown(Load(st, false, reply), now)[i].value;
    assert f[k] in Load(st, false, reply).tasks;
  }

  /** For an open dated task the card's "Überfällig" badge and the "Überfällig" section agree. */
  lemma OverdueBadgeIffOverdueSection(t: Task, now: int)
    requires IsOpen(t) && t.dueDate.Some?
    ensures TaskCard.StatusBadge(t, now) == TaskCard.Overdue <==> InSection(t, now, Sections[0])
  {
    var d := DayDiff(t.dueDate.value, now);
    if t.dueDate.value < now {
      assert d * DayMs < 0;
    } else {
      assert (d + 1) * DayMs > 0;
    }
  }

  // ---------------------------------------------------------------------
  // cards on the dashboard

  /**
   * The card callbacks as written: both are `() => invalidateAll()`, so the
   * toggled task and the id to delete are dropped and no request is made.
   */
  function OnUpdateAsWritten(updated: Task): seq<HookEffect> {
    [HookEffect.InvalidateAll]
  }

  function OnDeleteAsWritten(id: int): seq<HookEffect> {
    [HookEffect.InvalidateAll]
  }

  /** Ticking a card on the dashboard never sends the toggled task or a delete to the server. */
  lemma DashboardCardsDropChanges(t: Task, now: int)
    ensures var e := OnUpdateAsWritten(TaskCard.Toggle(t, now));
      forall k :: 0 <= k < |e| ==> !e[k].PatchTask? && !e[k].DeleteTask?
    ensures var e := OnDeleteAsWritten(t.id);
      forall k :: 0 <= k < |e| ==> !e[k].PatchTask? && !e[k].DeleteTask?
  {
  }

  /** The card callbacks routed through the list hook: PATCH or DELETE first, invalidation after success. */
  function OnUpdate(updated: Task, reply: Reply): seq<HookEffect> {
    UpdateTask(updated, reply).effects
  }

  function OnDelete(id: int, reply: Reply): seq<HookEffect> {
    DeleteTaskOp(id, reply).effects
  }

  /** Routed through the hook, ticking a card sends the toggled task, and the lists reload only after it was saved. */
  lemma DashboardCardsSaveChanges(t: Task, now: int, reply: Reply)
    ensures OnUpdate(TaskCard.Toggle(t, now), reply)[0] == PatchTask(TaskCard.Toggle(t, now))
    ensures HookEffect.InvalidateAll in OnUpdate(TaskCard.Toggle(t, now), reply) <==> reply.Ok?
    ensures OnDelete(t.id, reply)[0] == HookEffect.DeleteTask(t.id)
    ensures HookEffect.InvalidateAll in OnDelete(t.id, reply) <==> reply.Ok?
  {
  }
}

=== FILE: edit_task_dialog.dfy ===
/**
 * The earlier client's edit dialog: the form starts from the task, the same
 * three error flags, and the saved task is the old one with only the form
 * fields written over it.
 */
module EditTaskDialog {
  import opened Base
  import opened Text
  import opened LegacyTaskForm
  import CreateTaskDialog

  /** The initial form as written: the box is ticked when `abgeschlossen` is truthy. */
  function InitAsWritten(t: Entry): (f: Fields)
    ensures f.abgeschlossen == Truthy(t.abgeschlossen)
  {
    FieldsOf(t, Truthy(t.abgeschlossen))
  }

  /** The initial form with the box ticked exactly when the stored value means done. */
  function Init(t: Entry): (f: Fields)
    ensures f.abgeschlossen == Completed(t.abgeschlossen)
  {
    FieldsOf(t, Completed(t.abgeschlossen))
  }

  /**
   * `{ ...task, titel, beschreibung, abgeschlossen, faelligkeit, kategorie, tags }`:
   * id and every other field of the task stay; each tag keeps the old id at
   * its position when there is one.
   */
  function Saved(t: Entry, f: Fields): (e: Entry)
    ensures e.eintragID == t.eintragID && e.rest == t.rest
    ensures e.titel == f.titel && e.faelligkeit == f.date && e.kategorie == Some(f.kategorie)
    ensures Completed(e.abgeschlossen) <==> f.abgeschlossen
  {
    t.(titel := f.titel,
       beschreibung := Some(f.beschreibung),
       abgeschlossen := Some(CreateTaskDialog.DoneText(f.abgeschlossen)),
       faelligkeit := f.date,
       kategorie := Some(f.kategorie),
       tags := Some(BuildTags(f.tags, t.tags)))
  }

  /** `handleSave`: with any flag set nothing is saved and the dialog stays open; otherwise save and close. */
  function HandleSave(t: Entry, f: Fields): (r: (Flags, Option<Entry>, bool))
    ensures r.0 == Check(f)
    ensures r.1.Some? <==> !Blocked(Check(f))
    ensures r.1.Some? ==> r.1.value == Saved(t, f)
    ensures r.2 <==> r.1.Some?
  {
    var flags := Check(f);
    if Blocked(flags) then (flags, None, false) else (flags, Some(Saved(t, f)), true)
  }

  predicate Saveable(t: Entry) {
    !AllSpace(t.titel) && t.faelligkeit.Some? && t.kategorie.Some? && !AllSpace(t.kategorie.value)
  }

  /**
   * As written, a task stored as open with "false" (as both this dialog and
   * the create dialog store it) opens with the box ticked, and saving it
   * unchanged marks it done.
   */
  lemma ReopenedTaskSavedDone(t: Entry, f: Fields)
    requires Saveable(t) && !Blocked(Check(f)) && !f.abgeschlossen
    ensures var open := HandleSave(t, f).1.value;
      && !Completed(open.abgeschlossen)
      && InitAsWritten(open).abgeschlossen
      && Completed(HandleSave(open, InitAsWritten(open)).1.value.abgeschlossen)
  {
    var open := Saved(t, f);
    assert open.abgeschlossen == Some("false");
  }

  /**
   * With the box reflecting the stored value, opening and saving unchanged
   * keeps whether the task is done, its id, its other fields and its clean
   * tags with their ids.
   */
  lemma UnchangedSaveKeepsTask(t: Entry)
    requires Saveable(t)
    requires t.tags.Some? ==> CleanTags(t.tags.value)
    ensures HandleSave(t, Init(t)).1.Some?
    ensures var e := HandleSave(t, Init(t)).1.value;
      && Completed(e.abgeschlossen) == Completed(t.abgeschlossen)
      && e.eintragID == t.eintragID && e.rest == t.rest && e.titel == t.titel
      && e.faelligkeit == t.faelligkeit && e.kategorie == t.kategorie
      && (t.tags.Some? ==> e.tags == t.tags)
  {
    if t.tags.Some? {
      BuildTagsRoundTrip(t.tags.value);
    }
  }
}

=== FILE: filter_bar.dfy ===
/**
 * The filter bar: selected categories and tags and the date range, all kept
 * in the page's search parameters, and the edits it makes to them.
 */
module FilterBar {
  import opened Base
  import opened Text
  import opened SearchParams

  /** One `(key, v)` pair per value, in order. */
  function Pairs(key: string, vals: seq<string>): (r: Params)
    ensures |r| == |vals|
  {
    if vals == [] then [] else [(key, vals[0])] + Pairs(key, vals[1..])
  }

  lemma {:induction false} PairsLaws(key: string, vals: seq<string>, k: string)
    ensures GetAll(Pairs(key, vals), k) == (if k == key then vals else [])
    ensures Delete(Pairs(key, vals), key) == []
  {
    if vals != [] {
      PairsLaws(key, vals[1..], k);
      GetAllAppend([(key, vals[0])], Pairs(key, vals[1..]), k);
      DeleteAppend([(key, vals[0])], Pairs(key, vals[1..]), key);
    }
  }

  /** `updateParamList(key, values)`: delete every `key` entry, then append one per value. */
  function UpdateParamList(ps: Params, key: string, vals: seq<string>): (r: Params)
    ensures GetAll(r, key) == vals
    ensures forall k :: k != key ==> GetAll(r, k) == GetAll(ps, k)
    ensures Delete(r, key) == Delete(ps, key)
  {
    var r := Delete(ps, key) + Pairs(key, vals);
    GetAllDeleteSame(ps, key);
    PairsLaws(key, vals, key);
    GetAllAppend(Delete(ps, key), Pairs(key, vals), key);
    forall k | k != key ensures GetAll(r, k) == GetAll(ps, k) {
      PairsLaws(key, vals, k);
      GetAllAppend(Delete(ps, key), Pairs(key, vals), k);
      GetAllDeleteOther(ps, key, k);
    }
    DeleteAppend(Delete(ps, key), Pairs(key, vals), key);
    DeleteTwice(ps, key);
    r
  }

  /** Choosing the same values again changes nothing. */
  lemma UpdateParamListIdempotent(ps: Params, key: string, vals: seq<string>)
    ensures UpdateParamList(UpdateParamList(ps, key, vals), key, vals) == UpdateParamList(ps, key, vals)
  {
  }

  /** A picked range; either end may still be missing while picking. */
  datatype DateRange = DateRange(from: Option<int>, to: Option<int>)

  /**
   * `updateDateParams(range)`: set both "from" and "to" when the range has
   * both ends, otherwise remove both. Instants are written as decimal
   * milliseconds in place of ISO strings.
   */
  function UpdateDateParams(ps: Params, range: Option<DateRange>): (r: Params)
    ensures HasKey(r, "from") <==> HasKey(r, "to")
    ensures HasKey(r, "from") <==> range.Some? && range.value.from.Some? && range.value.to.Some?
    ensures forall k :: k != "from" && k != "to" ==> GetAll(r, k) == GetAll(ps, k)
  {
    if range.Some? && range.value.from.Some? && range.value.to.Some? then
      var a := Set(ps, "from", IntToString(range.value.from.value));
      var r := Set(a, "to", IntToString(range.value.to.value));
      SetLaws(ps, "from", IntToString(range.value.from.value));
      SetLaws(a, "to", IntToString(range.value.to.value));
      r
    else
      var a := Delete(ps, "from");
      var r := Delete(a, "to");
      GetAllDeleteSame(ps, "from");
      GetAllDeleteOther(a, "to", "from");
      forall k | k != "from" && k != "to" ensures GetAll(r, k) == GetAll(ps, k) {
        GetAllDeleteOther(ps, "from", k);
        GetAllDeleteOther(a, "to", k);
      }
      r
  }

  /**
   * The range read from the parameters: defined only when "from" and "to"
   * are both present, non-empty and valid instants.
   */
  function ReadDateRange(ps: Params): (r: Option<(int, int)>)
    ensures r.Some? ==> HasKey(ps, "from") && HasKey(ps, "to")
  {
    var from := Get(ps, "from");
    var to := Get(ps, "to");
    if from.Some? && from.value != "" && to.Some? && to.value != "" then
      match (ParseInt(from.value), ParseInt(to.value))
      case (Some(f), Some(t)) => Some((f, t))
      case _ => None
    else None
  }

  /** A complete range written into the parameters is read back as it was; anything else reads back as no range. */
  lemma DateRangeRoundTrip(ps: Params, range: Option<DateRange>)
    ensures range.Some? && range.value.from.Some? && range.value.to.Some? ==>
      ReadDateRange(UpdateDateParams(ps, range)) == Some((range.value.from.value, range.value.to.value))
    ensures !(range.Some? && range.value.from.Some? && range.value.to.Some?) ==>
      ReadDateRange(UpdateDateParams(ps, range)).None?
  {
    if range.Some? && range.value.from.Some? && range.value.to.Some? {
      var f := range.value.from.value;
      var t := range.value.to.value;
      var a := Set(ps, "from", IntToString(f));
      SetLaws(ps, "from", IntToString(f));
      SetLaws(a, "to", IntToString(t));
      GetFirstOfGetAll(Set(a, "to", IntToString(t)), "from");
      ParseIntToString(f);
      ParseIntToString(t);
    }
  }

  /** The selections shown: every "category" value and every "tag" value of the parameters. */
  function Selected(ps: Params): (seq<string>, seq<string>) {
    (GetAll(ps, "category"), GetAll(ps, "tag"))
  }

  /** Changing the categories shows exactly the new categories and keeps the tags and the range. */
  lemma CategoriesChange(ps: Params, vals: seq<string>)
    ensures Selected(UpdateParamList(ps, "category", vals)) == (vals, Selected(ps).1)
    ensures ReadDateRange(UpdateParamList(ps, "category", vals)) == ReadDateRange(ps)
  {
    var r := UpdateParamList(ps, "category", vals);
    GetFirstOfGetAll(r, "from");
    GetFirstOfGetAll(ps, "from");
    GetFirstOfGetAll(r, "to");
    GetFirstOfGetAll(ps, "to");
  }

  /** Changing the tags shows exactly the new tags and keeps the categories and the range. */
  lemma TagsChange(ps: Params, vals: seq<string>)
    ensures Selected(UpdateParamList(ps, "tag", vals)) == (Selected(ps).0, vals)
    ensures ReadDateRange(UpdateParamList(ps, "tag", vals)) == ReadDateRange(ps)
  {
    var r := UpdateParamList(ps, "tag", vals);
    GetFirstOfGetAll(r, "from");
    GetFirstOfGetAll(ps, "from");
    GetFirstOfGetAll(r, "to");
    GetFirstOfGetAll(ps, "to");
  }
}

=== FILE: keyed.dfy ===
/**
 * List edits by id: the `map` and `filter` both clients apply to a local list
 * after the server answered, for any record with an integer key (tasks and
 * categories alike).
 */
module Keyed {
  import opened Base

  /** Filtering out exactly the element at `k` cuts it out and keeps the rest in order. */
  lemma {:induction false} FilterDropsOne<T>(s: seq<T>, p: T -> bool, k: int)
    requires 0 <= k < |s| && !p(s[k])
    requires forall j :: 0 <= j < |s| && j != k ==> p(s[j])
    ensures Filter(s, p) == s[..k] + s[k + 1..]
  {
    var tail := s[1..];
    if k == 0 {
      forall j | 0 <= j < |tail| ensures p(tail[j]) {
        assert tail[j] == s[j + 1];
      }
      FilterAll(tail, p);
    } else {
      forall j | 0 <= j < |tail| && j != k - 1 ensures p(tail[j]) {
        assert tail[j] == s[j + 1];
      }
      FilterDropsOne(tail, p, k - 1);
      FilterDropsOneStep(s, p, k);
    }
  }

  /** One step of the induction above: an element kept in front of the cut. */
  lemma FilterDropsOneStep<T>(s: seq<T>, p: T -> bool, k: int)
    requires 0 < k < |s| && p(s[0])
    requires Filter(s[1..], p) == s[1..][..k - 1] + s[1..][k..]
    ensures Filter(s, p) == s[..k] + s[k + 1..]
  {
    CutBehindFirst(s, k);
  }

  /** Cutting position `k - 1` out of the tail and putting the head back cuts position `k`. */
  lemma CutBehindFirst<T>(s: seq<T>, k: int)
    requires 0 < k < |s|
    ensures [s[0]] + (s[1..][..k - 1] + s[1..][k..]) == s[..k] + s[k + 1..]
  {
    assert s[1..][..k - 1] == s[1..k];
    assert s[1..][k..] == s[k + 1..];
    assert s[..k] == [s[0]] + s[1..k];
  }

  /** `s.map(x => key(x) === key(u) ? u : x)`. */
  function ReplaceKey<T>(s: seq<T>, key: T -> int, u: T): (r: seq<T>)
    ensures |r| == |s|
    ensures forall i :: 0 <= i < |s| ==> r[i] == (if key(s[i]) == key(u) then u else s[i])
  {
    seq(|s|, i requires 0 <= i < |s| => if key(s[i]) == key(u) then u else s[i])
  }

  /** When `k` is the only position with `u`'s key, the replacement is a point update there. */
  lemma ReplaceKeyAt<T>(s: seq<T>, key: T -> int, u: T, k: int)
    requires 0 <= k < |s| && key(s[k]) == key(u)
    requires forall j :: 0 <= j < |s| && j != k ==> key(s[j]) != key(u)
    ensures ReplaceKey(s, key, u) == s[k := u]
  {
  }

  /** A key that does not occur changes nothing. */
  lemma ReplaceKeyAbsent<T>(s: seq<T>, key: T -> int, u: T)
    requires forall i :: 0 <= i < |s| ==> key(s[i]) != key(u)
    ensures ReplaceKey(s, key, u) == s
  {
  }

  /** `s.filter(x => key(x) !== k)`: exactly the elements with another key survive. */
  function RemoveKey<T(==)>(s: seq<T>, key: T -> int, k: int): (r: seq<T>)
    ensures |r| <= |s|
    ensures forall i :: 0 <= i < |r| ==> r[i] in s && key(r[i]) != k
    ensures forall i :: 0 <= i < |s| && key(s[i]) != k ==> s[i] in r
  {
    Filter(s, x => key(x) != k)
  }

  /** Removing a key that does not occur changes nothing. */
  lemma RemoveKeyAbsent<T>(s: seq<T>, key: T -> int, k: int)
    requires forall i :: 0 <= i < |s| ==> key(s[i]) != k
    ensures RemoveKey(s, key, k) == s
  {
    FilterAll(s, x => key(x) != k);
  }

  /** When every element has key `k`, removing `k` empties the list. */
  lemma RemoveKeyAll<T>(s: seq<T>, key: T -> int, k: int)
    requires forall i :: 0 <= i < |s| ==> key(s[i]) == k
    ensures RemoveKey(s, key, k) == []
  {
    FilterNone(s, x => key(x) != k);
  }

  /** When `k` is the only position with its key, removing that key cuts out just position `k`. */
  lemma RemoveKeyAt<T>(s: seq<T>, key: T -> int, k: int)
    requires 0 <= k < |s|
    requires forall j :: 0 <= j < |s| && j != k ==> key(s[j]) != key(s[k])
    ensures RemoveKey(s, key, key(s[k])) == s[..k] + s[k + 1..]
  {
    FilterDropsOne(s, x => key(x) != key(s[k]), k);
  }
}

=== FILE: legacy_task_dialog.dfy ===
/**
 * The earlier client's combined create/edit dialog: error flags, the saved
 * task data (spread over the edited task, tag ids reused by position, the
 * completion stored as a timestamp or null), reset and close after saving,
 * edit initialisation and the delete guard.
 */
module LegacyTaskDialog {
  import opened Base
  import opened Text
  import opened LegacyTaskForm

  datatype Mode = Create | EditMode

  /** The dialog's own state: the form, the error flags, and whether it is open. */
  datatype State = State(fields: Fields, flags: Flags, open: bool)

  /**
   * The task data handed to `onSave`: in edit mode the task with the form
   * written over it, in create mode the form alone. The title goes out as
   * typed (untrimmed); a ticked box stores the save instant, an unticked one
   * null.
   */
  function TaskData(mode: Mode, task: Option<Entry>, f: Fields, now: int): (e: Entry)
    ensures mode.EditMode? && task.Some? ==> e.eintragID == task.value.eintragID && e.rest == task.value.rest
    ensures !(mode.EditMode? && task.Some?) ==> e.eintragID.None? && e.rest == []
    ensures e.titel == f.titel && e.faelligkeit == f.date && e.kategorie == Some(f.kategorie)
    ensures e.abgeschlossen.None? <==> !f.abgeschlossen
    ensures Completed(e.abgeschlossen) <==> f.abgeschlossen
    ensures e.tags.Some? && |e.tags.value| == (if f.tags == "" then 0 else |Split(f.tags, ',')|)
  {
    var base := if mode.EditMode? && task.Some? then task.value else Entry(None, "", None, None, None, None, None, []);
    var existing := if mode.EditMode? && task.Some? then task.value.tags else None;
    base.(titel := f.titel,
          beschreibung := Some(f.beschreibung),
          abgeschlossen := if f.abgeschlossen then Some(Stamp(now)) else None,
          faelligkeit := f.date,
          kategorie := Some(f.kategorie),
          tags := Some(BuildTags(f.tags, existing)))
  }

  /**
   * `handleSave`: set the flags; when none is set hand the data to `onSave`;
   * once that resolves, reset the form in create mode and close in both
   * modes. A rejected save leaves the dialog open with its input.
   */
  function HandleSave(mode: Mode, task: Option<Entry>, st: State, now: int, saveRejects: bool): (r: (State, Option<Entry>))
    ensures r.0.flags == (if !Blocked(Check(st.fields)) && !saveRejects && mode.Create? then NoFlags else Check(st.fields))
    ensures r.1.Some? <==> !Blocked(Check(st.fields))
    ensures r.1.Some? ==> r.1.value == TaskData(mode, task, st.fields, now)
    ensures r.0.open <==> st.open && (Blocked(Check(st.fields)) || saveRejects)
    ensures r.0.fields == (if r.1.Some? && !saveRejects && mode.Create? then EmptyFields else st.fields)
  {
    var flags := Check(st.fields);
    if Blocked(flags) then (st.(flags := flags), None)
    else
      var data := TaskData(mode, task, st.fields, now);
      if saveRejects then (st.(flags := flags), Some(data))
      else if mode.Create? then (State(EmptyFields, NoFlags, false), Some(data))
      else (State(st.fields, flags, false), Some(data))
  }

  /** The checkbox on edit initialisation: `!!abgeschlossen && abgeschlossen !== "null"`. */
  predicate InitChecked(a: Option<string>) {
    Truthy(a) && a.value != "null"
  }

  /** The effect on `[mode, task]`: in edit mode with a task fill the form from it, otherwise leave it as it is. */
  function Init(mode: Mode, task: Option<Entry>, prev: Fields): (f: Fields)
    ensures !(mode.EditMode? && task.Some?) ==> f == prev
    ensures mode.EditMode? && task.Some? ==> f.abgeschlossen == InitChecked(task.value.abgeschlossen)
  {
    if mode.EditMode? && task.Some? then FieldsOf(task.value, InitChecked(task.value.abgeschlossen)) else prev
  }

  /** A task this dialog can open and save back without the form blocking. */
  predicate Saveable(t: Entry) {
    !AllSpace(t.titel) && t.faelligkeit.Some? && t.kategorie.Some? && !AllSpace(t.kategorie.value)
  }

  /**
   * Opening a task this dialog wrote and saving it unchanged keeps its id,
   * other fields, title, date, category, clean tags with their ids, and
   * whether it is done (the completion instant itself is renewed). The one
   * stored value this fails for is "false", see `InitReadsFalseAsChecked`.
   */
  lemma EditUnchangedRoundTrip(t: Entry, prev: Fields, now: int)
    requires Saveable(t)
    requires t.abgeschlossen != Some("false")
    requires t.tags.Some? ==> CleanTags(t.tags.value)
    ensures var e := TaskData(EditMode, Some(t), Init(EditMode, Some(t), prev), now);
      && !Blocked(Check(Init(EditMode, Some(t), prev)))
      && e.eintragID == t.eintragID && e.rest == t.rest && e.titel == t.titel
      && e.faelligkeit == t.faelligkeit && e.kategorie == t.kategorie
      && Completed(e.abgeschlossen) == Completed(t.abgeschlossen)
      && (t.tags.Some? ==> e.tags == t.tags)
  {
    if t.tags.Some? {
      BuildTagsRoundTrip(t.tags.value);
    }
  }

  /** The checkbox reads a stored "false" as ticked. */
  lemma InitReadsFalseAsChecked()
    ensures InitChecked(Some("false")) && !Completed(Some("false"))
  {
  }

  datatype DeleteEffect = OnDelete(id: Option<string>) | Close

  /** `handleDelete`: only in edit mode with a task and a delete handler. */
  function HandleDelete(mode: Mode, task: Option<Entry>, hasOnDelete: bool): (r: seq<DeleteEffect>)
    ensures r != [] <==> mode.EditMode? && task.Some? && hasOnDelete
    ensures r != [] ==> r[0] == OnDelete(task.value.eintragID) && Close in r
  {
    if mode.EditMode? && task.Some? && hasOnDelete then [OnDelete(task.value.eintragID), Close] else []
  }
}

=== FILE: legacy_task_form.dfy ===
/**
 * What the earlier client's three task dialogs share: the task record they
 * read and write, the form fields, the three error flags, the completion
 * value, and the tag list built from the comma-separated tag field.
 */
module LegacyTaskForm {
  import opened Base
  import opened Text

  datatype Tag = Tag(name: string, tagID: string)

  /**
   * A task as these dialogs see it. `abgeschlossen` is whatever string the
   * writer stored (`None` for null/undefined); `rest` stands for every other
   * field, which a spread copies unchanged. A due date is an instant in
   * milliseconds.
   */
  datatype Entry = Entry(
    eintragID: Option<string>,
    titel: string,
    beschreibung: Option<string>,
    abgeschlossen: Option<string>,
    faelligkeit: Option<int>,
    kategorie: Option<string>,
    tags: Option<seq<Tag>>,
    rest: seq<(string, string)>)

  /** The form: title, description, picked date, category name, tag text, completion box. */
  datatype Fields = Fields(
    titel: string,
    beschreibung: string,
    date: Option<int>,
    kategorie: string,
    tags: string,
    abgeschlossen: bool)

  const EmptyFields: Fields := Fields("", "", None, "", "", false)

  /** The three error flags shown on the inputs. */
  datatype Flags = Flags(titel: bool, faelligkeit: bool, kategorie: bool)

  const NoFlags: Flags := Flags(false, false, false)

  /** `{ titel: !titel.trim(), faelligkeit: !date, kategorie: !kategorie.trim() }`. */
  function Check(f: Fields): (r: Flags)
    ensures r.titel <==> AllSpace(f.titel)
    ensures r.faelligkeit <==> f.date.None?
    ensures r.kategorie <==> AllSpace(f.kategorie)
  {
    TrimEmptyIff(f.titel);
    TrimEmptyIff(f.kategorie);
    Flags(Trim(f.titel) == "", f.date.None?, Trim(f.kategorie) == "")
  }

  /** `Object.values(flags).some(Boolean)`. */
  predicate Blocked(fl: Flags) {
    fl.titel || fl.faelligkeit || fl.kategorie
  }

  /** JavaScript truthiness of a string value that may be null. */
  predicate Truthy(a: Option<string>) {
    a.Some? && a.value != ""
  }

  /**
   * Whether a stored completion value means "done": a timestamp or "true";
   * null, "", "null" and "false" all mean open.
   */
  predicate Completed(a: Option<string>) {
    Truthy(a) && a.value != "false" && a.value != "null"
  }

  /** The stored form of a completion instant (in place of its ISO string). */
  function Stamp(now: int): (s: string)
    ensures Completed(Some(s))
  {
    var s := IntToString(now);
    assert s[0] == '-' || IsDigit(s[0]);
    s
  }

  /** The placeholder id of the `i`-th new tag. */
  function TempId(i: nat): string {
    "temp-" + NatToString(i)
  }

  lemma TempIdInjective(i: nat, j: nat)
    requires TempId(i) == TempId(j)
    ensures i == j
  {
    assert NatToString(i) == TempId(i)[5..];
    ParseNatToString(i);
    ParseNatToString(j);
  }

  /** `existing?.[i]?.tagID || \`temp-${i}\``: the existing id at that position, when there is a non-empty one. */
  function ReusedId(existing: Option<seq<Tag>>, i: nat): string {
    if existing.Some? && i < |existing.value| && existing.value[i].tagID != "" then existing.value[i].tagID
    else TempId(i)
  }

  /**
   * `tags ? tags.split(",").map((name, i) => ({ name: name.trim(), tagID })) : []`:
   * one tag per comma-separated piece, trimmed (empty pieces kept), with ids
   * taken from `existing` by position.
   */
  function BuildTags(s: string, existing: Option<seq<Tag>>): (r: seq<Tag>)
    ensures s == "" ==> r == []
    ensures s != "" ==> |r| == |Split(s, ',')|
    ensures forall i :: 0 <= i < |r| ==> IsTrimmed(r[i].name) && ',' !in r[i].name && r[i].tagID != ""
  {
    if s == "" then []
    else
      var names := CommaPieces(s);
      seq(|names|, i requires 0 <= i < |names| => Tag(names[i], ReusedId(existing, i)))
  }

  /** Without existing tags every new tag gets its own id. */
  lemma NewTagIdsDistinct(s: string, i: int, j: int)
    requires 0 <= i < j < |BuildTags(s, None)|
    ensures BuildTags(s, None)[i].tagID != BuildTags(s, None)[j].tagID
  {
    NewTagId(s, i);
    NewTagId(s, j);
    if TempId(i) == TempId(j) {
      TempIdInjective(i, j);
    }
  }

  /** Without existing tags the `i`-th tag gets the `i`-th placeholder id. */
  lemma NewTagId(s: string, i: int)
    requires 0 <= i < |BuildTags(s, None)|
    ensures BuildTags(s, None)[i].tagID == TempId(i)
  {
    var names := CommaPieces(s);
    var r := BuildTags(s, None);
    assert r == seq(|names|, k requires 0 <= k < |names| => Tag(names[k], ReusedId(None, k)));
    assert r[i] == Tag(names[i], ReusedId(None, i));
    assert ReusedId(None, i) == TempId(i);
  }

  function Names(tags: seq<Tag>): (r: seq<string>)
    ensures |r| == |tags|
    ensures forall i :: 0 <= i < |tags| ==> r[i] == tags[i].name
  {
    seq(|tags|, i requires 0 <= i < |tags| => tags[i].name)
  }

  /** `task.tags?.map(t => t.name).join(", ") || ""`. */
  function TagsString(tags: Option<seq<Tag>>): string {
    if tags.Some? then Join(Names(tags.value), ", ") else ""
  }

  /** Tags whose names survive the tag field and whose ids are set. */
  predicate CleanTags(tags: seq<Tag>) {
    forall i :: 0 <= i < |tags| ==> tags[i].name != "" && IsTrimmed(tags[i].name) && ',' !in tags[i].name && tags[i].tagID != ""
  }

  /** Showing clean tags in the field and building them back with reuse gives the same tags, ids included. */
  lemma BuildTagsRoundTrip(tags: seq<Tag>)
    requires CleanTags(tags)
    ensures BuildTags(TagsString(Some(tags)), Some(tags)) == tags
  {
    var names := Names(tags);
    if tags != [] {
      var s := Join(names, ", ");
      assert s != "" by {
        JoinStartsWithFirst(names, ", ");
      }
      assert CommaPieces(s) == names by {
        SplitJoinComma(names);
        TrimAllPadded(names);
      }
      var r := BuildTags(s, Some(tags));
      assert |r| == |tags|;
      forall i | 0 <= i < |tags| ensures r[i] == tags[i] {
        assert ReusedId(Some(tags), i) == tags[i].tagID;
      }
    }
  }

  /** The form filled from a task, with the completion box as the caller decides. */
  function FieldsOf(t: Entry, checked: bool): (f: Fields)
    ensures f.abgeschlossen == checked && f.date == t.faelligkeit && f.tags == TagsString(t.tags)
  {
    Fields(
      t.titel,
      if t.beschreibung.Some? then t.beschreibung.value else "",
      t.faelligkeit,
      if t.kategorie.Some? then t.kategorie.value else "",
      TagsString(t.tags),
      checked)
  }

  // ---------------------------------------------------------------------
  // open state

  /** `open !== undefined && onOpenChange !== undefined`: the parent owns the open state only when it gives both. */
  predicate IsControlled(open: Option<bool>, hasOnOpenChange: bool) {
    open.Some? && hasOnOpenChange
  }

  /** Whether the dialog shows: the parent's value when controlled, the dialog's own otherwise. */
  function CurrentOpen(open: Option<bool>, hasOnOpenChange: bool, internal: bool): bool {
    if IsControlled(open, hasOnOpenChange) then open.value else internal
  }

  /**
   * `setCurrentOpen(v)`: the parent is told when controlled, otherwise the
   * dialog's own state takes `v`. Result: the new own state and what the
   * parent hears.
   */
  function SetOpen(open: Option<bool>, hasOnOpenChange: bool, internal: bool, v: bool): (r: (bool, Option<bool>))
    ensures r.1.Some? <==> IsControlled(open, hasOnOpenChange)
  {
    if IsControlled(open, hasOnOpenChange) then (internal, Some(v)) else (v, None)
  }

  /**
   * Uncontrolled, a request to open or close takes effect at once; controlled,
   * the parent hears it and nothing changes until it passes a new `open`.
   */
  lemma SetOpenEffect(open: Option<bool>, hasOnOpenChange: bool, internal: bool, v: bool)
    ensures var (own, told) := SetOpen(open, hasOnOpenChange, internal, v);
      && (!IsControlled(open, hasOnOpenChange) ==> CurrentOpen(open, hasOnOpenChange, own) == v)
      && (IsControlled(open, hasOnOpenChange) ==>
            told == Some(v) && CurrentOpen(open, hasOnOpenChange, own) == CurrentOpen(open, hasOnOpenChange, internal))
  {
  }
}

=== FILE: legacy_tasks.dfy ===
/**
 * The earlier task container, which edits its own copy of the list: local
 * update and delete guarded by "the id occurs exactly once", the has-data
 * bookkeeping around them, routing of an edit to the parent or to itself,
 * the PATCH payload, the done filter and its comparator.
 */
module LegacyTasks {
  import opened Base
  import opened Keyed
  import opened Tasks
  import opened Text
  import SearchParams
  import TaskOrder

  /** The id occurs exactly once, at position `k`. */
  predicate OnceAt(ts: seq<Task>, id: int, k: int) {
    0 <= k < |ts| && ts[k].id == id && CountId(ts, id) == 1
  }

  lemma OnceAtOthers(ts: seq<Task>, id: int, k: int)
    requires OnceAt(ts, id, k)
    ensures forall j :: 0 <= j < |ts| && j != k ==> ts[j].id != id
  {
    forall j | 0 <= j < |ts| && ts[j].id == id ensures j == k {
      CountOneUnique(ts, (t: Task) => t.id == id, j, k);
    }
  }

  /**
   * Replacing the one element with the id
   * (`prev.map(old => old.id === task.id ? task : old)`) is a point update at
   * its position.
   */
  lemma ReplaceOnce(ts: seq<Task>, task: Task, k: int)
    requires OnceAt(ts, task.id, k)
    ensures ReplaceKey(ts, TaskId, task) == ts[k := task]
  {
    OnceAtOthers(ts, task.id, k);
    ReplaceKeyAt(ts, TaskId, task, k);
  }

  /**
   * Removing the one element with the id (`prev.filter(o => o.id !== task.id)`)
   * cuts it out and keeps the rest in order.
   */
  lemma RemoveOnce(ts: seq<Task>, id: int, k: int)
    requires OnceAt(ts, id, k)
    ensures RemoveKey(ts, TaskId, id) == ts[..k] + ts[k + 1..]
  {
    OnceAtOthers(ts, id, k);
    RemoveKeyAt(ts, TaskId, k);
  }

  lemma CountOpenUpdate(ts: seq<Task>, k: int, x: Task)
    requires 0 <= k < |ts|
    ensures CountOpen(ts[k := x]) == CountOpen(ts) - (if IsOpen(ts[k]) then 1 else 0) + (if IsOpen(x) then 1 else 0)
  {
    CountAround(ts, k, IsOpen);
    CountAround(ts[k := x], k, IsOpen);
    assert ts[k := x][..k] == ts[..k];
    assert ts[k := x][k + 1..] == ts[k + 1..];
  }

  lemma CountOpenCut(ts: seq<Task>, k: int)
    requires 0 <= k < |ts|
    ensures CountOpen(ts[..k] + ts[k + 1..]) == CountOpen(ts) - (if IsOpen(ts[k]) then 1 else 0)
  {
    CountAround(ts, k, IsOpen);
    CountAppend(ts[..k], ts[k + 1..], IsOpen);
  }

  // ---------------------------------------------------------------------
  // local edits with has-data bookkeeping

  /** The list after a local edit and the values passed to `setHasData`, in order. */
  datatype Edit = Edit(tasks: seq<Task>, signals: seq<bool>)

  /**
   * `updateTask(task)` as written: no-op unless the id occurs exactly once;
   * otherwise `count` = open tasks + (task completed ? -1 : +1), the list is
   * mapped, `setHasData(true)` follows (the updater function's `length` is 1),
   * and `setHasData(false)` when `count` is 0.
   */
  function UpdateAsWritten(ts: seq<Task>, task: Task): (r: Edit)
    ensures CountId(ts, task.id) != 1 ==> r == Edit(ts, [])
    ensures CountId(ts, task.id) == 1 ==>
      && r.tasks == ReplaceKey(ts, TaskId, task)
      && |r.signals| >= 1 && r.signals[0]
      && (false in r.signals <==> CountOpen(ts) + (if IsCompleted(task) then -1 else 1) == 0)
  {
    if CountId(ts, task.id) != 1 then Edit(ts, [])
    else
      var count := CountOpen(ts) + (if IsCompleted(task) then -1 else 1);
      Edit(ReplaceKey(ts, TaskId, task), [true] + (if count == 0 then [false] else []))
  }

  /** `deleteTask(task)` as written: same guard, `count` = open tasks - 1, filter the id out. */
  function DeleteAsWritten(ts: seq<Task>, id: int): (r: Edit)
    ensures CountId(ts, id) != 1 ==> r == Edit(ts, [])
    ensures CountId(ts, id) == 1 ==>
      && r.tasks == RemoveKey(ts, TaskId, id)
      && (r.signals == [false] <==> CountOpen(ts) - 1 == 0)
      && (r.signals == [] <==> CountOpen(ts) - 1 != 0)
  {
    if CountId(ts, id) != 1 then Edit(ts, [])
    else
      var count := CountOpen(ts) - 1;
      Edit(RemoveKey(ts, TaskId, id), if count == 0 then [false] else [])
  }

  function Example(id: int, completed: bool): Task {
    Task(id, 1, "t", None, None, 1, if completed then Some(0) else None, 0, 0, None)
  }

  /**
   * The delta assumes the edited task changed state: deleting a completed task
   * from [open, completed] reports "no data" although the open task remains;
   * re-saving that completed task does the same.
   */
  lemma HasDataDeltaAsWrittenWrong()
    ensures var ts := [Example(1, false), Example(2, true)];
      && DeleteAsWritten(ts, 2).signals == [false]
      && CountOpen(DeleteAsWritten(ts, 2).tasks) == 1
      && false in UpdateAsWritten(ts, Example(2, true)).signals
      && CountOpen(UpdateAsWritten(ts, Example(2, true)).tasks) == 1
  {
    var ts := [Example(1, false), Example(2, true)];
    assert CountId(ts, 2) == 1;
    assert CountOpen(ts) == 1;
    RemoveOnce(ts, 2, 1);
    ReplaceOnce(ts, Example(2, true), 1);
    assert ts[1 := Example(2, true)] == ts;
  }

  /** The delta from the element actually replaced: the open count after the edit. */
  function Update(ts: seq<Task>, task: Task): (r: Edit)
    ensures CountId(ts, task.id) != 1 ==> r == Edit(ts, [])
    ensures CountId(ts, task.id) == 1 ==>
      && r.tasks == ReplaceKey(ts, TaskId, task)
      && |r.signals| >= 1 && r.signals[0]
      && (false in r.signals <==> CountOpen(r.tasks) == 0)
  {
    if CountId(ts, task.id) != 1 then Edit(ts, [])
    else
      var k := FindId(ts, task.id);
      var prev := ts[k];
      var count := CountOpen(ts) - (if IsOpen(prev) then 1 else 0) + (if IsOpen(task) then 1 else 0);
      ReplaceOnce(ts, task, k);
      CountOpenUpdate(ts, k, task);
      Edit(ReplaceKey(ts, TaskId, task), [true] + (if count == 0 then [false] else []))
  }

  function Delete(ts: seq<Task>, id: int): (r: Edit)
    ensures CountId(ts, id) != 1 ==> r == Edit(ts, [])
    ensures CountId(ts, id) == 1 ==>
      && r.tasks == RemoveKey(ts, TaskId, id)
      && (r.signals == [false] <==> CountOpen(r.tasks) == 0)
      && (r.signals == [] <==> CountOpen(r.tasks) != 0)
  {
    if CountId(ts, id) != 1 then Edit(ts, [])
    else
      var k := FindId(ts, id);
      var count := CountOpen(ts) - (if IsOpen(ts[k]) then 1 else 0);
      RemoveOnce(ts, id, k);
      CountOpenCut(ts, k);
      Edit(RemoveKey(ts, TaskId, id), if count == 0 then [false] else [])
  }

  /** Position of the element carrying `id`. */
  function FindId(ts: seq<Task>, id: int): (k: int)
    requires CountId(ts, id) == 1
    ensures OnceAt(ts, id, k)
  {
    if ts[0].id == id then 0
    else
      assert CountId(ts[1..], id) == 1;
      1 + FindId(ts[1..], id)
  }

  /**
   * The edits as written change the list exactly as the corrected ones do,
   * and their "no data" signal is right whenever the edited task changes
   * state: an open task deleted, or an update that completes or reopens it.
   */
  lemma AsWrittenRightWhenStateChanges(ts: seq<Task>, task: Task, k: int)
    requires OnceAt(ts, task.id, k)
    ensures UpdateAsWritten(ts, task).tasks == Update(ts, task).tasks
    ensures DeleteAsWritten(ts, task.id).tasks == Delete(ts, task.id).tasks
    ensures IsOpen(ts[k]) != IsOpen(task) ==> UpdateAsWritten(ts, task) == Update(ts, task)
    ensures IsOpen(ts[k]) ==> DeleteAsWritten(ts, task.id) == Delete(ts, task.id)
  {
    assert FindId(ts, task.id) == k by {
      OnceAtOthers(ts, task.id, k);
    }
  }

  /** Both edits only ever touch the one element with the id; anything else is left as it was. */
  lemma EditsTouchOnlyTheId(ts: seq<Task>, task: Task, k: int)
    requires OnceAt(ts, task.id, k)
    ensures Update(ts, task).tasks == ts[k := task]
    ensures Delete(ts, task.id).tasks == ts[..k] + ts[k + 1..]
  {
    ReplaceOnce(ts, task, k);
    RemoveOnce(ts, task.id, k);
  }

  // ---------------------------------------------------------------------
  // the first load's call

  /**
   * An argument of a `loadTodosApi` call: a route, one of the container's
   * three callbacks (data arrived, loading failed, loading settled), or a
   * parameter object.
   */
  datatype LoadArg = RouteArg(route: string) | OnData | OnFailure | OnSettled | ParamsArg(params: SearchParams.Params)

  /**
   * The declared parameters `(apiRoute, callback?, catchRun?, finallyRun?,
   * searchParams?)` bound by position: slot `i` holds the `i`-th argument, or
   * nothing when fewer were passed.
   */
  function Slot(args: seq<LoadArg>, i: nat): (a: Option<LoadArg>)
    ensures a.Some? <==> i < |args|
    ensures a.Some? ==> a.value == args[i]
  {
    if i < |args| then Some(args[i]) else None
  }

  /**
   * `searchParams?.toString() ?? ''`: the query string of a parameter object
   * in the fifth slot, "" when the slot is empty.
   */
  function LoadQueryString(args: seq<LoadArg>): (q: string)
    ensures Slot(args, 4).None? ==> q == ""
    ensures Slot(args, 4).Some? && args[4].ParamsArg? ==> q == SearchParams.ToQueryString(args[4].params)
  {
    if |args| > 4 && args[4].ParamsArg? then SearchParams.ToQueryString(args[4].params) else ""
  }

  /** The call as written, `loadTodosApi(onData, onFailure, onSettled, params)`: the route is left out. */
  function LoadArgsAsWritten(params: SearchParams.Params): seq<LoadArg> {
    [OnData, OnFailure, OnSettled, ParamsArg(params)]
  }

  /** The call as declared, with the container's route first. */
  function LoadArgsIntended(route: string, params: SearchParams.Params): seq<LoadArg> {
    [RouteArg(route), OnData, OnFailure, OnSettled, ParamsArg(params)]
  }

  /**
   * As written every argument lands one slot early: the data callback sits
   * where the route belongs, the parameter object where `finallyRun` belongs,
   * and no query string is ever built, whatever the parameters hold. The
   * `callback` slot holds the failure callback and `catchRun` the settling
   * one, so no slot that `loadTodosApi` calls holds the data callback.
   */
  lemma LoadAsWrittenDropsParams(params: SearchParams.Params)
    ensures Slot(LoadArgsAsWritten(params), 0) == Some(OnData)
    ensures Slot(LoadArgsAsWritten(params), 1) == Some(OnFailure)
    ensures Slot(LoadArgsAsWritten(params), 2) == Some(OnSettled)
    ensures forall i :: 1 <= i <= 4 ==> Slot(LoadArgsAsWritten(params), i) != Some(OnData)
    ensures Slot(LoadArgsAsWritten(params), 3) == Some(ParamsArg(params))
    ensures Slot(LoadArgsAsWritten(params), 4).None?
    ensures LoadQueryString(LoadArgsAsWritten(params)) == ""
  {
  }

  /** Called as declared, the route and the three callbacks fill their own slots and the query string is the parameters'. */
  lemma LoadIntendedSendsParams(route: string, params: SearchParams.Params)
    ensures Slot(LoadArgsIntended(route, params), 0) == Some(RouteArg(route))
    ensures Slot(LoadArgsIntended(route, params), 1) == Some(OnData)
    ensures Slot(LoadArgsIntended(route, params), 2) == Some(OnFailure)
    ensures Slot(LoadArgsIntended(route, params), 3) == Some(OnSettled)
    ensures LoadQueryString(LoadArgsIntended(route, params)) == SearchParams.ToQueryString(params)
  {
  }

  // ---------------------------------------------------------------------
  // routing and payload

  /** The PATCH body: the task with its tags replaced by their trimmed names, empties dropped. */
  datatype EditData = EditData(task: Task, tagNames: Option<seq<string>>)

  function TagNames(tags: seq<TagRef>): (r: seq<string>)
    ensures forall i :: 0 <= i < |r| ==> r[i] != "" && IsTrimmed(r[i])
  {
    var names := seq(|tags|, i requires 0 <= i < |tags| => Trim(tags[i].name));
    Filter(names, NonEmpty)
  }

  function EditPayload(task: Task): EditData {
    EditData(task, if task.tags.Some? then Some(TagNames(task.tags.value)) else None)
  }

  /** Names that are already trimmed and non-empty go out exactly as they are. */
  lemma TagNamesKeepsCleanNames(tags: seq<TagRef>)
    requires forall i :: 0 <= i < |tags| ==> tags[i].name != "" && IsTrimmed(tags[i].name)
    ensures TagNames(tags) == seq(|tags|, i requires 0 <= i < |tags| => tags[i].name)
  {
    var names := seq(|tags|, i requires 0 <= i < |tags| => Trim(tags[i].name));
    forall i | 0 <= i < |tags| ensures names[i] == tags[i].name {
      TrimTrimmed(tags[i].name);
    }
    FilterAll(names, NonEmpty);
  }

  datatype Effect =
    | ToParent(task: Task)
    | Local(edit: Edit)
    | Patch(data: EditData)
    | ParentDelete(task: Task)
    | DeleteRequest(id: int)
    | TagsChanged

  /** `sendOrUpdateTask`: to the parent broadcaster if there is one, else the local `updateTask`; then PATCH. */
  function SendOrUpdate(ts: seq<Task>, task: Task, hasParent: bool): (r: seq<Effect>)
    ensures |r| == 2 && r[1] == Patch(EditPayload(task))
    ensures hasParent <==> r[0] == ToParent(task)
    ensures !hasParent ==> r[0] == Local(UpdateAsWritten(ts, task))
  {
    [if hasParent then ToParent(task) else Local(UpdateAsWritten(ts, task))] + [Patch(EditPayload(task))]
  }

  /** `sendOrDeleteTask`: to the parent or the local `deleteTask`; DELETE; then the tags callback if there is one. */
  function SendOrDelete(ts: seq<Task>, task: Task, hasParent: bool, hasTagsCallback: bool): (r: seq<Effect>)
    ensures |r| >= 2 && r[1] == DeleteRequest(task.id)
    ensures hasParent <==> r[0] == ParentDelete(task)
    ensures !hasParent ==> r[0] == Local(DeleteAsWritten(ts, task.id))
    ensures TagsChanged in r <==> hasTagsCallback
  {
    [if hasParent then ParentDelete(task) else Local(DeleteAsWritten(ts, task.id)), DeleteRequest(task.id)]
      + (if hasTagsCallback then [TagsChanged] else [])
  }

  // ---------------------------------------------------------------------
  // display

  function Displayed(ts: seq<Task>, showDone: bool): (r: seq<Task>)
    ensures !showDone ==> forall i :: 0 <= i < |r| ==> IsOpen(r[i])
    ensures !showDone ==> forall i :: 0 <= i < |ts| && IsOpen(ts[i]) ==> ts[i] in r
    ensures showDone ==> r == ts
    ensures IsSubsequence(r, ts)
    ensures !showDone ==> |r| == CountOpen(ts)
  {
    FilterIsSubsequence(ts, IsOpen);
    SubsequenceRefl(ts);
    if showDone then ts else Filter(ts, IsOpen)
  }

  /** Day of the month (1-31) of an instant, in UTC: what `getDate()` returns there. */
  function DayOfMonth(ms: int): int {
    var z := ms / DayMs + 719468;
    var era := z / 146097;
    var doe := z - era * 146097;
    var yoe := (doe - doe / 1460 + doe / 36524 - doe / 146096) / 365;
    var doy := doe - (365 * yoe + yoe / 4 - yoe / 100);
    var mp := (5 * doy + 2) / 153;
    doy - (153 * mp + 2) / 5 + 1
  }

  /** The comparator as written: open first, an undated left side first, then by day of the month. */
  function CompareAsWritten(a: Task, b: Task): int {
    if IsOpen(a) != IsOpen(b) then (if IsCompleted(a) then 1 else -1)
    else if a.dueDate.None? then -1
    else if b.dueDate.None? then 1
    else DayOfMonth(a.dueDate.value) - DayOfMonth(b.dueDate.value)
  }

  function Due(id: int, due: int): Task {
    Task(id, 1, "t", None, Some(due), 1, None, 0, 0, None)
  }

  /**
   * Comparing days of the month puts a task due 2025-02-01 before one due
   * 2025-01-31; two undated tasks each claim to go first.
   */
  lemma CompareAsWrittenWrong()
    ensures CompareAsWritten(Due(1, 1738281600000), Due(2, 1738368000000)) > 0
    ensures TaskOrder.Compare(TaskOrder.UndatedFirst, Due(1, 1738281600000), Due(2, 1738368000000)) < 0
    ensures var u1 := Example(1, false); var u2 := Example(2, false);
      CompareAsWritten(u1, u2) < 0 && CompareAsWritten(u2, u1) < 0
  {
    DayOfMonthJan31();
    DayOfMonthFeb1();
  }

  lemma DayOfMonthJan31()
    ensures DayOfMonth(1738281600000) == 31
  {
    assert 1738281600000 / DayMs == 20119;
    var z := 20119 + 719468;
    assert z / 146097 == 5;
    var doe := z - 5 * 146097;
    assert doe == 9102;
    assert (doe - doe / 1460 + doe / 36524 - doe / 146096) / 365 == 24;
    assert doe - (365 * 24 + 24 / 4 - 24 / 100) == 336;
    assert (5 * 336 + 2) / 153 == 10;
    assert 336 - (153 * 10 + 2) / 5 + 1 == 31;
  }

  lemma DayOfMonthFeb1()
    ensures DayOfMonth(1738368000000) == 1
  {
    assert 1738368000000 / DayMs == 20120;
    var z := 20120 + 719468;
    assert z / 146097 == 5;
    var doe := z - 5 * 146097;
    assert doe == 9103;
    assert (doe - doe / 1460 + doe / 36524 - doe / 146096) / 365 == 24;
    assert doe - (365 * 24 + 24 / 4 - 24 / 100) == 337;
    assert (5 * 337 + 2) / 153 == 11;
    assert 337 - (153 * 11 + 2) / 5 + 1 == 1;
  }

  /**
   * Where the comparator as written is consistent it agrees with the corrected
   * one that keeps undated tasks first: across completion groups, and between
   * an undated and a dated task of one group.
   */
  lemma CompareAgreesWhereConsistent(a: Task, b: Task)
    requires IsOpen(a) != IsOpen(b) || a.dueDate.None? != b.dueDate.None?
    ensures CompareAsWritten(a, b) < 0 <==> TaskOrder.Compare(TaskOrder.UndatedFirst, a, b) < 0
    ensures CompareAsWritten(a, b) > 0 <==> TaskOrder.Compare(TaskOrder.UndatedFirst, a, b) > 0
  {
  }

  /**
   * The order shown: the done filter, then open before completed, undated
   * tasks first inside a group, dated ones by due instant.
   */
  function SortedForDisplay(ts: seq<Task>, showDone: bool): (r: seq<Task>)
    ensures TaskOrder.Sorted(TaskOrder.UndatedFirst, r)
    ensures multiset(r) == multiset(Displayed(ts, showDone))
    ensures forall t :: Filter(r, TaskOrder.TiedWith(TaskOrder.UndatedFirst, t))
                     == Filter(Displayed(ts, showDone), TaskOrder.TiedWith(TaskOrder.UndatedFirst, t))
  {
    TaskOrder.SortStableAll(TaskOrder.UndatedFirst, Displayed(ts, showDone));
    TaskOrder.Sort(TaskOrder.UndatedFirst, Displayed(ts, showDone))
  }
}

=== FILE: middleware.dfy ===
/**
 * The route guard run before every page request: public routes pass, the
 * protected ones need an auth cookie the server still accepts; anything else
 * goes to the login page, dropping the cookie when the server check fails.
 */
module Middleware {
  import opened Base

  /** `s.startsWith(p)`. */
  predicate StartsWith(s: string, p: string) {
    |p| <= |s| && s[..|p|] == p
  }

  const PublicRoutes: seq<string> := ["/auth/login", "/auth/signup", "/auth/request-password-reset", "/auth/reset-password"]

  const ProtectedPrefixes: seq<string> := ["/account", "/tasks", "/"]

  const LoginPath: string := "/auth/login"

  predicate IsPublic(path: string) {
    exists i :: 0 <= i < |PublicRoutes| && StartsWith(path, PublicRoutes[i])
  }

  predicate IsProtected(path: string) {
    exists i :: 0 <= i < |ProtectedPrefixes| && StartsWith(path, ProtectedPrefixes[i])
  }

  /** How the `/me` check went: accepted, refused (non-ok status), or the request itself failed. */
  datatype MeReply = MeOk | MeRefused | MeUnreachable

  datatype Decision = Pass | Redirect(to: string, deleteCookie: bool)

  /** The cookie as read: absent, or its value (an empty value counts as no token). */
  predicate HasToken(token: Option<string>) {
    token.Some? && token.value != ""
  }

  /**
   * `middleware(req)` for a path, the auth cookie and what `/me` would reply
   * (consulted only for a protected path with a token).
   */
  function Decide(path: string, token: Option<string>, me: MeReply): (d: Decision)
    ensures d.Redirect? ==> d.to == LoginPath
    ensures d.Redirect? && d.deleteCookie ==> HasToken(token) && !me.MeOk?
    ensures !IsPublic(path) && IsProtected(path) && HasToken(token) && !me.MeOk? ==> d == Redirect(LoginPath, true)
    ensures !IsPublic(path) && IsProtected(path) && !HasToken(token) ==> d == Redirect(LoginPath, false)
  {
    if IsPublic(path) then Pass
    else if IsProtected(path) then
      if !HasToken(token) then Redirect(LoginPath, false)
      else if me.MeOk? then Pass
      else Redirect(LoginPath, true)
    else Pass
  }

  /** Because "/" is a protected prefix, every "/"-path that is not public is protected. */
  lemma SlashPathsProtected(path: string)
    requires StartsWith(path, "/") && !IsPublic(path)
    ensures IsProtected(path)
  {
    assert StartsWith(path, ProtectedPrefixes[2]);
  }

  /** Sub-paths of a public route are public too. */
  lemma PublicSubpaths(path: string, rest: string)
    requires IsPublic(path)
    ensures IsPublic(path + rest)
  {
    var i :| 0 <= i < |PublicRoutes| && StartsWith(path, PublicRoutes[i]);
    assert (path + rest)[..|PublicRoutes[i]|] == path[..|PublicRoutes[i]|];
  }

  /**
   * A request passes exactly when its path is public, does not start with
   * "/", or carries a token that `/me` accepts.
   */
  lemma PassIff(path: string, token: Option<string>, me: MeReply)
    ensures Decide(path, token, me) == Pass <==>
      IsPublic(path) || !StartsWith(path, "/") || (HasToken(token) && me.MeOk?)
  {
    if StartsWith(path, "/") && !IsPublic(path) {
      SlashPathsProtected(path);
    }
    if IsProtected(path) && !IsPublic(path) {
      var i :| 0 <= i < |ProtectedPrefixes| && StartsWith(path, ProtectedPrefixes[i]);
      assert path[0] == ProtectedPrefixes[i][0] == '/';
    }
  }

  /** The login page itself always passes, so a redirect to it never loops. */
  lemma LoginPasses(token: Option<string>, me: MeReply)
    ensures Decide(LoginPath, token, me) == Pass
  {
    assert StartsWith(LoginPath, PublicRoutes[0]);
  }
}

=== FILE: overview.dfy ===
/**
 * The overview page of the earlier client: nine task lists over fixed,
 * overlapping day windows, an edit broadcast to all of them, and the
 * per-list has-data flags behind the "Keine Daten verfügbar." message.
 */
module Overview {
  import opened Base
  import opened Tasks
  import opened SearchParams
  import opened LegacyTasks
  import TasksContainer

  /** A list's window: a single day or a span of days, counted from today. */
  datatype Window = Day(day: int) | Span(from: int, to: int)

  const Windows: seq<(string, Window)> := [
    ("Heute", Day(0)),
    ("Morgen", Day(1)),
    ("Nächste 3 Tage", Span(0, 2)),
    ("Nächste 7 Tage", Span(0, 6)),
    ("In 1 Woche", Span(7, 13)),
    ("In 2 Wochen", Span(14, 20)),
    ("In 3 Wochen", Span(21, 27)),
    ("In 4 Wochen", Span(28, 34)),
    ("Nächste 30 Tage", Span(0, 29))
  ]

  /** The range the list receives as written: `day` is passed on but the list reads only `range`. */
  function RangeAsWritten(w: Window): Option<(int, int)> {
    match w
    case Day(_) => None
    case Span(f, t) => Some((f, t))
  }

  /** The range a single-day window evidently stands for: that day to that day. */
  function Range(w: Window): (r: Option<(int, int)>)
    ensures r.Some?
    ensures w.Span? ==> r == RangeAsWritten(w)
    ensures w.Day? ==> r.value.0 == r.value.1 == w.day
  {
    match w
    case Day(d) => Some((d, d))
    case Span(f, t) => Some((f, t))
  }

  /**
   * As written, the "Heute" and "Morgen" lists query without any date bound:
   * their parameters are the page's unchanged, so they list the same tasks
   * as an unbounded query.
   */
  lemma DayWindowsAsWrittenUnbounded(search: Params, now: int, i: int)
    requires i == 0 || i == 1
    requires !HasKey(search, "from") && !HasKey(search, "to")
    ensures GetAll(TasksContainer.RangeParams(search, RangeAsWritten(Windows[i].1), now), "from") == []
    ensures GetAll(TasksContainer.RangeParams(search, RangeAsWritten(Windows[i].1), now), "to") == []
  {
    assert Windows[i].1.Day?;
    assert TasksContainer.RangeParams(search, RangeAsWritten(Windows[i].1), now) == search;
  }

  /**
   * With the call as written no list sends any query, so the windows bound
   * nothing: the "from"/"to" parameters built for a window (single-day
   * windows corrected or not) never reach the server.
   */
  lemma WindowsAsWrittenSendNoQuery(search: Params, now: int, i: int)
    requires 0 <= i < |Windows|
    ensures LoadQueryString(LoadArgsAsWritten(TasksContainer.RangeParams(search, RangeAsWritten(Windows[i].1), now))) == ""
    ensures LoadQueryString(LoadArgsAsWritten(TasksContainer.RangeParams(search, Range(Windows[i].1), now))) == ""
  {
  }

  /**
   * With both corrections (single-day ranges, the call as declared) each list
   * sends the query string of parameters holding exactly its window's days.
   */
  lemma WindowsQueriedIntended(route: string, search: Params, now: int, i: int)
    requires 0 <= i < |Windows|
    ensures var r := TasksContainer.RangeParams(search, Range(Windows[i].1), now);
      && LoadQueryString(LoadArgsIntended(route, r)) == ToQueryString(r)
      && |GetAll(r, "from")| == 1 && |GetAll(r, "to")| == 1
      && Text.ParseInt(GetAll(r, "from")[0]) == Some(TasksContainer.DaysFrom(now, Range(Windows[i].1).value.0))
      && Text.ParseInt(GetAll(r, "to")[0]) == Some(TasksContainer.DaysFrom(now, Range(Windows[i].1).value.1))
  {
    WindowsBounded(search, now, i);
  }

  /** With day windows as single-day ranges, the parameters built for every list hold exactly its days. */
  lemma WindowsBounded(search: Params, now: int, i: int)
    requires 0 <= i < |Windows|
    ensures var w := Windows[i].1; var r := TasksContainer.RangeParams(search, Range(w), now);
      && |GetAll(r, "from")| == 1 && |GetAll(r, "to")| == 1
      && Text.ParseInt(GetAll(r, "from")[0]) == Some(TasksContainer.DaysFrom(now, Range(w).value.0))
      && Text.ParseInt(GetAll(r, "to")[0]) == Some(TasksContainer.DaysFrom(now, Range(w).value.1))
  {
    TasksContainer.RangeParamsLaws(search, Range(Windows[i].1), now);
  }

  predicate Covers(w: Window, d: int) {
    match Range(w)
    case Some((f, t)) => f <= d <= t
    case None => false
  }

  /** Every day from today to day 34 is covered, and today is covered by four lists at once. */
  lemma WindowsCoverAndOverlap(d: int)
    requires 0 <= d <= 34
    ensures exists i :: 0 <= i < |Windows| && Covers(Windows[i].1, d)
    ensures Covers(Windows[0].1, 0) && Covers(Windows[2].1, 0) && Covers(Windows[3].1, 0) && Covers(Windows[8].1, 0)
  {
    if d == 0 { assert Covers(Windows[0].1, d); }
    else if d == 1 { assert Covers(Windows[1].1, d); }
    else if d <= 6 { assert Covers(Windows[3].1, d); }
    else if d <= 13 { assert Covers(Windows[4].1, d); }
    else if d <= 20 { assert Covers(Windows[5].1, d); }
    else if d <= 27 { assert Covers(Windows[6].1, d); }
    else { assert Covers(Windows[7].1, d); }
  }

  // ---------------------------------------------------------------------
  // broadcast

  /** A list as the overview sees it: its tasks, and whether it is mounted (its ref is set). */
  datatype List = List(tasks: seq<Task>, mounted: bool)

  /**
   * `updateTask(task)`: every mounted list runs its container's own
   * `updateTask` (as written); an unmounted one is skipped and signals nothing.
   */
  function BroadcastUpdate(ls: seq<List>, task: Task): (r: seq<Edit>)
    ensures |r| == |ls|
    ensures forall i :: 0 <= i < |ls| && ls[i].mounted ==> r[i] == UpdateAsWritten(ls[i].tasks, task)
    ensures forall i :: 0 <= i < |ls| && !ls[i].mounted ==> r[i] == Edit(ls[i].tasks, [])
  {
    seq(|ls|, i requires 0 <= i < |ls| =>
      if ls[i].mounted then UpdateAsWritten(ls[i].tasks, task) else Edit(ls[i].tasks, []))
  }

  /** `deleteTask(task)`: the same broadcast of the containers' own `deleteTask`. */
  function BroadcastDelete(ls: seq<List>, task: Task): (r: seq<Edit>)
    ensures |r| == |ls|
    ensures forall i :: 0 <= i < |ls| && ls[i].mounted ==> r[i] == DeleteAsWritten(ls[i].tasks, task.id)
    ensures forall i :: 0 <= i < |ls| && !ls[i].mounted ==> r[i] == Edit(ls[i].tasks, [])
  {
    seq(|ls|, i requires 0 <= i < |ls| =>
      if ls[i].mounted then DeleteAsWritten(ls[i].tasks, task.id) else Edit(ls[i].tasks, []))
  }

  /**
   * A broadcast changes only the mounted lists holding the id exactly once;
   * in those it replaces (or removes) just that task.
   */
  lemma BroadcastTouchesOnlyHolders(ls: seq<List>, task: Task, i: int)
    requires 0 <= i < |ls|
    ensures !ls[i].mounted || CountId(ls[i].tasks, task.id) != 1 ==>
      BroadcastUpdate(ls, task)[i] == Edit(ls[i].tasks, []) && BroadcastDelete(ls, task)[i] == Edit(ls[i].tasks, [])
    ensures forall k :: ls[i].mounted && OnceAt(ls[i].tasks, task.id, k) ==>
      BroadcastUpdate(ls, task)[i].tasks == ls[i].tasks[k := task]
      && BroadcastDelete(ls, task)[i].tasks == ls[i].tasks[..k] + ls[i].tasks[k + 1..]
  {
    forall k | ls[i].mounted && OnceAt(ls[i].tasks, task.id, k)
      ensures BroadcastUpdate(ls, task)[i].tasks == ls[i].tasks[k := task]
      ensures BroadcastDelete(ls, task)[i].tasks == ls[i].tasks[..k] + ls[i].tasks[k + 1..]
    {
      EditsTouchOnlyTheId(ls[i].tasks, task, k);
      AsWrittenRightWhenStateChanges(ls[i].tasks, task, k);
    }
  }

  // ---------------------------------------------------------------------
  // has-data flags

  /** One list's entry: its ref (an identity) and its has-data flag, unset at first. */
  datatype Entry = Entry(ref: int, hasData: Option<bool>)

  /** One entry per window, each with its own ref and no flag reported yet. */
  function InitialEntries(): (r: seq<Entry>)
    ensures |r| == |Windows|
    ensures forall i :: 0 <= i < |r| ==> r[i].hasData.None?
    ensures DistinctRefs(r)
  {
    seq(|Windows|, i requires 0 <= i < |Windows| => Entry(i, None))
  }

  predicate DistinctRefs(es: seq<Entry>) {
    forall i, j :: 0 <= i < j < |es| ==> es[i].ref != es[j].ref
  }

  /** `onDisplayHasDataChanged(ref, v)`: the entry with that ref takes `v`. */
  function OnHasDataChanged(es: seq<Entry>, ref: int, v: bool): (r: seq<Entry>)
    ensures |r| == |es|
  {
    seq(|es|, i requires 0 <= i < |es| => if es[i].ref == ref then Entry(ref, Some(v)) else es[i])
  }

  /** With distinct refs exactly the matching entry changes; an unknown ref changes nothing. */
  lemma OnHasDataChangedOnlyMatching(es: seq<Entry>, ref: int, v: bool)
    requires DistinctRefs(es)
    ensures forall k :: 0 <= k < |es| && es[k].ref == ref ==> OnHasDataChanged(es, ref, v) == es[k := Entry(ref, Some(v))]
    ensures (forall k :: 0 <= k < |es| ==> es[k].ref != ref) ==> OnHasDataChanged(es, ref, v) == es
  {
  }

  /** The values a list sends, one after the other. */
  function ApplySignals(es: seq<Entry>, ref: int, signals: seq<bool>): (r: seq<Entry>)
    ensures |r| == |es|
    decreases |signals|
  {
    if signals == [] then es
    else ApplySignals(OnHasDataChanged(es, ref, signals[0]), ref, signals[1..])
  }

  lemma {:induction false} ApplySignalsLast(es: seq<Entry>, ref: int, signals: seq<bool>, k: int)
    requires 0 <= k < |es| && es[k].ref == ref && DistinctRefs(es)
    ensures signals == [] ==> ApplySignals(es, ref, signals) == es
    ensures signals != [] ==> ApplySignals(es, ref, signals) == es[k := Entry(ref, Some(signals[|signals| - 1]))]
    decreases |signals|
  {
    if signals != [] {
      var es' := OnHasDataChanged(es, ref, signals[0]);
      OnHasDataChangedOnlyMatching(es, ref, signals[0]);
      assert es' == es[k := Entry(ref, Some(signals[0]))];
      ApplySignalsLast(es', ref, signals[1..], k);
    }
  }

  /** `filter(entry => entry[1]).length === 0`: no list has reported data. */
  predicate ShowsEmptyMessage(es: seq<Entry>) {
    Count(es, (e: Entry) => e.hasData == Some(true)) == 0
  }

  lemma EmptyMessageIff(es: seq<Entry>)
    ensures ShowsEmptyMessage(es) <==> forall i :: 0 <= i < |es| ==> es[i].hasData != Some(true)
  {
    var p := (e: Entry) => e.hasData == Some(true);
    if !ShowsEmptyMessage(es) {
      var f := Filter(es, p);
      assert f[0] in es;
    }
  }

  /** Before any list reports, the message shows. */
  lemma InitialShowsEmpty()
    ensures ShowsEmptyMessage(InitialEntries())
  {
    EmptyMessageIff(InitialEntries());
  }

  /**
   * A local delete in list `k`, as written: its flag turns to "no data"
   * exactly when the open count before the delete, minus one, is 0, whatever
   * the deleted task was; otherwise the entries stay.
   */
  lemma DeleteFlag(es: seq<Entry>, k: int, ts: seq<Task>, id: int)
    requires 0 <= k < |es| && DistinctRefs(es)
    requires CountId(ts, id) == 1
    ensures var r := ApplySignals(es, es[k].ref, DeleteAsWritten(ts, id).signals);
      && (CountOpen(ts) - 1 == 0 ==> r == es[k := Entry(es[k].ref, Some(false))])
      && (CountOpen(ts) - 1 != 0 ==> r == es)
  {
    ApplySignalsLast(es, es[k].ref, DeleteAsWritten(ts, id).signals, k);
  }

  /**
   * With the corrected delete the flag turns to "no data" exactly when no
   * open task remains in the list; otherwise the entries stay.
   */
  lemma DeleteFlagIntended(es: seq<Entry>, k: int, ts: seq<Task>, id: int)
    requires 0 <= k < |es| && DistinctRefs(es)
    requires CountId(ts, id) == 1
    ensures var r := ApplySignals(es, es[k].ref, LegacyTasks.Delete(ts, id).signals);
      && (CountOpen(LegacyTasks.Delete(ts, id).tasks) == 0 ==> r == es[k := Entry(es[k].ref, Some(false))])
      && (CountOpen(LegacyTasks.Delete(ts, id).tasks) != 0 ==> r == es)
  {
    ApplySignalsLast(es, es[k].ref, LegacyTasks.Delete(ts, id).signals, k);
  }
}

=== FILE: params.dfy ===
/**
 * `URLSearchParams` as an ordered list of key/value pairs, with the
 * operations of the WHATWG URL standard the client uses: `get`, `getAll`,
 * `has`, `append`, `delete`, `set` and `toString`.
 */
module SearchParams {
  import opened Base

  type Params = seq<(string, string)>

  predicate HasKey(ps: Params, k: string) {
    exists i :: 0 <= i < |ps| && ps[i].0 == k
  }

  /** `params.get(k)`: the value of the first pair with key `k`, or null. */
  function Get(ps: Params, k: string): (r: Option<string>)
    ensures r.None? <==> !HasKey(ps, k)
  {
    if ps == [] then None
    else if ps[0].0 == k then Some(ps[0].1)
    else Get(ps[1..], k)
  }

  /** `params.getAll(k)`: the values of every pair with key `k`, in order. */
  function GetAll(ps: Params, k: string): (r: seq<string>)
    ensures |r| == 0 <==> !HasKey(ps, k)
  {
    if ps == [] then []
    else (if ps[0].0 == k then [ps[0].1] else []) + GetAll(ps[1..], k)
  }

  /** `params.delete(k)`: removes every pair with key `k`, keeping the others in order. */
  function Delete(ps: Params, k: string): (r: Params)
    ensures !HasKey(r, k)
    ensures |r| <= |ps|
  {
    if ps == [] then []
    else if ps[0].0 == k then Delete(ps[1..], k)
    else [ps[0]] + Delete(ps[1..], k)
  }

  /** `params.append(k, v)`. */
  function Append(ps: Params, k: string, v: string): Params {
    ps + [(k, v)]
  }

  /** `params.set(k, v)`: replaces the first pair with key `k` and drops the rest; appends when absent. */
  function Set(ps: Params, k: string, v: string): Params {
    if HasKey(ps, k) then SetFirst(ps, k, v) else ps + [(k, v)]
  }

  function SetFirst(ps: Params, k: string, v: string): Params
    requires HasKey(ps, k)
  {
    if ps[0].0 == k then [(k, v)] + Delete(ps[1..], k)
    else
      assert HasKey(ps[1..], k) by {
        var i :| 0 <= i < |ps| && ps[i].0 == k;
        assert ps[1..][i - 1].0 == k;
      }
      [ps[0]] + SetFirst(ps[1..], k, v)
  }

  /** `params.toString()` without percent-encoding: `k=v` pairs joined by "&". */
  function ToQueryString(ps: Params): (r: string)
    ensures r == [] <==> ps == []
  {
    if ps == [] then ""
    else if |ps| == 1 then ps[0].0 + "=" + ps[0].1
    else ps[0].0 + "=" + ps[0].1 + "&" + ToQueryString(ps[1..])
  }

  // ---------------------------------------------------------------------
  // laws

  lemma {:induction false} GetAllAppend(a: Params, b: Params, k: string)
    ensures GetAll(a + b, k) == GetAll(a, k) + GetAll(b, k)
  {
    if a == [] {
      assert a + b == b;
    } else {
      var h: seq<string> := if a[0].0 == k then [a[0].1] else [];
      assert (a + b)[0] == a[0];
      assert (a + b)[1..] == a[1..] + b;
      GetAllAppend(a[1..], b, k);
      calc {
        GetAll(a + b, k);
        h + GetAll(a[1..] + b, k);
        h + (GetAll(a[1..], k) + GetAll(b, k));
        (h + GetAll(a[1..], k)) + GetAll(b, k);
        GetAll(a, k) + GetAll(b, k);
      }
    }
  }

  lemma {:induction false} DeleteAppend(a: Params, b: Params, k: string)
    ensures Delete(a + b, k) == Delete(a, k) + Delete(b, k)
  {
    if a == [] {
      assert a + b == b;
    } else {
      assert (a + b)[1..] == a[1..] + b;
      DeleteAppend(a[1..], b, k);
    }
  }

  lemma GetAllDeleteSame(ps: Params, k: string)
    ensures GetAll(Delete(ps, k), k) == []
  {
  }

  lemma GetAllDeleteOther(ps: Params, k: string, k': string)
    requires k != k'
    ensures GetAll(Delete(ps, k), k') == GetAll(ps, k')
  {
  }

  /** Deleting a key that is absent changes nothing. */
  lemma {:induction false} DeleteAbsent(ps: Params, k: string)
    requires !HasKey(ps, k)
    ensures Delete(ps, k) == ps
  {
    if ps != [] {
      DeleteAbsent(ps[1..], k);
    }
  }

  lemma DeleteTwice(ps: Params, k: string)
    ensures Delete(Delete(ps, k), k) == Delete(ps, k)
  {
    DeleteAbsent(Delete(ps, k), k);
  }

  lemma DeleteCommutes(ps: Params, k: string, k': string)
    ensures Delete(Delete(ps, k), k') == Delete(Delete(ps, k'), k)
  {
  }

  lemma SetFirstLaws(ps: Params, k: string, v: string)
    requires HasKey(ps, k)
    ensures GetAll(SetFirst(ps, k, v), k) == [v]
    ensures Delete(SetFirst(ps, k, v), k) == Delete(ps, k)
    ensures forall k' :: k' != k ==> GetAll(SetFirst(ps, k, v), k') == GetAll(ps, k')
  {
    if ps[0].0 == k {
      GetAllDeleteSame(ps[1..], k);
      DeleteTwice(ps[1..], k);
      forall k' | k' != k ensures GetAll(SetFirst(ps, k, v), k') == GetAll(ps, k') {
        GetAllDeleteOther(ps[1..], k, k');
      }
    } else {
      assert HasKey(ps[1..], k) by {
        var i :| 0 <= i < |ps| && ps[i].0 == k;
        assert ps[1..][i - 1].0 == k;
      }
      SetFirstLaws(ps[1..], k, v);
    }
  }

  /** After `set(k, v)`: `getAll(k)` is exactly `[v]`, every other pair is kept in order. */
  lemma SetLaws(ps: Params, k: string, v: string)
    ensures GetAll(Set(ps, k, v), k) == [v]
    ensures Get(Set(ps, k, v), k) == Some(v)
    ensures Delete(Set(ps, k, v), k) == Delete(ps, k)
    ensures forall k' :: k' != k ==> GetAll(Set(ps, k, v), k') == GetAll(ps, k')
  {
    var r := Set(ps, k, v);
    if HasKey(ps, k) {
      SetFirstLaws(ps, k, v);
    } else {
      GetAllAppend(ps, [(k, v)], k);
      DeleteAppend(ps, [(k, v)], k);
      DeleteAbsent(ps, k);
      forall k' | k' != k ensures GetAll(r, k') == GetAll(ps, k') {
        GetAllAppend(ps, [(k, v)], k');
      }
    }
    GetFirstOfGetAll(r, k);
  }

  /** Setting keys that no pair carries yet appends them in the order they are set. */
  lemma SetFresh(ps: Params, k: string, v: string)
    requires forall i :: 0 <= i < |ps| ==> ps[i].0 != k
    ensures Set(ps, k, v) == ps + [(k, v)]
  {
  }

  /** Three `set` calls with distinct keys on empty parameters list them in that order. */
  lemma SetThreeDistinct(k1: string, v1: string, k2: string, v2: string, k3: string, v3: string)
    requires k1 != k2 && k1 != k3 && k2 != k3
    ensures Set(Set(Set([], k1, v1), k2, v2), k3, v3) == [(k1, v1), (k2, v2), (k3, v3)]
  {
    var p1 := [(k1, v1)];
    var p2 := [(k1, v1), (k2, v2)];
    SetFresh([], k1, v1);
    SetFresh(p1, k2, v2);
    assert p1 + [(k2, v2)] == p2;
    SetFresh(p2, k3, v3);
    assert p2 + [(k3, v3)] == [(k1, v1), (k2, v2), (k3, v3)];
  }

  /** `get` is the head of `getAll`. */
  lemma GetFirstOfGetAll(ps: Params, k: string)
    ensures Get(ps, k) == (if GetAll(ps, k) == [] then None else Some(GetAll(ps, k)[0]))
  {
  }
}

=== FILE: query_bus.dfy ===
/**
 * The task query bus: a set of invalidation callbacks. `invalidateAll`
 * calls every subscribed callback once; `subscribe` adds one and hands back
 * the matching unsubscribe.
 */
module QueryBus {

  /** `setSubscribers(prev => new Set(prev).add(fn))`. */
  function Subscribe<S>(subs: set<S>, fn: S): (r: set<S>)
    ensures fn in r
    ensures forall g :: g in subs ==> g in r
    ensures forall g :: g in r && g != fn ==> g in subs
  {
    subs + {fn}
  }

  /** The function `subscribe` returns: deletes `fn` from a copy of the set. */
  function Unsubscribe<S>(subs: set<S>, fn: S): (r: set<S>)
    ensures fn !in r
    ensures forall g :: g in subs && g != fn ==> g in r
    ensures forall g :: g in r ==> g in subs
  {
    subs - {fn}
  }

  /** Subscribing twice is subscribing once (a `Set` holds each callback once). */
  lemma SubscribeIdempotent<S>(subs: set<S>, fn: S)
    ensures Subscribe(Subscribe(subs, fn), fn) == Subscribe(subs, fn)
  {
  }

  /** The returned unsubscribe undoes a fresh subscription. */
  lemma UnsubscribeUndoesSubscribe<S>(subs: set<S>, fn: S)
    requires fn !in subs
    ensures Unsubscribe(Subscribe(subs, fn), fn) == subs
  {
  }

  /** Subscriptions of different callbacks do not interfere with one another's removal. */
  lemma UnsubscribeOther<S>(subs: set<S>, fn: S, g: S)
    requires fn != g
    ensures Unsubscribe(Subscribe(subs, fn), g) == Subscribe(Unsubscribe(subs, g), fn)
  {
  }

  /**
   * `subscribers.forEach(fn => fn())`: the callbacks in the order they are
   * called. Every subscriber is called exactly once and nothing else is.
   */
  method InvalidateAll<S>(subs: set<S>) returns (calls: seq<S>)
    ensures multiset(calls) == multiset(subs)
  {
    calls := [];
    var rest := subs;
    while rest != {}
      invariant rest <= subs
      invariant multiset(calls) + multiset(rest) == multiset(subs)
      decreases |rest|
    {
      var fn :| fn in rest;
      calls := calls + [fn];
      rest := rest - {fn};
    }
  }

  /** Consequence for callers: each subscriber occurs in the call list exactly once. */
  lemma CalledOnce<S>(subs: set<S>, calls: seq<S>, fn: S)
    requires multiset(calls) == multiset(subs)
    ensures fn in subs <==> multiset(calls)[fn] == 1
    ensures fn !in subs <==> fn !in calls
  {
    assert fn in calls <==> fn in multiset(calls);
  }
}

=== FILE: reset_password.dfy ===
/**
 * The password-reset page: the reset link's token is checked with the
 * server first, then the form checks the new password twice typed before
 * sending it. Server replies are inputs.
 */
module ResetPassword {
  import opened Base

  const MinLength: nat := 6

  const TooShortMessage: string := "Das Passwort muss mindestens 6 Zeichen lang sein"
  const MismatchMessage: string := "Die Passwörter stimmen nicht überein"
  const DefaultError: string := "Fehler beim Zurücksetzen des Passworts."
  const NetworkError: string := "Netzwerkfehler. Bitte versuche es später erneut."

  /**
   * The token check: `None` while it runs, then whether the link is valid.
   * `status` is the verify request's status, `None` when the request failed.
   * An absent or empty token is invalid without asking.
   */
  function TokenValid(token: Option<string>, status: Option<int>): (v: bool)
    ensures v <==> token.Some? && token.value != "" && status == Some(200)
  {
    if token.Some? && token.value != "" then status.Some? && status.value == 200 else false
  }

  /** Whether a token check makes a request at all. */
  predicate TokenChecked(token: Option<string>) {
    token.Some? && token.value != ""
  }

  /** The outcome of the form's own checks. */
  datatype Check = TooShort | Mismatch | Passes

  /**
   * `!password || password.length < 6`, then `password !== password2`; a
   * missing form value reads as `None`.
   */
  function CheckPasswords(password: Option<string>, password2: Option<string>): (c: Check)
    ensures c == TooShort <==> password.None? || |password.value| < MinLength
    ensures c == Mismatch <==> password.Some? && |password.value| >= MinLength && password2 != password
    ensures c == Passes ==> password.Some? && password2 == password && |password.value| >= MinLength
  {
    if password.None? || password.value == "" || |password.value| < MinLength then TooShort
    else if password != password2 then Mismatch
    else Passes
  }

  /** The form's message for a failed check (shown as a toast). */
  function CheckMessage(c: Check): string {
    match c
    case TooShort => TooShortMessage
    case Mismatch => MismatchMessage
    case Passes => ""
  }

  /** The reset request's outcome: ok, refused with the body's `message` ("" when absent), an unreadable body, or no answer. */
  datatype Reply = ResetOk | ResetRefused(message: string) | ResetUnreadable | ResetNetErr

  datatype State = State(validToken: Option<bool>, success: bool, error: Option<string>)

  /**
   * `handleReset`: the error is cleared first; a failed check stops there
   * without a request (second result false); otherwise the reply decides.
   */
  function HandleReset(st: State, password: Option<string>, password2: Option<string>, reply: Reply): (r: (State, bool))
    ensures r.1 <==> CheckPasswords(password, password2) == Passes
    ensures !r.1 ==> r.0 == st.(error := None)
    ensures r.1 && reply == ResetOk ==> r.0 == st.(success := true, error := None)
    ensures r.1 && reply != ResetOk ==> !r.0.success || st.success
    ensures r.1 && reply.ResetRefused? ==> r.0.error == Some(if reply.message != "" then reply.message else DefaultError)
    ensures r.1 && (reply == ResetUnreadable || reply == ResetNetErr) ==> r.0.error == Some(NetworkError)
    ensures r.0.validToken == st.validToken
  {
    var cleared := st.(error := None);
    if CheckPasswords(password, password2) != Passes then (cleared, false)
    else
      match reply
      case ResetOk => (cleared.(success := true), true)
      case ResetRefused(m) => (cleared.(error := Some(if m != "" then m else DefaultError)), true)
      case _ => (cleared.(error := Some(NetworkError)), true)
  }

  /** What the page shows, in the order it decides. */
  datatype View = Verifying | InvalidLink | SuccessView | ErrorView(message: string) | FormView

  function Render(st: State): (v: View)
    ensures v == Verifying <==> st.validToken.None?
    ensures v == InvalidLink <==> st.validToken == Some(false)
    ensures v == SuccessView <==> st.validToken == Some(true) && st.success
    ensures v.ErrorView? <==> st.validToken == Some(true) && !st.success && st.error.Some? && st.error.value != ""
    ensures v == FormView <==> st.validToken == Some(true) && !st.success && (st.error.None? || st.error.value == "")
  {
    if st.validToken.None? then Verifying
    else if !st.validToken.value then InvalidLink
    else if st.success then SuccessView
    else if st.error.Some? && st.error.value != "" then ErrorView(st.error.value)
    else FormView
  }

  /** A short pair is reported as too short even when the two also differ. */
  lemma LengthCheckedFirst(password: string, password2: string)
    requires |password| < MinLength && password != password2
    ensures CheckPasswords(Some(password), Some(password2)) == TooShort
    ensures CheckMessage(CheckPasswords(Some(password), Some(password2))) == TooShortMessage
  {
  }

  /** A request is only ever sent with a password of at least six characters typed the same twice. */
  lemma SentPasswordsAgree(st: State, password: Option<string>, password2: Option<string>, reply: Reply)
    requires HandleReset(st, password, password2, reply).1
    ensures password.Some? && password2 == password && |password.value| >= MinLength
  {
  }

  /**
   * From the form (valid link, no success, no error), a submit shows the
   * success card, the error card, or the form again exactly when the check
   * fails.
   */
  lemma SubmitFromForm(st: State, password: Option<string>, password2: Option<string>, reply: Reply)
    requires Render(st) == FormView
    ensures var (r, sent) := HandleReset(st, password, password2, reply);
      && (!sent ==> Render(r) == FormView)
      && (sent && reply == ResetOk ==> Render(r) == SuccessView)
      && (sent && reply != ResetOk ==> Render(r).ErrorView?)
  {
  }

  /** The link is shown as invalid exactly when no token came with it or the server did not answer 200. */
  lemma InvalidLinkIff(token: Option<string>, status: Option<int>)
    ensures Render(State(Some(TokenValid(token, status)), false, None)) == InvalidLink <==>
      !TokenChecked(token) || status != Some(200)
  {
  }
}

=== FILE: search_menu.dfy ===
/**
 * The search menu, in both clients: its state read from the page's search
 * parameters, the validity rule, and the three parameters a search produces
 * (the newer client navigates to them, the earlier one hands them to a
 * callback).
 */
module SearchMenu {
  import opened Base
  import opened Text
  import opened SearchParams

  datatype State = State(title: string, ignorecase: bool, notDone: bool)

  /** `get(k) ? !!Number(get(k)) : default`: an absent or empty value gives the default. */
  function Flag(v: Option<string>, default: bool): (b: bool)
    ensures v.None? || v.value == "" ==> b == default
    ensures v.Some? && v.value != "" ==> b == NumberIsTruthy(v.value)
  {
    if v.Some? && v.value != "" then NumberIsTruthy(v.value) else default
  }

  /** The initial state: the title (or ""), case-insensitive unless told otherwise, not limited to open tasks unless told. */
  function InitFrom(ps: Params): (st: State)
    ensures !HasKey(ps, "title") ==> st.title == ""
    ensures !HasKey(ps, "ignorecase") ==> st.ignorecase
    ensures !HasKey(ps, "notDone") ==> !st.notDone
  {
    State(
      if Get(ps, "title").Some? then Get(ps, "title").value else "",
      Flag(Get(ps, "ignorecase"), true),
      Flag(Get(ps, "notDone"), false))
  }

  /** `searchTitle.trim() === ""`. */
  predicate Invalid(st: State) {
    Trim(st.title) == ""
  }

  /** `new URLSearchParams()` with title, ignorecase and notDone set in that order. */
  function BuildParams(st: State): (ps: Params)
    ensures ps == [("title", Trim(st.title)), ("ignorecase", BoolDigit(st.ignorecase)), ("notDone", BoolDigit(st.notDone))]
  {
    assert |"title"| != |"ignorecase"| && |"title"| != |"notDone"| && |"ignorecase"| != |"notDone"|;
    SetThreeDistinct("title", Trim(st.title), "ignorecase", BoolDigit(st.ignorecase), "notDone", BoolDigit(st.notDone));
    Set(Set(Set([], "title", Trim(st.title)), "ignorecase", BoolDigit(st.ignorecase)), "notDone", BoolDigit(st.notDone))
  }

  datatype Outcome = Rejected | Navigate(url: string) | OnSearch(params: Params)

  /** The newer client's `search`: an invalid title is rejected, otherwise replace the URL with the new query. */
  function SearchAndNavigate(pathname: string, st: State): (r: Outcome)
    ensures r.Rejected? <==> Invalid(st)
    ensures r.Navigate? <==> !Invalid(st)
    ensures r.Navigate? ==> r.url == pathname + "?" + ToQueryString(BuildParams(st))
  {
    if Invalid(st) then Rejected else Navigate(pathname + "?" + ToQueryString(BuildParams(st)))
  }

  /** The earlier client's `search`: an invalid title is rejected, otherwise the parameters go to `onSearch`. */
  function SearchWithCallback(st: State): (r: Outcome)
    ensures r.Rejected? <==> Invalid(st)
    ensures r.OnSearch? ==> r.params == BuildParams(st)
  {
    if Invalid(st) then Rejected else OnSearch(BuildParams(st))
  }

  /** The newer client's search button is disabled exactly when a click would be rejected; the earlier one's never is. */
  predicate ButtonDisabled(st: State) {
    Invalid(st)
  }

  lemma DisabledIffRejected(pathname: string, st: State)
    ensures ButtonDisabled(st) <==> SearchAndNavigate(pathname, st).Rejected?
  {
  }

  /**
   * Reading back the parameters a search produced gives the trimmed title
   * and the same two switches, so a reload keeps the search as it was sent.
   */
  lemma InitBuildRoundTrip(st: State)
    ensures InitFrom(BuildParams(st)) == State(Trim(st.title), st.ignorecase, st.notDone)
  {
    var a := Set([], "title", Trim(st.title));
    var b := Set(a, "ignorecase", BoolDigit(st.ignorecase));
    var c := Set(b, "notDone", BoolDigit(st.notDone));
    assert c == BuildParams(st);
    SetLaws([], "title", Trim(st.title));
    SetLaws(a, "ignorecase", BoolDigit(st.ignorecase));
    SetLaws(b, "notDone", BoolDigit(st.notDone));
    GetFirstOfGetAll(c, "title");
    GetFirstOfGetAll(c, "ignorecase");
  }

  /** A second search from the read-back state sends the same parameters again. */
  lemma SearchIdempotent(st: State)
    ensures BuildParams(InitFrom(BuildParams(st))) == BuildParams(st)
  {
    InitBuildRoundTrip(st);
    TrimIdempotent(st.title);
  }
}

=== FILE: tags.dfy ===
/**
 * The tag list hook of both clients: the tags the server lists, with their
 * names trimmed, and the loading flag around the request.
 */
module Tags {
  import opened Text

  datatype Tag = Tag(id: int, name: string)

  /** What the tag request produced: a JSON array, some other JSON value, or no JSON at all (the request or the parse failed). */
  datatype Reply = TagArray(items: seq<Tag>) | NotArray | Failed

  datatype State = State(tags: seq<Tag>, loading: bool)

  /** `data.map(t => ({ id: t.id, name: t.name.trim() }))`. */
  function Normalize(items: seq<Tag>): (r: seq<Tag>)
    ensures |r| == |items|
    ensures forall i :: 0 <= i < |r| ==> r[i].id == items[i].id && r[i].name == Trim(items[i].name)
  {
    seq(|items|, i requires 0 <= i < |items| => Tag(items[i].id, Trim(items[i].name)))
  }

  /** Every name in a normalised list is trimmed. */
  predicate Normalized(ts: seq<Tag>) {
    forall i :: 0 <= i < |ts| ==> IsTrimmed(ts[i].name)
  }

  /**
   * A finished fetch: an array replaces the tags with its normalised items,
   * any other value empties them, a failure leaves them; loading ends in every
   * case.
   */
  function Fetched(st: State, reply: Reply): (r: State)
    ensures !r.loading
    ensures reply.TagArray? ==> r.tags == Normalize(reply.items)
    ensures reply.NotArray? ==> r.tags == []
    ensures reply.Failed? ==> r.tags == st.tags
  {
    match reply
    case TagArray(items) => State(Normalize(items), false)
    case NotArray => State([], false)
    case Failed => st.(loading := false)
  }

  /** `fetchTags` (the refetch of the newer client): loading while the request runs. */
  function StartFetch(st: State): (r: State)
    ensures r.loading && r.tags == st.tags
  {
    st.(loading := true)
  }

  lemma NormalizeNormalized(items: seq<Tag>)
    ensures Normalized(Normalize(items))
  {
  }

  /** Already normalised tags come back unchanged. */
  lemma NormalizeFixesNormalized(ts: seq<Tag>)
    requires Normalized(ts)
    ensures Normalize(ts) == ts
  {
    forall i | 0 <= i < |ts| ensures Trim(ts[i].name) == ts[i].name {
      TrimTrimmed(ts[i].name);
    }
  }

  /** Normalising twice is normalising once. */
  lemma NormalizeIdempotent(items: seq<Tag>)
    ensures Normalize(Normalize(items)) == Normalize(items)
  {
    NormalizeFixesNormalized(Normalize(items));
  }

  /** After any finished fetch starting from normalised tags, all names are trimmed and loading is over. */
  lemma FetchedKeepsNormalized(st: State, reply: Reply)
    requires Normalized(st.tags)
    ensures Normalized(Fetched(StartFetch(st), reply).tags)
    ensures !Fetched(StartFetch(st), reply).loading
  {
    if reply.TagArray? {
      NormalizeNormalized(reply.items);
    }
  }
}

=== FILE: task_card.dfy ===
/**
 * One task card: the due label ("heute fällig", "fällig in 3 Tagen", …),
 * the status badge, and the completion checkbox.
 */
module TaskCard {
  import opened Base
  import opened Tasks
  import opened Text

  /**
   * `differenceInCalendarDays(due, now)`: the number of day boundaries
   * between the two instants (calendar days in UTC), so that the due
   * instant lies on the calendar day `d` days after now's.
   */
  function CalendarDayDiff(due: int, now: int): (d: int)
    ensures due < now ==> d <= 0
    ensures due >= now ==> d >= 0
    ensures now <= due < now + DayMs ==> 0 <= d <= 1
    ensures (now / DayMs + d) * DayMs <= due < (now / DayMs + d + 1) * DayMs
  {
    due / DayMs - now / DayMs
  }

  const Today: string := "heute fällig"
  const Tomorrow: string := "morgen fällig"
  const Yesterday: string := "seit gestern fällig"
  const InPrefix: string := "fällig in "
  const InSuffix: string := " Tagen"
  const SincePrefix: string := "seit "
  const SinceSuffix: string := " Tagen fällig"

  /** The label for a calendar-day difference. */
  function DueLabel(diff: int): string {
    if diff == 0 then Today
    else if diff == 1 then Tomorrow
    else if diff > 1 then InPrefix + NatToString(diff) + InSuffix
    else if diff == -1 then Yesterday
    else SincePrefix + NatToString(-diff) + SinceSuffix
  }

  /** The label shown on a card; none without due date. */
  function CardLabel(t: Task, now: int): string {
    if t.dueDate.Some? then DueLabel(CalendarDayDiff(t.dueDate.value, now)) else ""
  }

  /** Reads a label back into the day difference it was made from. */
  function ParseDueLabel(s: string): Option<int> {
    if s == Today then Some(0)
    else if s == Tomorrow then Some(1)
    else if s == Yesterday then Some(-1)
    else if |s| > |InPrefix| + |InSuffix| && s[..|InPrefix|] == InPrefix && s[|s| - |InSuffix|..] == InSuffix then
      match ParseNat(s[|InPrefix|..|s| - |InSuffix|])
      case Some(n) => if n > 1 then Some(n) else None
      case None => None
    else if |s| > |SincePrefix| + |SinceSuffix| && s[..|SincePrefix|] == SincePrefix
            && s[|s| - |SinceSuffix|..] == SinceSuffix then
      match ParseNat(s[|SincePrefix|..|s| - |SinceSuffix|])
      case Some(n) => if n > 1 then Some(0 - n) else None
      case None => None
    else None
  }

  /** Cuts `p + m + q` back into its middle. */
  lemma Middle(p: string, m: string, q: string)
    ensures var s := p + m + q;
      && s[..|p|] == p && s[|s| - |q|..] == q && s[|p|..|s| - |q|] == m
  {
  }

  /** Every label names its day difference unambiguously: reading it back gives the difference. */
  lemma ParseDueLabelRoundTrip(diff: int)
    ensures ParseDueLabel(DueLabel(diff)) == Some(diff)
  {
    var s := DueLabel(diff);
    if diff > 1 {
      var m := NatToString(diff);
      Middle(InPrefix, m, InSuffix);
      ParseNatToString(diff);
      assert s[0] == 'f';
      assert s != Today && s != Tomorrow && s != Yesterday by {
        assert Today[0] == 'h' && Tomorrow[0] == 'm' && Yesterday[0] == 's';
      }
    } else if diff < -1 {
      var m := NatToString(-diff);
      Middle(SincePrefix, m, SinceSuffix);
      ParseNatToString(-diff);
      assert s[5] == m[0] && IsDigit(m[0]);
      assert s != Today && s != Tomorrow && s != Yesterday by {
        assert Today[0] == 'h' && Tomorrow[0] == 'm' && Yesterday[5] == 'g';
      }
      assert s[..|InPrefix|] != InPrefix by {
        assert s[0] == 's' && InPrefix[0] == 'f';
      }
    }
  }

  /** Different day differences never share a label. */
  lemma DueLabelInjective(d1: int, d2: int)
    requires DueLabel(d1) == DueLabel(d2)
    ensures d1 == d2
  {
    ParseDueLabelRoundTrip(d1);
    ParseDueLabelRoundTrip(d2);
  }

  // ---------------------------------------------------------------------
  // status badge

  datatype Badge = Done | Overdue | Open

  /**
   * "Erledigt" for a completed task; otherwise "Überfällig" when the due
   * instant lies before now; "Offen" otherwise, including a task whose due
   * date is "" or absent (`new Date` of either is invalid and compares false).
   */
  function StatusBadge(t: Task, now: int): (b: Badge)
    ensures b == Done <==> IsCompleted(t)
    ensures b == Overdue <==> IsOpen(t) && t.dueDate.Some? && t.dueDate.value < now
  {
    if IsCompleted(t) then Done
    else if t.dueDate.Some? && t.dueDate.value < now then Overdue
    else Open
  }

  /** An overdue badge always comes with a label counting today or days in the past, never future days. */
  lemma OverdueLabel(t: Task, now: int)
    requires StatusBadge(t, now) == Overdue
    ensures ParseDueLabel(CardLabel(t, now)).Some? && ParseDueLabel(CardLabel(t, now)).value <= 0
  {
    ParseDueLabelRoundTrip(CalendarDayDiff(t.dueDate.value, now));
  }

  // ---------------------------------------------------------------------
  // completion checkbox

  /** The task handed to `onUpdate`: completion flipped, stamped with `now` when it becomes completed. */
  function Toggle(t: Task, now: int): (r: Task)
    ensures IsCompleted(r) != IsCompleted(t)
    ensures IsCompleted(r) ==> r.completedAt == Some(now)
    ensures r.(completedAt := t.completedAt) == t
  {
    t.(completedAt := if IsCompleted(t) then None else Some(now))
  }

  /** Ticking and unticking an open task gives it back unchanged. */
  lemma ToggleTwiceOpen(t: Task, n1: int, n2: int)
    requires IsOpen(t)
    ensures Toggle(Toggle(t, n1), n2) == t
  {
  }

  /** Unticking and ticking a completed task keeps everything except the completion instant. */
  lemma ToggleTwiceCompleted(t: Task, n1: int, n2: int)
    requires IsCompleted(t)
    ensures Toggle(Toggle(t, n1), n2) == t.(completedAt := Some(n2))
  {
  }

  /** The badge after a toggle: "Erledigt" for a task that was open, otherwise by its due date. */
  lemma ToggleBadge(t: Task, now: int, later: int)
    ensures IsOpen(t) ==> StatusBadge(Toggle(t, now), later) == Done
    ensures IsCompleted(t) ==> StatusBadge(Toggle(t, now), later) != Done
  {
  }

  datatype CardEffect = OnUpdate(task: Task) | ToastError(text: string)

  const ToggleErrorText: string := "Fehler beim Aktualisieren des Task-Status"

  /** `handleToggleComplete`: hands the toggled task to `onUpdate`; toasts only when that rejects. */
  function HandleToggle(t: Task, now: int, onUpdateRejects: bool): (r: seq<CardEffect>)
    ensures |r| >= 1 && r[0].OnUpdate? && r[0].task == Toggle(t, now)
    ensures ToastError(ToggleErrorText) in r <==> onUpdateRejects
  {
    [OnUpdate(Toggle(t, now))] + (if onUpdateRejects then [ToastError(ToggleErrorText)] else [])
  }
}

=== FILE: task_dialog.dfy ===
/**
 * The task dialog for creating and editing a task: schema validation with one
 * message per field, the comma-separated tag list, the create and edit
 * payloads, what happens after saving, and how the form is (re)initialised.
 */
module TaskDialog {
  import opened Base
  import opened Tasks
  import opened Text
  import TaskView

  datatype Mode = Create | EditMode

  datatype Field = TitleField | DueDateField | CategoryField

  datatype Issue = Issue(field: Field, message: string)

  /** The per-field error texts under the inputs; `None` when the field has no error. */
  datatype Errors = Errors(title: Option<string>, dueDate: Option<string>, categoryId: Option<string>)

  const NoErrors: Errors := Errors(None, None, None)

  const TitleMessage: string := "Titel darf nicht leer sein"
  const DueDateMessage: string := "Fälligkeitsdatum ist erforderlich"
  const CategoryMessage: string := "Kategorie ist erforderlich"
  const FallbackMessage: string := "Fehlerhafte Eingabe"
  const SaveFailedMessage: string := "Speichern fehlgeschlagen. Bitte versuche es erneut."

  /** The dialog's fields; a picked due date is an instant in milliseconds. */
  datatype Form = Form(
    title: string,
    description: string,
    dueDate: Option<int>,
    categoryId: string,
    tagsStr: string,
    completed: bool,
    errors: Errors)

  const Blank: Form := Form("", "", None, "", "", false, NoErrors)

  // ---------------------------------------------------------------------
  // validation

  /** The field a message belongs to, in schema order. */
  function FieldRank(f: Field): nat {
    match f
    case TitleField => 0
    case DueDateField => 1
    case CategoryField => 2
  }

  /** The schema's one message for each field. */
  function FieldMessage(f: Field): string {
    match f
    case TitleField => TitleMessage
    case DueDateField => DueDateMessage
    case CategoryField => CategoryMessage
  }

  /**
   * `TaskSchema.safeParse` on the form: the issues, one per failing field, in
   * the schema's field order.
   */
  function Issues(f: Form): (r: seq<Issue>)
    ensures Issue(TitleField, TitleMessage) in r <==> Trim(f.title) == ""
    ensures Issue(DueDateField, DueDateMessage) in r <==> f.dueDate.None?
    ensures Issue(CategoryField, CategoryMessage) in r <==> f.categoryId == ""
    ensures r == [] <==> Trim(f.title) != "" && f.dueDate.Some? && f.categoryId != ""
    ensures forall i, j :: 0 <= i < j < |r| ==> FieldRank(r[i].field) < FieldRank(r[j].field)
    ensures forall i :: 0 <= i < |r| ==> r[i].message == FieldMessage(r[i].field)
  {
    var t := if Trim(f.title) == "" then [Issue(TitleField, TitleMessage)] else [];
    var d := if f.dueDate.None? then [Issue(DueDateField, DueDateMessage)] else [];
    var c := if f.categoryId == "" then [Issue(CategoryField, CategoryMessage)] else [];
    SchemaOrder(t, d, c, FieldMessage);
    SchemaMembers(t, d, c);
    t + d + c
  }

  /** At most one issue per field, in the schema's field order: where each position of the concatenation comes from. */
  lemma SchemaPositions(t: seq<Issue>, d: seq<Issue>, c: seq<Issue>)
    requires |t| <= 1 && |d| <= 1 && |c| <= 1
    requires t != [] ==> t[0].field == TitleField
    requires d != [] ==> d[0].field == DueDateField
    requires c != [] ==> c[0].field == CategoryField
    ensures forall i :: 0 <= i < |t + d + c| ==>
      || (i < |t| && (t + d + c)[i] == t[i] && FieldRank((t + d + c)[i].field) == 0)
      || (|t| <= i < |t| + |d| && (t + d + c)[i] == d[i - |t|] && FieldRank((t + d + c)[i].field) == 1)
      || (|t| + |d| <= i && (t + d + c)[i] == c[i - |t| - |d|] && FieldRank((t + d + c)[i].field) == 2)
  {
  }

  /** The concatenation is ordered by field and, when each part carries its field's message under `msg`, so does every issue. */
  lemma SchemaOrder(t: seq<Issue>, d: seq<Issue>, c: seq<Issue>, msg: Field -> string)
    requires |t| <= 1 && |d| <= 1 && |c| <= 1
    requires t != [] ==> t[0].field == TitleField && t[0].message == msg(TitleField)
    requires d != [] ==> d[0].field == DueDateField && d[0].message == msg(DueDateField)
    requires c != [] ==> c[0].field == CategoryField && c[0].message == msg(CategoryField)
    ensures forall i :: 0 <= i < |t + d + c| ==> (t + d + c)[i].message == msg((t + d + c)[i].field)
    ensures forall i, j :: 0 <= i < j < |t + d + c| ==> FieldRank((t + d + c)[i].field) < FieldRank((t + d + c)[j].field)
  {
    SchemaPositions(t, d, c);
  }

  /** An issue about a field in the concatenation comes from that field's part. */
  lemma SchemaMembers(t: seq<Issue>, d: seq<Issue>, c: seq<Issue>)
    requires |t| <= 1 && |d| <= 1 && |c| <= 1
    requires t != [] ==> t[0].field == TitleField
    requires d != [] ==> d[0].field == DueDateField
    requires c != [] ==> c[0].field == CategoryField
    ensures forall x :: x in t + d + c && x.field == TitleField ==> x in t
    ensures forall x :: x in t + d + c && x.field == DueDateField ==> x in d
    ensures forall x :: x in t + d + c && x.field == CategoryField ==> x in c
  {
    SchemaPositions(t, d, c);
  }

  function MessageFor(issues: seq<Issue>, field: Field): Option<string> {
    if issues == [] then None
    else if issues[0].field == field then Some(issues[0].message)
    else MessageFor(issues[1..], field)
  }

  /**
   * When every issue carries its field's message, a field shows its message
   * exactly when an issue about it is present.
   */
  lemma {:induction false} MessageForFixed(issues: seq<Issue>, field: Field)
    requires forall i :: 0 <= i < |issues| ==> issues[i].message == FieldMessage(issues[i].field)
    ensures MessageFor(issues, field) == (if Issue(field, FieldMessage(field)) in issues then Some(FieldMessage(field)) else None)
  {
    if issues != [] {
      var tail := issues[1..];
      forall i | 0 <= i < |tail| ensures tail[i].message == FieldMessage(tail[i].field) {
        assert tail[i] == issues[i + 1];
      }
      MessageForFixed(tail, field);
      assert issues == [issues[0]] + tail;
    }
  }

  /** The error record built from the issues: each field shows its own message. */
  function ErrorsOf(issues: seq<Issue>): Errors {
    Errors(MessageFor(issues, TitleField), MessageFor(issues, DueDateField), MessageFor(issues, CategoryField))
  }

  /** Each field of the form shows an error exactly when it fails, and then its own message. */
  lemma ErrorsOfIssues(f: Form)
    ensures ErrorsOf(Issues(f)).title == (if Trim(f.title) == "" then Some(TitleMessage) else None)
    ensures ErrorsOf(Issues(f)).dueDate == (if f.dueDate.None? then Some(DueDateMessage) else None)
    ensures ErrorsOf(Issues(f)).categoryId == (if f.categoryId == "" then Some(CategoryMessage) else None)
  {
    var r := Issues(f);
    MessageForFixed(r, TitleField);
    MessageForFixed(r, DueDateField);
    MessageForFixed(r, CategoryField);
  }

  /** The toast after a failed validation: the first issue's message, or the fallback when there is none. */
  function FirstMessage(issues: seq<Issue>): (m: string)
    ensures issues != [] && issues[0].message != "" ==> m == issues[0].message
    ensures issues == [] || issues[0].message == "" ==> m == FallbackMessage
  {
    if issues != [] && issues[0].message != "" then issues[0].message
    else FallbackMessage
  }

  // ---------------------------------------------------------------------
  // tags

  /** `tagsStr ? tagsStr.split(",").map(t => t.trim()).filter(Boolean) : undefined`. */
  function ParseTagList(s: string): (r: Option<seq<string>>)
    ensures r.None? <==> s == ""
    ensures r.Some? ==> forall i :: 0 <= i < |r.value| ==> r.value[i] != "" && IsTrimmed(r.value[i]) && ',' !in r.value[i]
  {
    if s == "" then None
    else
      Some(Filter(CommaPieces(s), NonEmpty))
  }

  /** Names a tag list can carry through the edit field unchanged. */
  predicate CleanNames(names: seq<string>) {
    forall i :: 0 <= i < |names| ==> names[i] != "" && IsTrimmed(names[i]) && ',' !in names[i]
  }

  /** The tag field in edit mode: the names joined by ", " (`|| ''` for no tags). */
  function TagsString(tags: Option<seq<TagRef>>): string {
    match tags
    case None => ""
    case Some(ts) => Join(Names(ts), ", ")
  }

  function Names(ts: seq<TagRef>): seq<string> {
    seq(|ts|, i requires 0 <= i < |ts| => ts[i].name)
  }

  /** Parsing the ", "-joined names of clean tags gives the names back; no tags give no list. */
  lemma ParseTagListRoundTrip(names: seq<string>)
    requires CleanNames(names)
    ensures names != [] ==> ParseTagList(Join(names, ", ")) == Some(names)
    ensures names == [] ==> ParseTagList(Join(names, ", ")) == None
  {
    if names != [] {
      JoinStartsWithFirst(names, ", ");
      SplitJoinComma(names);
      TrimAllPadded(names);
      FilterAll(names, NonEmpty);
    }
  }

  // ---------------------------------------------------------------------
  // payloads and save

  datatype CreateData = CreateData(
    title: string,
    dueDate: int,
    description: Option<string>,
    categoryId: Option<int>,
    completedAt: Option<int>,
    tags: Option<seq<string>>)

  datatype EditData = EditData(
    id: int,
    title: string,
    dueDate: Option<int>,
    description: Option<string>,
    categoryId: Option<int>,
    tags: Option<seq<string>>,
    completedAt: Option<int>)

  /** `description || undefined`. */
  function OptionalText(s: string): Option<string> {
    if s == "" then None else Some(s)
  }

  /** The create body; `completedAt` is stamped `now` when the box is ticked. `categoryId` is `Number(...)`, `None` for NaN. */
  function CreatePayload(f: Form, now: int): (d: CreateData)
    requires f.dueDate.Some?
    ensures d.title == Trim(f.title) && IsTrimmed(d.title)
    ensures d.dueDate == f.dueDate.value
    ensures d.completedAt.None? <==> !f.completed
    ensures d.tags == ParseTagList(f.tagsStr)
  {
    CreateData(Trim(f.title), f.dueDate.value, OptionalText(f.description), JsNumber(f.categoryId),
      if f.completed then Some(now) else None, ParseTagList(f.tagsStr))
  }

  /** The edit body: a ticked box keeps the task's own completion instant, if it has one. */
  function EditPayload(task: Task, f: Form, now: int): (d: EditData)
    ensures d.id == task.id && d.title == Trim(f.title)
    ensures !f.completed ==> d.completedAt.None?
    ensures f.completed && task.completedAt.Some? ==> d.completedAt == task.completedAt
    ensures f.completed && task.completedAt.None? ==> d.completedAt == Some(now)
    ensures d.tags == ParseTagList(f.tagsStr)
  {
    EditData(task.id, Trim(f.title), f.dueDate, OptionalText(f.description), JsNumber(f.categoryId),
      ParseTagList(f.tagsStr),
      if f.completed then (if task.completedAt.Some? then task.completedAt else Some(now)) else None)
  }

  datatype Effect =
    | ToastError(text: string)
    | CreateCall(create: CreateData)
    | UpdateCall(edit: EditData)
    | InvalidateAll
    | Close

  predicate IsCall(e: Effect) {
    e.CreateCall? || e.UpdateCall?
  }

  /** The create or edit request; none in edit mode without a task. */
  function Request(mode: Mode, task: Option<Task>, f: Form, now: int): (r: Option<Effect>)
    requires f.dueDate.Some?
    ensures r.Some? <==> mode.Create? || task.Some?
    ensures r.Some? ==> IsCall(r.value)
  {
    if mode.Create? then Some(CreateCall(CreatePayload(f, now)))
    else if task.Some? then Some(UpdateCall(EditPayload(task.value, f, now)))
    else None
  }

  /** What follows the request: invalidate and close after success, the failure toast otherwise. */
  function AfterRequest(reply: TaskView.Reply): (r: seq<Effect>)
    ensures Close in r <==> reply.Ok?
    ensures InvalidateAll in r <==> reply.Ok?
    ensures forall i :: 0 <= i < |r| ==> !IsCall(r[i])
  {
    if reply.Ok? then [InvalidateAll, Close] else [ToastError(SaveFailedMessage)]
  }

  /** The request made after a passing validation, then success or failure handling. */
  function Submit(mode: Mode, task: Option<Task>, f: Form, now: int, reply: TaskView.Reply): (r: seq<Effect>)
    requires f.dueDate.Some?
    ensures |r| >= 1
    ensures IsCall(r[0]) <==> mode.Create? || task.Some?
    ensures forall i :: 1 <= i < |r| ==> !IsCall(r[i])
    ensures Close in r <==> (mode.Create? || task.Some?) && reply.Ok?
    ensures InvalidateAll in r <==> Close in r
  {
    match Request(mode, task, f, now)
    case None => [ToastError(SaveFailedMessage)]
    case Some(call) =>
      var rest := AfterRequest(reply);
      assert call != Close && call != InvalidateAll;
      assert forall e :: e in [call] + rest <==> e == call || e in rest;
      [call] + rest
  }

  /**
   * `handleSave`: on invalid input set the field errors and toast the first
   * message, with no request; otherwise clear the errors and submit. In edit
   * mode without a task the request cannot be built and the failure toast
   * shows.
   */
  function HandleSave(mode: Mode, task: Option<Task>, f: Form, now: int, reply: TaskView.Reply): (r: (Form, seq<Effect>))
    ensures var issues := Issues(f);
      issues != [] ==> r == (f.(errors := ErrorsOf(issues)), [ToastError(issues[0].message)])
    ensures Issues(f) == [] ==> r.0 == f.(errors := NoErrors) && r.1 == Submit(mode, task, f, now, reply)
  {
    var issues := Issues(f);
    if issues != [] then
      assert issues[0].message == FieldMessage(issues[0].field);
      (f.(errors := ErrorsOf(issues)), [ToastError(FirstMessage(issues))])
    else
      (f.(errors := NoErrors), Submit(mode, task, f, now, reply))
  }

  /** No request, invalidation or close happens unless the form is valid; all three happen after a successful request. */
  lemma SaveOnlyWhenValid(mode: Mode, task: Option<Task>, f: Form, now: int, reply: TaskView.Reply)
    ensures var r := HandleSave(mode, task, f, now, reply).1;
      && (IsCall(r[0]) <==> Issues(f) == [] && (mode.Create? || task.Some?))
      && (forall i :: 1 <= i < |r| ==> !IsCall(r[i]))
      && (Close in r <==> Issues(f) == [] && (mode.Create? || task.Some?) && reply.Ok?)
      && (InvalidateAll in r <==> Close in r)
  {
  }

  // ---------------------------------------------------------------------
  // initialisation and delete

  /**
   * The effect on `[mode, task]`: in edit mode with a task the fields take the
   * task's values (errors stay as they were); otherwise everything resets.
   */
  function Init(mode: Mode, task: Option<Task>, prev: Form): (r: Form)
    ensures !(mode.EditMode? && task.Some?) ==> r == Blank
    ensures mode.EditMode? && task.Some? ==> r.errors == prev.errors && r.completed == task.value.completedAt.Some?
  {
    if mode.EditMode? && task.Some? then
      var t := task.value;
      prev.(title := t.title,
            description := if t.description.Some? then t.description.value else "",
            dueDate := t.dueDate,
            categoryId := IntToString(t.categoryId),
            tagsStr := TagsString(t.tags),
            completed := t.completedAt.Some?)
    else Blank
  }

  /**
   * Opening a clean task for editing and saving it unchanged sends the task's
   * own values back: the same title, due date, description, category,
   * completion instant and tag names.
   */
  lemma EditUnchangedRoundTrip(t: Task, prev: Form, now: int, reply: TaskView.Reply)
    requires t.title != "" && IsTrimmed(t.title) && t.dueDate.Some?
    requires t.description != Some("")
    requires t.tags.Some? ==> CleanNames(Names(t.tags.value))
    ensures var f := Init(EditMode, Some(t), prev);
      var r := HandleSave(EditMode, Some(t), f, now, reply);
      && r.1[0] == UpdateCall(EditData(t.id, t.title, t.dueDate, t.description, Some(t.categoryId),
           if t.tags.Some? && t.tags.value != [] then Some(Names(t.tags.value)) else None,
           t.completedAt))
  {
    var f := Init(EditMode, Some(t), prev);
    var tags := if t.tags.Some? && t.tags.value != [] then Some(Names(t.tags.value)) else None;
    EditFormReadsBack(t, prev);
    SubmitEdit(t, f, now, reply);
    var d := EditData(t.id, t.title, t.dueDate, t.description, Some(t.categoryId), tags, t.completedAt);
    assert EditPayload(t, f, now) == d;
  }

  /** A passing edit submits the update built from the form first. */
  lemma SubmitEdit(t: Task, f: Form, now: int, reply: TaskView.Reply)
    requires f.dueDate.Some?
    ensures Submit(EditMode, Some(t), f, now, reply)[0] == UpdateCall(EditPayload(t, f, now))
  {
  }

  /** The edit form of a clean task reads back as the task's own title, category, description and tag names. */
  lemma EditFormReadsBack(t: Task, prev: Form)
    requires t.title != "" && IsTrimmed(t.title) && t.dueDate.Some?
    requires t.description != Some("")
    requires t.tags.Some? ==> CleanNames(Names(t.tags.value))
    ensures var f := Init(EditMode, Some(t), prev);
      && ParseTagList(f.tagsStr) == (if t.tags.Some? && t.tags.value != [] then Some(Names(t.tags.value)) else None)
      && Trim(f.title) == t.title
      && JsNumber(f.categoryId) == Some(t.categoryId)
      && OptionalText(f.description) == t.description
      && f.dueDate == t.dueDate
      && Issues(f) == []
  {
    var f := Init(EditMode, Some(t), prev);
    if t.tags.Some? {
      ParseTagListRoundTrip(Names(t.tags.value));
    }
    TrimTrimmed(t.title);
    ParseIntToString(t.categoryId);
  }

  datatype DeleteEffect = OnDelete(id: int) | InvalidateAfterDelete | CloseAfterDelete

  /**
   * `handleDelete`: acts only in edit mode with a task and a delete handler;
   * the handler hears the id, every list reloads, then the dialog closes.
   */
  function HandleDelete(mode: Mode, task: Option<Task>, hasOnDelete: bool): (r: seq<DeleteEffect>)
    ensures r != [] <==> mode.EditMode? && task.Some? && hasOnDelete
    ensures r != [] ==> r == [OnDelete(task.value.id), InvalidateAfterDelete, CloseAfterDelete]
  {
    if mode.EditMode? && task.Some? && hasOnDelete then
      [OnDelete(task.value.id), InvalidateAfterDelete, CloseAfterDelete]
    else []
  }
}

=== FILE: task_order.dfy ===
/**
 * The display order of a task list: open tasks first, then completed ones;
 * inside each group dated tasks by ascending due instant, with the undated
 * ones after them (the newer client) or before them (the earlier one).
 * `Compare` is the comparator passed to `Array.prototype.sort`; `Sort` is
 * the (stable) sort it drives.
 */
module TaskOrder {
  import opened Base
  import opened Tasks

  /** Where the undated tasks of a completion group go: after the dated ones, or before them. */
  datatype Undated = UndatedLast | UndatedFirst

  /** The comparator: negative when `a` goes first, positive when `b` does. */
  function Compare(u: Undated, a: Task, b: Task): int {
    var ac := IsCompleted(a);
    var bc := IsCompleted(b);
    if ac != bc then (if ac then 1 else -1)
    else if a.dueDate.None? || b.dueDate.None? then
      var datedFirst := if a.dueDate.Some? then -1 else if b.dueDate.Some? then 1 else 0;
      if u == UndatedLast then datedFirst else -datedFirst
    else a.dueDate.value - b.dueDate.value
  }

  /**
   * The lexicographic key the comparator orders by: (completed, placed after
   * the other kind, due instant), where the undated tasks are the ones placed
   * after under `UndatedLast` and the dated ones under `UndatedFirst`.
   */
  function Rank(u: Undated, t: Task): (int, int, int) {
    (if IsCompleted(t) then 1 else 0,
     if t.dueDate.None? == (u == UndatedLast) then 1 else 0,
     if t.dueDate.Some? then t.dueDate.value else 0)
  }

  predicate RankLe(x: (int, int, int), y: (int, int, int)) {
    x.0 < y.0 || (x.0 == y.0 && (x.1 < y.1 || (x.1 == y.1 && x.2 <= y.2)))
  }

  /** `a` may precede `b`. */
  predicate Le(u: Undated, a: Task, b: Task) {
    Compare(u, a, b) <= 0
  }

  /** The comparator is the lexicographic order on `Rank`, in both directions. */
  lemma CompareIsRankOrder(u: Undated, a: Task, b: Task)
    ensures Compare(u, a, b) <= 0 <==> RankLe(Rank(u, a), Rank(u, b))
    ensures Compare(u, a, b) == 0 <==> Rank(u, a) == Rank(u, b)
  {
  }

  /** Antisymmetry: swapping the arguments flips the sign. */
  lemma CompareAntisymmetric(u: Undated, a: Task, b: Task)
    ensures Compare(u, a, b) < 0 <==> Compare(u, b, a) > 0
    ensures Compare(u, a, b) == 0 <==> Compare(u, b, a) == 0
  {
  }

  /** `Le` is a total preorder: total and transitive. */
  lemma LeTotal(u: Undated, a: Task, b: Task)
    ensures Le(u, a, b) || Le(u, b, a)
  {
  }

  lemma LeTransitive(u: Undated, a: Task, b: Task, c: Task)
    requires Le(u, a, b) && Le(u, b, c)
    ensures Le(u, a, c)
  {
    CompareIsRankOrder(u, a, b);
    CompareIsRankOrder(u, b, c);
    CompareIsRankOrder(u, a, c);
  }

  predicate Sorted(u: Undated, s: seq<Task>) {
    forall i, j :: 0 <= i < j < |s| ==> Le(u, s[i], s[j])
  }

  /** Inserts `x` before the first element it may precede. */
  function Insert(u: Undated, x: Task, s: seq<Task>): (r: seq<Task>)
    ensures multiset(r) == multiset(s) + multiset{x}
  {
    if s == [] then [x]
    else if Le(u, x, s[0]) then [x] + s
    else
      assert s == [s[0]] + s[1..];
      [s[0]] + Insert(u, x, s[1..])
  }

  lemma SortedTail(u: Undated, s: seq<Task>)
    requires Sorted(u, s) && s != []
    ensures Sorted(u, s[1..])
  {
    var t := s[1..];
    forall i, j | 0 <= i < j < |t| ensures Le(u, t[i], t[j]) {
      assert t[i] == s[i + 1] && t[j] == s[j + 1];
    }
  }

  /** A head that may precede every element of a sorted list keeps it sorted. */
  lemma SortedCons(u: Undated, h: Task, s: seq<Task>)
    requires Sorted(u, s) && forall j :: 0 <= j < |s| ==> Le(u, h, s[j])
    ensures Sorted(u, [h] + s)
  {
    var r := [h] + s;
    forall i, j | 0 <= i < j < |r| ensures Le(u, r[i], r[j]) {
      assert r[j] == s[j - 1];
      if i > 0 { assert r[i] == s[i - 1]; }
    }
  }

  /** Every element of an insertion is the inserted task or one of the list's. */
  lemma InsertFrom(u: Undated, x: Task, s: seq<Task>, y: Task)
    requires y in Insert(u, x, s)
    ensures y == x || y in s
  {
    assert y in multiset(Insert(u, x, s));
  }

  /** Inserting into a sorted list keeps it sorted. */
  lemma {:induction false} InsertSorted(u: Undated, x: Task, s: seq<Task>)
    requires Sorted(u, s)
    ensures Sorted(u, Insert(u, x, s))
  {
    if s != [] {
      if Le(u, x, s[0]) {
        forall j | 0 <= j < |s| ensures Le(u, x, s[j]) {
          if j > 0 { LeTransitive(u, x, s[0], s[j]); }
        }
        SortedCons(u, x, s);
      } else {
        SortedTail(u, s);
        InsertSorted(u, x, s[1..]);
        InsertSortedStep(u, x, s);
      }
    }
  }

  /** The step of the induction above: the head stays in front of the sorted insertion into the tail. */
  lemma InsertSortedStep(u: Undated, x: Task, s: seq<Task>)
    requires Sorted(u, s) && s != [] && !Le(u, x, s[0])
    requires Sorted(u, Insert(u, x, s[1..]))
    ensures Sorted(u, Insert(u, x, s))
  {
    LeTotal(u, x, s[0]);
    var tail := s[1..];
    var rest := Insert(u, x, tail);
    forall j | 0 <= j < |rest| ensures Le(u, s[0], rest[j]) {
      InsertFrom(u, x, tail, rest[j]);
      if rest[j] != x {
        var k :| 0 <= k < |tail| && tail[k] == rest[j];
        assert s[k + 1] == rest[j];
      }
    }
    SortedCons(u, s[0], rest);
  }

  /** Insertion sort with `Compare`; equal elements keep their relative order. */
  function Sort(u: Undated, s: seq<Task>): (r: seq<Task>)
    ensures multiset(r) == multiset(s)
    ensures Sorted(u, r)
  {
    if s == [] then []
    else
      assert s == [s[0]] + s[1..];
      var rest := Sort(u, s[1..]);
      InsertSorted(u, s[0], rest);
      Insert(u, s[0], rest)
  }

  /**
   * What a sorted list shows: no completed task before an open one; inside a
   * completion group the undated tasks on their side of the dated ones, and
   * dated tasks in non-decreasing order of due instant.
   */
  lemma SortedGroups(u: Undated, s: seq<Task>, i: int, j: int)
    requires Sorted(u, s) && 0 <= i < j < |s|
    ensures IsCompleted(s[i]) ==> IsCompleted(s[j])
    ensures IsCompleted(s[i]) == IsCompleted(s[j]) && u == UndatedLast && s[i].dueDate.None? ==> s[j].dueDate.None?
    ensures IsCompleted(s[i]) == IsCompleted(s[j]) && u == UndatedFirst && s[j].dueDate.None? ==> s[i].dueDate.None?
    ensures (IsCompleted(s[i]) == IsCompleted(s[j]) && s[i].dueDate.Some? && s[j].dueDate.Some?)
              ==> s[i].dueDate.value <= s[j].dueDate.value
  {
    assert Le(u, s[i], s[j]);
  }

  /** The sorted list holds the same tasks, the same number of times each. */
  lemma SortIsPermutation(u: Undated, s: seq<Task>)
    ensures |Sort(u, s)| == |s|
    ensures forall t :: t in s <==> t in Sort(u, s)
  {
    var r := Sort(u, s);
    assert |multiset(r)| == |multiset(s)|;
    forall t ensures t in s <==> t in r {
      assert t in s <==> t in multiset(s);
      assert t in r <==> t in multiset(r);
    }
  }

  /** The tasks the comparator ties with `t`: the ones `Sort` may not reorder among themselves. */
  function TiedWith(u: Undated, t: Task): Task -> bool {
    x => Compare(u, x, t) == 0
  }

  /**
   * Insertion passes over only tasks that go strictly before `x`, so among the
   * tasks tied with `t` the inserted one comes first when it is one of them.
   */
  lemma {:induction false} InsertKeepsTies(u: Undated, x: Task, s: seq<Task>, t: Task)
    ensures Filter(Insert(u, x, s), TiedWith(u, t))
         == (if TiedWith(u, t)(x) then [x] else []) + Filter(s, TiedWith(u, t))
  {
    var p := TiedWith(u, t);
    if s != [] && !Le(u, x, s[0]) {
      InsertKeepsTies(u, x, s[1..], t);
      var rest := Insert(u, x, s[1..]);
      assert Insert(u, x, s) == [s[0]] + rest;
      assert ([s[0]] + rest)[1..] == rest;
      PassedOverNotTied(u, x, s[0], t);
    }
  }

  /** A task that insertion passes over goes strictly before `x`, so it cannot tie with what `x` ties with. */
  lemma PassedOverNotTied(u: Undated, x: Task, y: Task, t: Task)
    requires !Le(u, x, y)
    ensures TiedWith(u, t)(x) ==> !TiedWith(u, t)(y)
  {
    CompareIsRankOrder(u, x, t);
    CompareIsRankOrder(u, y, t);
    CompareIsRankOrder(u, x, y);
  }

  /**
   * Stability: the tasks tied with any `t` come out of the sort in the order
   * they went in, as `Array.prototype.sort` guarantees since ECMAScript 2019.
   */
  lemma {:induction false} SortStable(u: Undated, s: seq<Task>, t: Task)
    ensures Filter(Sort(u, s), TiedWith(u, t)) == Filter(s, TiedWith(u, t))
  {
    if s != [] {
      SortStable(u, s[1..], t);
      InsertKeepsTies(u, s[0], Sort(u, s[1..]), t);
    }
  }

  /** Stability for every tie class at once. */
  lemma SortStableAll(u: Undated, s: seq<Task>)
    ensures forall t :: Filter(Sort(u, s), TiedWith(u, t)) == Filter(s, TiedWith(u, t))
  {
    forall t ensures Filter(Sort(u, s), TiedWith(u, t)) == Filter(s, TiedWith(u, t)) {
      SortStable(u, s, t);
    }
  }
}

=== FILE: task_view.dfy ===
/**
 * The task list hook: what a mounted list shows (tasks, loading flag, error
 * text), how one load moves it, how an invalidation reloads every subscribed
 * list, and what the mutations the hook offers do.
 */
module TaskView {
  import opened Base
  import opened Tasks
  import opened SearchParams
  import QueryBus

  datatype ViewState = ViewState(tasks: seq<Task>, loading: bool, error: Option<string>)

  /** What the `GET` of the task list resolves to: the array, or a thrown error with its message. */
  datatype FetchReply = Fetched(data: seq<Task>) | FetchFailed(message: string)

  /** What a mutating request resolves to. */
  datatype Reply = Ok | Failed(message: string)

  const Initial: ViewState := ViewState([], false, None)
  const LoadErrorFallback: string := "Fehler beim Laden der Aufgaben"

  /** The request URL: the query string appended after "?" when non-empty. */
  function LoadUrlFor(todos: string, qs: string): string {
    if qs == "" then todos else todos + "?" + qs
  }

  function LoadUrl(todos: string, ps: Params): string {
    LoadUrlFor(todos, ToQueryString(ps))
  }

  /** Splits a URL at its first "?" into the path and the query string. */
  function SplitAtQuery(url: string): (r: (string, string))
    ensures r.0 + (if r.1 == "" && '?' !in url then "" else "?" + r.1) == url
  {
    if url == [] then ("", "")
    else if url[0] == '?' then ("", url[1..])
    else
      var rest := SplitAtQuery(url[1..]);
      assert url == [url[0]] + url[1..];
      ([url[0]] + rest.0, rest.1)
  }

  lemma {:induction false} SplitAfterPath(path: string, q: string)
    requires '?' !in path
    ensures SplitAtQuery(path + "?" + q) == (path, q)
    ensures '?' !in path ==> SplitAtQuery(path) == (path, "")
  {
    if path != [] {
      assert (path + "?" + q)[1..] == path[1..] + "?" + q;
      SplitAfterPath(path[1..], q);
      assert [path[0]] + path[1..] == path;
    }
  }

  /**
   * The URL of a load carries the list parameters and nothing else: split at
   * the first "?", it gives back the endpoint and the parameters' query
   * string, and it has a "?" exactly when there are parameters.
   */
  lemma LoadUrlRoundTrip(todos: string, ps: Params)
    requires '?' !in todos
    ensures SplitAtQuery(LoadUrl(todos, ps)) == (todos, ToQueryString(ps))
    ensures ('?' in LoadUrl(todos, ps)) <==> ps != []
  {
    SplitAfterPath(todos, ToQueryString(ps));
    assert LoadUrl(todos, ps) == todos + "?" + ToQueryString(ps) ==> LoadUrl(todos, ps)[|todos|] == '?';
  }

  /** Start of `load`: loading on, error cleared, the previous tasks still shown. */
  function BeginLoad(st: ViewState): (r: ViewState)
    ensures r.loading && r.error.None? && r.tasks == st.tasks
  {
    st.(loading := true, error := None)
  }

  /** End of `load`: the filtered data or the error, and loading off in every case. */
  function FinishLoad(showDone: bool, reply: FetchReply): (r: ViewState)
    ensures !r.loading
    ensures reply.Fetched? ==>
      && r.error.None?
      && IsSubsequence(r.tasks, reply.data)
      && (showDone ==> r.tasks == reply.data)
      && (!showDone ==> (forall i :: 0 <= i < |r.tasks| ==> IsOpen(r.tasks[i]))
                        && |r.tasks| == CountOpen(reply.data))
    ensures reply.FetchFailed? ==>
      && r.tasks == []
      && r.error.Some? && r.error.value != ""
      && (reply.message != "" ==> r.error.value == reply.message)
  {
    match reply
    case Fetched(data) =>
      var shown := if showDone then data else Filter(data, IsOpen);
      FilterIsSubsequence(data, IsOpen);
      SubsequenceRefl(data);
      ViewState(shown, false, None)
    case FetchFailed(msg) =>
      ViewState([], false, Some(if msg != "" then msg else LoadErrorFallback))
  }

  /** One complete `load`. */
  function Load(st: ViewState, showDone: bool, reply: FetchReply): ViewState {
    var _ := BeginLoad(st);
    FinishLoad(showDone, reply)
  }

  /** Without completed tasks the list keeps every open task of the reply, in the reply's order. */
  lemma LoadHidesOnlyCompleted(st: ViewState, data: seq<Task>, i: int)
    requires 0 <= i < |data| && IsOpen(data[i])
    ensures data[i] in Load(st, false, Fetched(data)).tasks
  {
  }

  /** A reload's outcome depends on the reply alone, not on what the list showed before. */
  lemma LoadForgetsState(st1: ViewState, st2: ViewState, showDone: bool, reply: FetchReply)
    ensures Load(st1, showDone, reply) == Load(st2, showDone, reply)
    ensures Load(Load(st1, showDone, reply), showDone, reply) == Load(st1, showDone, reply)
  {
  }

  // ---------------------------------------------------------------------
  // invalidation

  /** A mounted list: its parameters, whether completed tasks are shown, and its state. */
  datatype View = View(params: Params, showDone: bool, state: ViewState)

  function Reloaded(v: View, reply: FetchReply): View {
    v.(state := Load(v.state, v.showDone, reply))
  }

  /**
   * `invalidateAll()` with the subscribed lists `subs`: each of them loads
   * once (with its own reply), every other list is untouched.
   */
  method Invalidate<V>(views: map<V, View>, subs: set<V>, replies: map<V, FetchReply>)
    returns (r: map<V, View>, order: seq<V>)
    requires subs <= views.Keys && subs <= replies.Keys
    ensures multiset(order) == multiset(subs)
    ensures r.Keys == views.Keys
    ensures forall v :: v in subs ==> r[v] == Reloaded(views[v], replies[v])
    ensures forall v :: v in views && v !in subs ==> r[v] == views[v]
  {
    order := QueryBus.InvalidateAll(subs);
    r := views;
    ghost var done: set<V> := {};
    var i := 0;
    while i < |order|
      invariant 0 <= i <= |order|
      invariant r.Keys == views.Keys
      invariant done <= subs
      invariant forall j :: 0 <= j < i ==> order[j] in done
      invariant forall v :: v in done ==> r[v] == Reloaded(views[v], replies[v])
      invariant forall v :: v in views && v !in done ==> r[v] == views[v]
    {
      var v := order[i];
      assert v in multiset(order);
      r := r[v := Reloaded(views[v], replies[v])];
      done := done + {v};
      i := i + 1;
    }
    forall v | v in subs ensures v in done {
      assert v in multiset(order);
      var j :| 0 <= j < |order| && order[j] == v;
    }
  }

  // ---------------------------------------------------------------------
  // mutations

  datatype HookEffect = PatchTask(task: Task) | DeleteTask(id: int) | InvalidateAll

  /** Effects issued, and whether the returned promise resolves (`true`) or rejects. */
  datatype Outcome = Outcome(effects: seq<HookEffect>, resolved: bool)

  /** `updateTask(task)`: PATCH the task, and only after it succeeded invalidate every list. */
  function UpdateTask(task: Task, reply: Reply): (r: Outcome)
    ensures |r.effects| >= 1 && r.effects[0] == PatchTask(task)
    ensures r.resolved <==> reply.Ok?
    ensures InvalidateAll in r.effects <==> reply.Ok?
  {
    if reply.Ok? then Outcome([PatchTask(task), InvalidateAll], true)
    else Outcome([PatchTask(task)], false)
  }

  /** `deleteTask(id)`: DELETE, then invalidate on success only. */
  function DeleteTaskOp(id: int, reply: Reply): (r: Outcome)
    ensures |r.effects| >= 1 && r.effects[0] == DeleteTask(id)
    ensures r.resolved <==> reply.Ok?
    ensures InvalidateAll in r.effects <==> reply.Ok?
  {
    if reply.Ok? then Outcome([DeleteTask(id), InvalidateAll], true)
    else Outcome([DeleteTask(id)], false)
  }
}

=== FILE: tasks.dfy ===
/**
 * The task record the server returns (`TodoApiResponse`), with instants as
 * integer milliseconds and the optional fields as `Option`.
 */
module Tasks {
  import opened Base

  /** A tag reference inside a task. */
  datatype TagRef = TagRef(id: int, name: string)

  datatype Task = Task(
    id: int,
    userId: int,
    title: string,
    description: Option<string>,
    dueDate: Option<int>,
    categoryId: int,
    completedAt: Option<int>,
    createdAt: int,
    updatedAt: int,
    tags: Option<seq<TagRef>>
  )

  /** `Boolean(task.completedAt)` / `!!task.completedAt`. */
  predicate IsCompleted(t: Task) {
    t.completedAt.Some?
  }

  /** `!task.completedAt`: the task still counts as open. */
  predicate IsOpen(t: Task) {
    t.completedAt.None?
  }

  /** The key the list edits match on: `task.id`. */
  function TaskId(t: Task): int {
    t.id
  }

  /** Number of elements of `ts` carrying the id `id`. */
  function CountId(ts: seq<Task>, id: int): nat {
    Count(ts, (t: Task) => t.id == id)
  }

  /** Number of open tasks in `ts` (`tasks.filter(t => !t.completedAt).length`). */
  function CountOpen(ts: seq<Task>): nat {
    Count(ts, IsOpen)
  }

  /** Milliseconds per day, the divisor the client uses for day differences. */
  const DayMs: int := 1000 * 60 * 60 * 24
}

=== FILE: tasks_container.dfy ===
/**
 * The task list container: the query it loads (search parameters plus an
 * optional day range), the has-data signal it reports to its parent, the
 * update/delete handlers it gives its cards, and what it renders.
 */
module TasksContainer {
  import opened Base
  import opened Tasks
  import opened Text
  import opened SearchParams
  import opened TaskView
  import TaskOrder

  /** The instant `days` calendar days after `now` (`setDate(getDate() + days)`, daylight saving ignored). */
  function DaysFrom(now: int, days: int): int {
    now + days * DayMs
  }

  /** The container's query: the page's parameters, plus "from"/"to" when a day range is given. */
  function RangeParams(search: Params, range: Option<(int, int)>, now: int): Params {
    match range
    case None => search
    case Some((from, to)) =>
      Set(Set(search, "from", IntToString(DaysFrom(now, from))), "to", IntToString(DaysFrom(now, to)))
  }

  /**
   * With a range, "from" and "to" each occur once and read back as the range's
   * instants; every other parameter of the page is passed through unchanged.
   */
  lemma RangeParamsLaws(search: Params, range: Option<(int, int)>, now: int)
    ensures range.None? ==> RangeParams(search, range, now) == search
    ensures range.Some? ==>
      var r := RangeParams(search, range, now);
      && |GetAll(r, "from")| == 1 && |GetAll(r, "to")| == 1
      && ParseInt(GetAll(r, "from")[0]) == Some(DaysFrom(now, range.value.0))
      && ParseInt(GetAll(r, "to")[0]) == Some(DaysFrom(now, range.value.1))
    ensures forall k :: k != "from" && k != "to" ==>
      GetAll(RangeParams(search, range, now), k) == GetAll(search, k)
  {
    if range.Some? {
      var (from, to) := range.value;
      var a := Set(search, "from", IntToString(DaysFrom(now, from)));
      SetLaws(search, "from", IntToString(DaysFrom(now, from)));
      SetLaws(a, "to", IntToString(DaysFrom(now, to)));
      ParseIntToString(DaysFrom(now, from));
      ParseIntToString(DaysFrom(now, to));
    }
  }

  // ---------------------------------------------------------------------
  // the call into the list hook

  /** What the hook's two parameters `(params, showDone)` end up holding. */
  datatype HookArgs = HookArgs(queryString: string, showDone: bool)

  /**
   * The call `useTasks(apiRoute, params, showTasksDone)` against the
   * two-parameter hook: the route string lands in `params` (its `toString()`
   * is itself) and the parameter object lands in `showDone`, where it is
   * always truthy; `showTasksDone` is dropped.
   */
  function HookArgsAsWritten(apiRoute: string, params: Params, showTasksDone: bool): HookArgs {
    HookArgs(apiRoute, true)
  }

  /** The evidently intended call `useTasks(params, showTasksDone)`. */
  function HookArgsIntended(params: Params, showTasksDone: bool): HookArgs {
    HookArgs(ToQueryString(params), showTasksDone)
  }

  /** URL requested and list shown by one load with the given hook arguments. */
  function ContainerLoad(todos: string, args: HookArgs, reply: FetchReply): (string, ViewState) {
    (LoadUrlFor(todos, args.queryString), Load(Initial, args.showDone, reply))
  }

  /**
   * As written, the list ignores the container's parameters and its
   * show-done switch: two different parameter lists give the same URL, and
   * with completed tasks switched off a completed task is still shown.
   */
  lemma ContainerQueryAsWrittenIgnoresArgs(todos: string, apiRoute: string, p1: Params, p2: Params, done: Task)
    requires IsCompleted(done)
    ensures ContainerLoad(todos, HookArgsAsWritten(apiRoute, p1, false), Fetched([])).0
         == ContainerLoad(todos, HookArgsAsWritten(apiRoute, p2, true), Fetched([])).0
    ensures done in ContainerLoad(todos, HookArgsAsWritten(apiRoute, p1, false), Fetched([done])).1.tasks
  {
  }

  /**
   * With the intended call the URL carries exactly the container's
   * parameters, and with completed tasks switched off only open tasks are
   * shown (all of them).
   */
  lemma ContainerQueryIntended(todos: string, params: Params, showTasksDone: bool, data: seq<Task>)
    requires '?' !in todos
    ensures SplitAtQuery(ContainerLoad(todos, HookArgsIntended(params, showTasksDone), Fetched(data)).0)
         == (todos, ToQueryString(params))
    ensures var shown := ContainerLoad(todos, HookArgsIntended(params, showTasksDone), Fetched(data)).1.tasks;
      !showTasksDone ==>
        (forall i :: 0 <= i < |shown| ==> IsOpen(shown[i])) && |shown| == CountOpen(data)
  {
    LoadUrlRoundTrip(todos, params);
  }

  // ---------------------------------------------------------------------
  // has-data signal

  /** `setHasData?.(tasks.length > 0)`, evaluated whenever the shown tasks change. */
  function HasDataSignal(st: ViewState): bool {
    |st.tasks| > 0
  }

  /** After a load the parent hears "has data" exactly when the reply held a task the list shows. */
  lemma HasDataAfterLoad(st: ViewState, showDone: bool, reply: FetchReply)
    ensures reply.FetchFailed? ==> !HasDataSignal(Load(st, showDone, reply))
    ensures reply.Fetched? && showDone ==> (HasDataSignal(Load(st, showDone, reply)) <==> reply.data != [])
    ensures reply.Fetched? && !showDone ==> (HasDataSignal(Load(st, showDone, reply)) <==> CountOpen(reply.data) > 0)
  {
  }

  // ---------------------------------------------------------------------
  // handlers

  datatype Effect =
    | Hook(e: HookEffect)
    | SendUpdate(task: Task)
    | SendDelete(task: Task)
    | Toast(success: bool, text: string)
    | Invalidate
    | RefetchTags

  predicate IsInvalidation(e: Effect) {
    e == Invalidate || e == Hook(HookEffect.InvalidateAll)
  }

  predicate IsSend(e: Effect) {
    e.SendUpdate? || e.SendDelete?
  }

  function Lift(es: seq<HookEffect>): (r: seq<Effect>)
    ensures |r| == |es|
    ensures forall i :: 0 <= i < |es| ==> r[i] == Hook(es[i])
  {
    seq(|es|, i requires 0 <= i < |es| => Hook(es[i]))
  }

  /** What follows the hook call in `handleUpdate`/`handleDelete`. */
  function AfterHook(resolved: bool, send: Option<Effect>, okText: string, errText: string): seq<Effect> {
    if resolved then
      (if send.Some? then [send.value] else []) + [Toast(true, okText), Invalidate, RefetchTags]
    else [Toast(false, errText)]
  }

  /** `handleUpdate(task)`: PATCH through the hook, then notify the parent, toast, invalidate, refetch tags. */
  function HandleUpdate(task: Task, reply: Reply, hasParent: bool): (r: seq<Effect>)
    ensures |r| >= 2 && r[0] == Hook(PatchTask(task))
    ensures reply.Ok? <==> Toast(true, "Task aktualisiert") in r
    ensures !reply.Ok? ==> Toast(false, "Update fehlgeschlagen") in r
    ensures !reply.Ok? ==> forall i :: 0 <= i < |r| ==> !IsInvalidation(r[i]) && !IsSend(r[i])
    ensures reply.Ok? ==> Hook(HookEffect.InvalidateAll) in r && Invalidate in r
    ensures reply.Ok? ==> (SendUpdate(task) in r <==> hasParent)
  {
    var hook := UpdateTask(task, reply);
    Lift(hook.effects)
      + AfterHook(hook.resolved, if hasParent then Some(SendUpdate(task)) else None,
                  "Task aktualisiert", "Update fehlgeschlagen")
  }

  /** `handleDelete(task)`: DELETE through the hook, then the same follow-up as an update. */
  function HandleDelete(task: Task, reply: Reply, hasParent: bool): (r: seq<Effect>)
    ensures |r| >= 2 && r[0] == Hook(HookEffect.DeleteTask(task.id))
    ensures reply.Ok? <==> Toast(true, "Task gelöscht") in r
    ensures !reply.Ok? ==> Toast(false, "Löschen fehlgeschlagen") in r
    ensures !reply.Ok? ==> forall i :: 0 <= i < |r| ==> !IsInvalidation(r[i]) && !IsSend(r[i])
    ensures reply.Ok? ==> Hook(HookEffect.InvalidateAll) in r && Invalidate in r
    ensures reply.Ok? ==> (SendDelete(task) in r <==> hasParent)
  {
    var hook := DeleteTaskOp(task.id, reply);
    Lift(hook.effects)
      + AfterHook(hook.resolved, if hasParent then Some(SendDelete(task)) else None,
                  "Task gelöscht", "Löschen fehlgeschlagen")
  }

  // ---------------------------------------------------------------------
  // rendering

  datatype Screen = Loading | ErrorText(message: string) | NoTasks | Cards(tasks: seq<Task>)

  /** The loading text, the error, the empty text, or the cards in display order. */
  function Render(st: ViewState): (r: Screen)
    ensures r.Loading? <==> st.loading
    ensures r.ErrorText? <==> !st.loading && st.error.Some? && st.error.value != ""
    ensures r.NoTasks? ==> st.tasks == []
    ensures r.Cards? ==>
      && |r.tasks| == |st.tasks| > 0
      && TaskOrder.Sorted(TaskOrder.UndatedLast, r.tasks)
      && multiset(r.tasks) == multiset(st.tasks)
    ensures r.Cards? ==> forall t :: Filter(r.tasks, TaskOrder.TiedWith(TaskOrder.UndatedLast, t))
                                  == Filter(st.tasks, TaskOrder.TiedWith(TaskOrder.UndatedLast, t))
  {
    if st.loading then Loading
    else if st.error.Some? && st.error.value != "" then ErrorText(st.error.value)
    else if st.tasks == [] then NoTasks
    else
      var sorted := TaskOrder.Sort(TaskOrder.UndatedLast, st.tasks);
      assert |multiset(sorted)| == |multiset(st.tasks)|;
      TaskOrder.SortStableAll(TaskOrder.UndatedLast, st.tasks);
      Cards(sorted)
  }
}

=== FILE: text.dfy ===
/**
 * The string primitives the client relies on: `String.prototype.trim`,
 * `split(",")` / `join(", ")`, `String(n)` for integers and `Number(s)`.
 */
module Text {
  import opened Base

  /**
   * ECMAScript WhiteSpace and LineTerminator code points: exactly the
   * characters `String.prototype.trim` removes.
   */
  predicate IsSpace(c: char) {
    || c == '\t' || c == '\U{000B}' || c == '\U{000C}' || c == ' '
    || c == '\U{00A0}' || c == '\U{FEFF}' || c == '\U{1680}'
    || ('\U{2000}' <= c <= '\U{200A}')
    || c == '\U{202F}' || c == '\U{205F}' || c == '\U{3000}'
    || c == '\n' || c == '\r' || c == '\U{2028}' || c == '\U{2029}'
  }

  predicate AllSpace(s: string) {
    forall i :: 0 <= i < |s| ==> IsSpace(s[i])
  }

  /** Neither end of `s` is whitespace. */
  predicate IsTrimmed(s: string) {
    s == [] || (!IsSpace(s[0]) && !IsSpace(s[|s| - 1]))
  }

  /** Drops leading whitespace: the result is the longest suffix not starting with whitespace. */
  function TrimStart(s: string): (r: string)
    ensures |r| <= |s| && r == s[|s| - |r|..]
    ensures r == [] || !IsSpace(r[0])
    ensures forall i :: 0 <= i < |s| - |r| ==> IsSpace(s[i])
  {
    if s != [] && IsSpace(s[0]) then TrimStart(s[1..]) else s
  }

  /** Drops trailing whitespace: the result is the longest prefix not ending in whitespace. */
  function TrimEnd(s: string): (r: string)
    ensures |r| <= |s| && r == s[..|r|]
    ensures r == [] || !IsSpace(r[|r| - 1])
    ensures forall i :: |r| <= i < |s| ==> IsSpace(s[i])
  {
    if s != [] && IsSpace(s[|s| - 1]) then TrimEnd(s[..|s| - 1]) else s
  }

  /** `String.prototype.trim`. */
  function Trim(s: string): (r: string)
    ensures IsTrimmed(r)
    ensures |r| <= |s|
  {
    TrimEnd(TrimStart(s))
  }

  /** Trimming an already trimmed string changes nothing; in particular `Trim` is idempotent. */
  lemma TrimTrimmed(s: string)
    requires IsTrimmed(s)
    ensures Trim(s) == s
  {
  }

  lemma TrimIdempotent(s: string)
    ensures Trim(Trim(s)) == Trim(s)
  {
    TrimTrimmed(Trim(s));
  }

  /** `s.trim()` is empty exactly when `s` consists of whitespace only. */
  lemma TrimEmptyIff(s: string)
    ensures Trim(s) == [] <==> AllSpace(s)
  {
    if Trim(s) == [] {
      assert TrimStart(s) == [];
    }
  }

  /** One leading blank in front of a trimmed string is trimmed away again. */
  lemma TrimBlankPrefix(s: string)
    requires IsTrimmed(s)
    ensures Trim(" " + s) == s
  {
    assert (" " + s)[1..] == s;
  }

  // ---------------------------------------------------------------------
  // split / join

  /** `s.split(sep)` for a one-character separator: "" gives [""]. */
  function Split(s: string, sep: char): (r: seq<string>)
    ensures |r| >= 1
    ensures forall i :: 0 <= i < |r| ==> sep !in r[i]
  {
    if s == [] then [[]]
    else
      var rest := Split(s[1..], sep);
      if s[0] == sep then [[]] + rest
      else [[s[0]] + rest[0]] + rest[1..]
  }

  /** `xs.join(sep)`: [] gives "". */
  function Join(xs: seq<string>, sep: string): string
  {
    if |xs| == 0 then ""
    else if |xs| == 1 then xs[0]
    else xs[0] + sep + Join(xs[1..], sep)
  }

  /** A join is at least as long as its first piece. */
  lemma JoinStartsWithFirst(xs: seq<string>, sep: string)
    requires xs != []
    ensures |Join(xs, sep)| >= |xs[0]|
  {
  }

  /** The pieces `split(",")` returns for a `join(", ")`: every piece but the first keeps the blank. */
  function Padded(xs: seq<string>): (r: seq<string>)
    ensures |r| == |xs|
  {
    seq(|xs|, i requires 0 <= i < |xs| => if i == 0 then xs[0] else " " + xs[i])
  }

  lemma {:induction false} SplitNoSeparator(s: string, sep: char)
    requires sep !in s
    ensures Split(s, sep) == [s]
  {
    if s != [] {
      SplitNoSeparator(s[1..], sep);
      assert [s[0]] + s[1..] == s;
    }
  }

  /** A comma-free piece, then ", ": `split(",")` cuts exactly at the comma. */
  lemma {:induction false} SplitAfterComma(a: string, t: string)
    requires ',' !in a
    ensures Split(a + ", " + t, ',') == [a] + Split(" " + t, ',')
  {
    var s := a + ", " + t;
    if a == [] {
      assert s == ", " + t;
      assert s[1..] == " " + t;
    } else {
      assert s[0] == a[0];
      assert s[1..] == a[1..] + ", " + t;
      SplitAfterComma(a[1..], t);
      assert [a[0]] + a[1..] == a;
    }
  }

  /** A leading blank ends up at the front of the first piece. */
  lemma SplitBlankPrefix(s: string, sep: char)
    requires sep != ' '
    ensures Split(" " + s, sep) == [" " + Split(s, sep)[0]] + Split(s, sep)[1..]
  {
    assert (" " + s)[1..] == s;
  }

  /** Splitting the ", "-join of comma-free pieces on "," gives the pieces back, blank-padded. */
  lemma {:induction false} SplitJoinComma(xs: seq<string>)
    requires |xs| >= 1
    requires forall i :: 0 <= i < |xs| ==> ',' !in xs[i]
    ensures Split(Join(xs, ", "), ',') == Padded(xs)
  {
    if |xs| == 1 {
      SplitNoSeparator(xs[0], ',');
    } else {
      var rest := xs[1..];
      forall i | 0 <= i < |rest| ensures ',' !in rest[i] {
        assert rest[i] == xs[i + 1];
      }
      SplitJoinComma(rest);
      SplitJoinCommaStep(xs);
    }
  }

  /** The step of the induction above: one more piece in front. */
  lemma SplitJoinCommaStep(xs: seq<string>)
    requires |xs| >= 2 && ',' !in xs[0]
    requires Split(Join(xs[1..], ", "), ',') == Padded(xs[1..])
    ensures Split(Join(xs, ", "), ',') == Padded(xs)
  {
    var tail := Join(xs[1..], ", ");
    assert Join(xs, ", ") == xs[0] + ", " + tail;
    SplitAfterComma(xs[0], tail);
    SplitBlankPrefix(tail, ',');
    PaddedCons(xs);
  }

  /** Padding one more piece in front: the old first piece gains its blank. */
  lemma PaddedCons(xs: seq<string>)
    requires |xs| >= 2
    ensures Padded(xs) == [xs[0]] + ([" " + Padded(xs[1..])[0]] + Padded(xs[1..])[1..])
  {
    var p := Padded(xs[1..]);
    var r := [xs[0]] + ([" " + p[0]] + p[1..]);
    forall i | 0 <= i < |xs| ensures r[i] == Padded(xs)[i] {
      if i >= 2 { assert r[i] == p[i - 1]; }
    }
  }

  /** A string's truthiness (`filter(Boolean)` keeps exactly these). */
  predicate NonEmpty(s: string) {
    s != ""
  }

  /** Every piece trimmed (`.map(t => t.trim())`). */
  function TrimAll(xs: seq<string>): (r: seq<string>)
    ensures |r| == |xs|
    ensures forall i :: 0 <= i < |xs| ==> r[i] == Trim(xs[i])
  {
    seq(|xs|, i requires 0 <= i < |xs| => Trim(xs[i]))
  }

  /** Trimming never brings in a character the string did not have. */
  lemma TrimKeepsOut(s: string, c: char)
    requires c !in s
    ensures c !in Trim(s)
  {
    var t := TrimStart(s);
    assert t == s[|s| - |t|..];
    assert Trim(s) == t[..|Trim(s)|];
  }

  /** `s.split(",").map(t => t.trim())`: trimmed, comma-free pieces. */
  function CommaPieces(s: string): (r: seq<string>)
    ensures |r| == |Split(s, ',')| && r == TrimAll(Split(s, ','))
    ensures forall i :: 0 <= i < |r| ==> IsTrimmed(r[i]) && ',' !in r[i]
  {
    var pieces := Split(s, ',');
    forall i | 0 <= i < |pieces| ensures ',' !in Trim(pieces[i]) {
      TrimKeepsOut(pieces[i], ',');
    }
    TrimAll(pieces)
  }

  /** Trimming the blank-padded pieces of trimmed strings restores them. */
  lemma TrimAllPadded(xs: seq<string>)
    requires forall i :: 0 <= i < |xs| ==> IsTrimmed(xs[i])
    ensures TrimAll(Padded(xs)) == xs
  {
    forall i | 0 <= i < |xs| ensures Trim(Padded(xs)[i]) == xs[i] {
      if i == 0 {
        TrimTrimmed(xs[0]);
      } else {
        TrimBlankPrefix(xs[i]);
      }
    }
  }

  // ---------------------------------------------------------------------
  // decimal numbers: String(n) and Number(s)

  predicate IsDigit(c: char) {
    '0' <= c <= '9'
  }

  predicate AllDigits(s: string) {
    forall i :: 0 <= i < |s| ==> IsDigit(s[i])
  }

  function DigitChar(d: nat): (c: char)
    requires d < 10
    ensures IsDigit(c)
  {
    (48 + d) as char
  }

  function DigitValue(c: char): nat
    requires IsDigit(c)
  {
    (c as int) - 48
  }

  /** `String(n)` for a non-negative integer: its decimal digits, no leading zero. */
  function NatToString(n: nat): (r: string)
    ensures |r| >= 1 && AllDigits(r)
    ensures r[0] == '0' ==> n == 0
  {
    if n < 10 then [DigitChar(n)]
    else NatToString(n / 10) + [DigitChar(n % 10)]
  }

  /** The value of a string of decimal digits. */
  function DigitsValue(s: string): nat
    requires AllDigits(s)
  {
    if s == [] then 0
    else DigitsValue(s[..|s| - 1]) * 10 + DigitValue(s[|s| - 1])
  }

  /** A non-empty string of decimal digits denotes a number; anything else does not. */
  function ParseNat(s: string): Option<nat>
  {
    if s != [] && AllDigits(s) then Some(DigitsValue(s)) else None
  }

  lemma {:induction false} ParseNatToString(n: nat)
    ensures ParseNat(NatToString(n)) == Some(n)
  {
    var r := NatToString(n);
    if n >= 10 {
      ParseNatToString(n / 10);
      assert r[..|r| - 1] == NatToString(n / 10);
      assert DigitValue(r[|r| - 1]) == n % 10;
      assert DigitsValue(r) == (n / 10) * 10 + n % 10;
    }
  }

  /** `String(i)` for any integer. */
  function IntToString(i: int): (r: string)
    ensures |r| >= 1
  {
    if i < 0 then "-" + NatToString(-i) else NatToString(i)
  }

  /** An optional minus sign followed by decimal digits. */
  function ParseInt(s: string): Option<int>
  {
    if s != [] && s[0] == '-' then
      match ParseNat(s[1..])
      case Some(n) => Some(0 - n as int)
      case None => None
    else
      match ParseNat(s)
      case Some(n) => Some(n)
      case None => None
  }

  lemma ParseIntToString(i: int)
    ensures ParseInt(IntToString(i)) == Some(i)
  {
    if i < 0 {
      ParseNatToString(-i);
      assert IntToString(i)[1..] == NatToString(-i);
    } else {
      ParseNatToString(i);
    }
  }

  /**
   * `Number(s)` on the strings this client produces: "" is 0, an optional
   * minus followed by decimal digits is that integer, anything else is NaN
   * (`None`).
   */
  function JsNumber(s: string): Option<int>
  {
    if s == [] then Some(0) else ParseInt(s)
  }

  /** `!!Number(s)`: NaN and zero are falsy. */
  predicate NumberIsTruthy(s: string) {
    JsNumber(s).Some? && JsNumber(s).value != 0
  }

  /** `String(Number(b))` for a boolean: "1" or "0". */
  function BoolDigit(b: bool): (r: string)
    ensures NumberIsTruthy(r) == b
  {
    if b then "1" else "0"
  }
}
